=== FILE: README.md ===
# Android UI-automation decision core, in Dafny

This project models the decision-and-verification engine of an Android
UI-automation loop (observe → plan → act → verify). The engine works over a
normalized UI snapshot: a flat list of elements plus an `element_id` index. It
also takes the focused `package_activity` string, a target config and an
append-only history of plans. The model covers these pieces:

- **Normalizer:** bounds parsing, element construction and the id index.
- **Selector resolvers:** the actuator's `find_by_selector` and the tiered
  `resolve_selector` with its scored fuzzy fallback.
- **Rule-based planner:** the app guard, ordered hints with target precedence,
  the anti-repeat and search-field guards, and the scroll or wait fallback,
  checked against a restatement of the action schema.
- **Action executor:** which adb input commands an action issues and what it
  reports.
- **Two termination evaluators:** `evaluate_termination` and the runner's
  `goal_satisfied`, including how they differ.
- **Verifier retry loop:** back-off delays are recorded instead of slept.
- **The runner's heuristics:** the ENTER nudge and expectation derivation.
- **adb text escaping and focus-line scanning.**
- **The goal router:** slugs, registry lookup and config synthesis.
- **Deterministic processing around the three LLM planners:** the brace-scan
  JSON extractor, the open_app post-fix, the invalid-action policies, the
  Gemini assists, chat-format selection and API-key precedence.

Everything is immutable datatypes and pure functions, except two methods: the
verifier's retry loop and its `verify_and_retry` wrapper. Several things are
parameters rather than reimplemented:

- the device and the adb primitives' results;
- the sequence of observations;
- `difflib` similarity;
- SHA-1;
- `ast.literal_eval`;
- `json.loads`;
- regular-expression search;
- LLM output text;
- environment variables.

One module per source file, plus shared modules:

| module | what it holds |
|---|---|
| `Base` | `Option` and `Result` |
| `Strings` | ASCII case mapping, Python whitespace `strip`, substring, `split`, `int()` and `str()` |
| `Ui` | elements, snapshots, actions, configs, termination specs, history |

Where the repository's prose description and its code disagree, the model
follows the code:

- `resolve_selector` runs the fuzzy tier for every selector kind, `bounds` and
  `resource-id` included.
- Neither resolver has a clickable-element preference or wrapper search.
- `evaluate_termination` accepts an empty config.
- `goal_satisfied` rejects an empty config and ignores `any_of_texts` and
  `all_of_texts` (see Findings).
- `verify_and_retry` never uses or re-issues its action argument.

## Model

| member | source | states |
|---|---|---|
| `Resolver.ResolveSelector` | src/selector_resolver.py:12-64 | No snapshot or no target gives None. An exact-tier hit is the result. With no exact hit, whatever the selector, the result is the best fuzzy candidate. A miss means no exact hit and no fuzzy candidate. Any result is an element of the snapshot. |
| `Resolver.ExactTier` | src/selector_resolver.py:19-48 | For `element_id` the index entry, present exactly when the id is indexed. For every other selector the first element in order that matches exactly, and None exactly when none does. |
| `Resolver.BestCandidate` | src/selector_resolver.py:50-62 | None exactly when no element qualifies. Otherwise a qualifying element whose score is at least every qualifying score, and strictly above every earlier qualifying element's score. |
| `Resolver.BestAt` | src/selector_resolver.py:60-62 | The stable descending sort's head: a qualifying element with the highest score. Every earlier qualifying element scores strictly less, so ties go to the first. None exactly when nothing qualifies. |
| `Resolver.TextTierFirstMatch` | src/selector_resolver.py:25-29 | The `text` selector returns the first element in document order whose trimmed text equals the trimmed value. |
| `Resolver.TextMatch` | src/selector_resolver.py:26-28 | The text tier matches an element exactly when the trimmed texts are equal. |
| `Resolver.BlobEmpty` | src/selector_resolver.py:53-55 | An element's fuzzy blob is empty exactly when both its trimmed text and trimmed content description are empty, so such elements are never candidates. |
| `Resolver.BlankValueFindsShownElement` | src/selector_resolver.py:50-62 | A blank value with no exact hit still resolves whenever some element shows text, because the empty needle is contained in every blob. |
| `Resolver.BlankContained` | src/selector_resolver.py:57 | A blank value is contained in any element's blob. |
| `Resolver.RemoveSpacesJoin` | src/selector_resolver.py:47 | Removing spaces from the `", "`-joined digit list gives the `","`-joined list. |
| `Resolver.CompactBoundsMatch` | src/selector_resolver.py:43-48 | The compact rendering `[l,t,r,b]`, without spaces, matches the element by the space-stripped comparison. |
| `Actuator.FindBySelector` | src/actuator.py:9-38 | `element_id` is an index lookup that finds exactly the indexed ids. The other selectors return the first element in order that answers them, and None only when none does. On a consistent index the result is a snapshot element. |
| `Actuator.UnknownSelectorFindsNothing` | src/actuator.py:9-38 | A selector kind other than the five known ones finds nothing. |
| `Actuator.TextSelectorIgnoresPadding` | src/actuator.py:18-21 | Surrounding the `text` value with whitespace does not change which element is found. |
| `Actuator.RenderCmd` | src/actuator.py:57-119 | The logged command line. It starts with `am start -n ` exactly for an app start, which renders as that prefix and the component. Every other command starts with `input `. A text input renders as `input text ` followed by the text unchanged. |
| `Actuator.Log` | src/actuator.py:51-122 | The `adb_cmds` log holds one line per issued command, in order, each line that command's rendering. |
| `Actuator.ExecActionLog` | src/actuator.py:54-110 | open_app logs exactly `am start -n <target>`. back logs exactly `input keyevent KEYCODE_BACK`. type's last line is `input text <text>`. Every line of a successful run is an `am start -n ` or an `input ` command. |
| `Actuator.ExecAction` | src/actuator.py:40-129 | An exception escapes exactly for open_app without a target and for type with a non-string text. open_app issues `am start -n` of the target value. back issues the BACK key event. tap issues one tap at the aim point. type ends with `input text` of its text and is preceded by a focusing tap exactly when both aim coordinates are non-zero. swipe with four integer fields issues one swipe, with duration 300 when none is given. Otherwise swipe reports a parse error and issues nothing. Any other kind is unsupported and issues nothing. Whenever a command is issued, success and note are the primitive's. |
| `Actuator.TapHitsResolvedCenter` | src/actuator.py:71-97 | A tap whose target resolves taps the element's center and issues nothing else. |
| `Actuator.TapOnRawCoordinates` | src/actuator.py:77-87 | A tap whose target does not resolve but whose value is `x,y` taps `(x, y)` and reports the primitive's result. |
| `Actuator.RawCoords` | src/actuator.py:79-87 | No comma gives the origin. Otherwise the first two comma fields as integers, or the origin when either does not parse. |
| `Actuator.AimPoint` | src/actuator.py:71-89 | No target aims at the origin. A target that resolves aims at the element's center, which is a snapshot element's center. A target that does not resolve aims at the raw coordinates of its value. |
| `Actuator.RawCoordsRoundTrip` | src/actuator.py:79-83 | Rendering `x,y` and parsing it back gives the point `(x, y)`. |
| `Actuator.SwipeCoordsRoundTrip` | src/actuator.py:112-123 | Rendering four integers as `x1,y1,x2,y2` and parsing them back gives the four integers. |
| `Actuator.SwipeCoordsFields` | src/actuator.py:112-117 | The swipe value parses exactly when it splits into four comma fields that all parse as integers. The coordinates are their values in order. |
| `Actuator.SchemaShapedActionsThatRaise` | src/actuator.py:54-110 | An open_app without a target and a type with a null text both escape with an exception. |
| `Actuator.TypeFocusesWhenAimed` | src/actuator.py:99-110 | A type action whose text is a string or absent never raises. It always ends with `input text` of its text argument. It issues two commands, the focusing tap first, exactly when both aim coordinates are non-zero. |
| `Adb.EscapeChar` | src/adb_wrapper.py:71-78 | A space becomes `%s`. A shell metacharacter becomes a space. Any other character is kept. So no output character is a metacharacter, and the output holds a space exactly when the input was a metacharacter. |
| `Adb.EscapeTextForInput` | src/adb_wrapper.py:67-79 | Output length is input length plus the number of spaces. No metacharacter survives. The output's spaces are as many as the input's metacharacters. |
| `Adb.EscapeAppend` | src/adb_wrapper.py:70-79 | Escaping works character by character: escaping a concatenation concatenates the escapes. |
| `Adb.EscapePosition` | src/adb_wrapper.py:67-79 | Input character `i` is replaced in place by its escape, at offset `i` plus the spaces before it. |
| `Adb.FirstComponent` | src/adb_wrapper.py:40-42 | The first token holding both `/` and `.`, or None when no token does. |
| `Adb.ScanFocused` | src/adb_wrapper.py:37-42 | The component of the first focus-mentioning line that has one. Earlier lines contribute none. |
| `Adb.FocusedActivity` | src/adb_wrapper.py:33-47 | A failed dumpsys gives None. A line hit is returned. Otherwise a successful fallback with non-blank output gives exactly its stripped output, and nothing else gives a result. A result is never empty. |
| `Normalizer.ParseFormatBounds` | src/normalizer.py:12-19 | Parsing the rendering `[l,t][r,b]` followed by any suffix gives back the rectangle. The match is not anchored at the end. |
| `Normalizer.ParseBoundsNeedsBracket` | src/normalizer.py:14-17 | Input not starting with `[` does not parse. |
| `Normalizer.ParseBounds` | src/normalizer.py:12-19 | A parse needs at least the ten characters of `[d,d][d,d]`, starting with `[`. The left edge is the value of the digit run after `[`. |
| `Normalizer.ParseBoundsOfPrefix` | src/normalizer.py:12-19 | A string opening with `[a,b][c,d]`, for non-empty digit runs a, b, c, d, parses to the rectangle of those four values, whatever follows. |
| `Normalizer.ParseBoundsShape` | src/normalizer.py:12-19 | The pattern matches exactly the strings that open with `[d+,d+][d+,d+]`. For every such opening, the parsed rectangle holds the values of its four digit runs in order. |
| `Normalizer.MakeElement` | src/normalizer.py:30-54 | Absent attributes read as `""`. `clickable` and `focusable` hold only for the exact string `true`. Unparseable bounds default to zeros. The center is the floor midpoint, inside the bounds. The id is the hash of the id key. |
| `Normalizer.IdIgnoresOtherAttributes` | src/normalizer.py:42-43 | Two nodes that agree on resource-id, text and bounds string get the same `element_id`, whatever their other attributes. |
| `Normalizer.IndexById` | src/normalizer.py:56 | Every element's id is a key. Every key maps to an element with that id. |
| `Normalizer.IndexByIdLastWins` | src/normalizer.py:56 | With duplicate ids, the last element in document order is the one indexed. |
| `Normalizer.Normalize` | src/normalizer.py:24-57 | One element per node, in order, each built from its node, and the index is consistent with the elements. |
| `Planner.FindFirstPresent` | src/planner.py:63-69 | The first candidate selector that resolves, or None when none does. |
| `Planner.NeedOpenApp` | src/planner.py:85-100 | Returns open_app of the configured component, which is schema-valid. It does so exactly when no allowed package is in the activity and a component is configured. In addition, either the component's package is not in the activity or a package is configured. |
| `Planner.FirstBadGroup` | src/planner.py:136-137 | The first group index of the spec that the match does not have, or None when all exist. |
| `Planner.BuildGroupArgs` | src/planner.py:136-137 | The args hold exactly the keys the group spec names. |
| `Planner.BuildGroupArgsLastWins` | src/planner.py:136-137 | A key's value is its last spec entry's group. |
| `Planner.GroupArgs` | src/planner.py:133-137 | Fails exactly when some requested group index is out of range, and names the first such index in spec order. On success the args are the built args, and each key holds the group of its last spec entry. |
| `Planner.MergeStatic` | src/planner.py:139-143 | Static args override group args, except for null values. Other group args are kept, and no key is invented. |
| `Planner.GroupTargetOf` | src/planner.py:145-161 | An invalid group index gives no target. With a prefix or suffix the target is prefix, group (`None` when unmatched) and suffix. Without them there is a target exactly when the group matched non-empty text, and it is that text. A target keeps the configured selector, is non-empty and starts with the prefix. |
| `Planner.ChooseTarget` | src/planner.py:119-161 | A static target wins. Otherwise, when some preferred selector finds an element, the first preferred selector that does. Otherwise the regex group target when a group target, a regex and a match exist, else none. |
| `Planner.HintStep` | src/planner.py:109-215 | A hint crashes exactly when its gates pass and a group argument index is out of range, and the crash names that index. It fires exactly when its gates pass, its group arguments build, and the built action is not rejected. Rejected means an open_app in an allowed package, a tap or open_app without a target, a recent retype, a search tap while a search field shows, or a schema failure. A fired action is the built action: the hint's kind, the chosen target, and static args over group args. |
| `Ui.Recent` | src/planner.py:184 | The last three history entries, or fewer when the history is shorter, in order. |
| `Planner.PlanHints` | src/planner.py:108-215 | The first hint in declaration order that does not skip decides the step. Skip means every hint skipped. |
| `Planner.Fallback` | src/planner.py:217-225 | A schema-valid, target-less scroll carrying all defaults, overridden key by key by `fallback_scroll_args`. If scrolling is turned off, a wait of 500 ms. |
| `Planner.PlanNextAction` | src/planner.py:102-225 | When the app guard fires, its action is returned. Otherwise the first hint that does not skip decides: its action, or its group error. When all skip, the fallback. Every planned action is schema-valid, with the same target, open_app, retype and search-tap guarantees as a fired hint. A group error happens only past the guard. |
| `Planner.NoImmediateRetype` | src/planner.py:180-192 | Right after a type, a planned type has non-empty text that differs from the last typed text, after strip and lower-case. |
| `Planner.NotTypedAfterLast` | src/planner.py:180-192 | Text that passes the anti-repeat guard after a type is non-empty and differs from that type's text. |
| `Planner.FallbackWhenNoHintFires` | src/planner.py:217-222 | When the guard is quiet and every hint skips, the plan is the fallback. |
| `Planner.GateClosedSkips` | src/planner.py:110-112 | A keyword hint none of whose words occurs in the goal, ignoring case, is skipped. |
| `Termination.ShowsAny` | src/termination.py:9-11 | An element shows some text of the list in its text or description, ignoring case. |
| `Termination.CiContains` | src/termination.py:4-5 | Holds exactly when the haystack is non-empty and the needle occurs in it at some offset, character by character ignoring case. An empty needle is in every non-empty haystack. |
| `Termination.AnyTextPresent` | src/termination.py:7-12 | The nested scan holds exactly when some element shows some text. |
| `Termination.AllTextsPresent` | src/termination.py:51 | Holds exactly when every text is shown by some element. |
| `Termination.Reasons` | src/termination.py:28-53 | One reason per check the spec names, in the order package, activity, must_contain_text, any_of_texts, all_of_texts. Each reason carries its expected value and its outcome. Package and activity are case-insensitive substrings of the focus string, and the text checks are the element scans. |
| `Termination.EvaluateTermination` | src/termination.py:17-54 | The verdict is the conjunction of the reasons, and the detail is the reason list of the named checks. The focus string is echoed back. An empty spec is met, with no reasons. |
| `Termination.VerdictMeetsSpec` | src/termination.py:26-53 | The verdict holds exactly when every named check holds. Package and activity are case-insensitive substrings, and the text checks are as in the scan. |
| `Termination.EmptyTextLists` | src/termination.py:44-53 | An empty `any_of_texts` list is never met. An empty `all_of_texts` list always is. |
| `Termination.MoreElementsStillMeet` | src/termination.py:7-15 | More elements on screen never turn a met spec into an unmet one. |
| `Termination.PackageCheckIgnoresCase` | src/termination.py:29-33 | Upper-casing the expected package does not change the verdict. |
| `Verifier.FuzzyTextPresent` | src/verifier.py:7-16 | Holds exactly when some element other than an input field has stripped, lower-cased text containing the needle. |
| `Verifier.Passes` | src/verifier.py:32-50 | Holds exactly when each given check holds: some non-input element contains the text, some element's stripped text equals the exact text, and the focus string is non-empty and contains the activity. Nothing given passes. A given activity with no focus string fails. |
| `Verifier.Backoff` | src/verifier.py:24-54 | The sleep after failed attempt `i + 1` is table entry `i`, capped at the last entry, and is positive. |
| `Verifier.RetryUntil` | src/verifier.py:23-55 | Stops at the first passing attempt. Earlier attempts failed, and a failure uses the whole budget with every attempt failing. It makes attempts minus one delays, following the 0.5, 1, 2, 2, … table. |
| `Verifier.VerifyAndRetry` | src/verifier.py:18-55 | No expectation with a budget of at least one succeeds on attempt one. A budget of zero or less makes no attempt and fails. Success means the attempt's frame passes. Attempts never exceed `max(0, max_retries)`. The returned frame is the last attempt's, and there is none when no attempt was made. |
| `Verifier.TotalBackoffBound` | src/verifier.py:53-54 | The first `n ≥ 2` sleeps total 1.5 s plus 2 s for each sleep after the second. No `n` sleeps total more than 2 s times `n`. |
| `RunGoal.TextOnScreen` | src/run_goal.py:53-55 | Some element's stripped, lower-cased text contains the needle. No input-field exclusion. |
| `RunGoal.GoalSatisfied` | src/run_goal.py:48-69 | False on an empty spec; a spec holding only keys no check reads is not empty. Otherwise the conjunction of the text check, the case-sensitive activity and package substrings, and "no non-empty banned package in the activity". |
| `RunGoal.UnreadKeysMeetAnyScreen` | src/run_goal.py:48-69 | A spec whose keys are all ones no check reads, such as a misspelt `{"text": "Done"}`, is met by every screen, even one with no elements and nothing in focus. |
| `RunGoal.TextListOnlySpecIsVacuous` | src/run_goal.py:48-69 | A spec naming only a text list is met by an empty screen. |
| `RunGoal.GoalSatisfiedFixed` | src/run_goal.py:48-69 | Holds exactly when the as-written verdict holds, some text of `any_of_texts` is on screen when the list is given, and every text of `all_of_texts` is on screen when that list is given. |
| `RunGoal.AnyOnScreen` | src/run_goal.py:53-55 | Holds exactly when some text of the list passes the runner's text check. |
| `RunGoal.AllOnScreen` | src/run_goal.py:53-55 | Holds exactly when every text of the list passes the runner's text check. |
| `RunGoal.FixedIsNotVacuous` | src/run_goal.py:48-69 | A non-empty `any_of_texts`-only spec is met by an empty screen as written but not by the corrected evaluator. |
| `RunGoal.EvaluatorsDisagreeOnEmptySpec` | src/run_goal.py:50-52 | On an empty spec the runner's evaluator says no while `evaluate_termination` says yes. |
| `RunGoal.EvaluatorsDisagreeOnCase` | src/run_goal.py:59-61 | Package `app` against activity `App`: the runner rejects and `evaluate_termination` accepts. |
| `RunGoal.EvaluatorsAgreeOnLowerCase` | src/run_goal.py:56-61 | For package and activity checks on lower-case strings, both evaluators agree. |
| `RunGoal.VerifierTextImpliesRunnerText` | src/run_goal.py:53-55 | Whenever the verifier sees a text, the runner's text check sees it too. |
| `RunGoal.InputFieldSeparatesTextTests` | src/run_goal.py:53-55 | An input field showing the needle satisfies the runner but not the verifier. |
| `RunGoal.NeedsEnterAfterType` | src/run_goal.py:71-94 | Holds exactly when the last plan was a type, no ENTER or SEARCH key event is among the last three plans, and the lower-cased goal contains a trigger phrase. |
| `RunGoal.NoSecondEnter` | src/run_goal.py:81-87 | After an ENTER, no further ENTER is nudged, even after one more type. |
| `RunGoal.DeriveExpectation` | src/run_goal.py:197-212 | open_app expects the package as activity, when one is configured. A type of phone-like text expects the exact `Send to <text>`. Another type expects the configured text, when there is one. Nothing else is verified, and no expectation is empty. |
| `RunGoal.PhoneExpectationPasses` | src/run_goal.py:206-212 | The phone expectation passes exactly when some element's stripped text is `Send to <digits>`. |
| `GoalRouter.Dashify` | src/goal_router.py:101 | Empty exactly for empty input. The first character is `-` exactly when the input starts with a non-alphanumeric. |
| `GoalRouter.DashifyShape` | src/goal_router.py:101 | The result has only alphanumerics and `-`, no doubled `-`, and no upper case when the input had none. |
| `GoalRouter.SlugBody` | src/goal_router.py:101 | The lower-cased, dashed, trimmed text is empty or slug-shaped: no leading, trailing or doubled `-`. |
| `GoalRouter.Truncate` | src/goal_router.py:102-103 | Cutting to 48 characters and right-trimming `-` keeps the slug shape and is empty only for empty input. It is the identity on short input. |
| `GoalRouter.Slugify` | src/goal_router.py:100-104 | Always a non-empty slug of at most 48 characters: lower-case ASCII letters, digits and single inner dashes. |
| `GoalRouter.SlugifyIdempotent` | src/goal_router.py:100-104 | Slugifying a slug gives the same slug. |
| `GoalRouter.SlugifyWithoutAlnums` | src/goal_router.py:100-104 | Text without letters or digits slugs to the fallback `goal`. |
| `GoalRouter.ChooseEntry` | src/goal_router.py:38-56 | The exact lower-cased key wins, unless its entry is `{}`. Otherwise the first entry with an alias equal to the name, ignoring case. The chosen entry is never blank. |
| `GoalRouter.BaseConfigAsWritten` | src/goal_router.py:57-67 | Component and package come from the entry, and the termination asks only for the package. The fallback-scroll policy is left at its default. |
| `GoalRouter.BaseConfig` | src/goal_router.py:57-67 | The same config with the entry's fallback-scroll policy carried over. |
| `GoalRouter.InferApp` | src/goal_router.py:70-82 | Returns a registry key. When some key occurs in the lower-cased goal, the result is the first such key in registry order. Otherwise it is the first entry with an alias occurring in the goal. None exactly when no key and no alias occurs. |
| `GoalRouter.KeysBeforeAliases` | src/goal_router.py:73-76 | The first key occurring in the lower-cased goal is the answer, whatever aliases match earlier entries. |
| `GoalRouter.ExtractSearchTerm` | src/goal_router.py:85-97 | A found term is stripped. The `search [for] X` pattern's non-empty term wins, then the `find X` term. Otherwise a quoted phrase gives its stripped content. With no pattern matching there is no term. |
| `GoalRouter.SearchTermFromGoal` | src/goal_router.py:85-97 | When each pattern's groups are pieces of the goal, the extracted term is a piece of the goal. |
| `GoalRouter.TitleKeepsLetters` | src/goal_router.py:124 | Title-casing changes only case. |
| `GoalRouter.DrawerTarget` | src/goal_router.py:115-123 | The registry key is the name when it is set and the words after `open` do not mention it, ignoring case. Otherwise the name is those words. A lower-case key is always contained in the name. |
| `GoalRouter.DrawerConfig` | src/goal_router.py:124-163 | No component or package, termination `not_package_in` the launchers, the seven fixed hints, and the type and labelled-tap hints only for a non-empty target name. |
| `GoalRouter.MergeTermination` | src/goal_router.py:185-197 | A non-empty search term sets `must_contain_text`. The configured package is added only when the termination has none. Nothing else changes. |
| `GoalRouter.KnownEntry` | src/goal_router.py:109 | The registry entry is consulted only for a present, non-empty app key. A missing or empty key gives no entry. |
| `GoalRouter.EmptyKeyTakesDrawer` | src/goal_router.py:107-112 | A registry keyed by `""` makes every goal infer the empty key. The config then gets the drawer termination and an empty package, not the entry's. |
| `GoalRouter.SynthesizeAsWritten` | src/goal_router.py:180-184 | The synthesized config always scrolls on a miss, with default arguments, whatever the registry says. An inferred empty key is falsy and takes the drawer path. |
| `GoalRouter.Synthesize` | src/goal_router.py:107-197 | For a known app: the entry's package, its termination with the search term, and its fallback policy. For an unknown app, or an inferred empty key: the drawer config, with the extra hints exactly when a target name was found. It equals the as-written config apart from the fallback policy. |
| `GoalRouter.FallbackPolicyLost` | src/goal_router.py:180-184 | An entry that turns scrolling off still scrolls as written, and does not after correction. |
| `LlmOutput.Find` | src/gemini_llm_planner.py:63-65 | The first `{`, or None exactly when there is none. |
| `LlmOutput.CloseFrom` | src/gemini_llm_planner.py:66-73 | The first end position where the brace depth from the start returns to zero, or None when it never does. |
| `LlmOutput.BraceScan` | src/llm_planner.py:85-97 | "No object" exactly when there is no `{`. Otherwise the slice from the first `{` to the first brace that balances it, or "unbalanced". |
| `LlmOutput.ScanFindsObject` | src/remote_llm_planner.py:68-81 | A balanced object preceded by brace-free text is extracted exactly, whatever follows it. |
| `LlmOutput.ExtractJsonObject` | src/gemini_llm_planner.py:58-74 | Strict parsing wins. Otherwise a scan failure is returned as is, with "no object" when there is no `{`. A scanned slice that parses gives its value, and one that does not fails. |
| `LlmOutput.ProseAroundObject` | src/gemini_llm_planner.py:58-74 | Brace-free prose, a balanced parsable object, then anything, which does not parse as a whole, yields exactly that object. |
| `LlmOutput.PostFix` | src/llm_planner.py:181-190 | In the wrong app with a component, open_app, parsed or not. Otherwise the parsed action, or a wait of 400 ms when nothing parsed. |
| `LlmOutput.FallbacksValid` | src/remote_llm_planner.py:157-165 | The post-fix's own fallback actions are schema-valid. |
| `LlmOutput.OrWait` | src/remote_llm_planner.py:167-171 | Always schema-valid. A valid action passes through, and an invalid one becomes a 400 ms wait. |
| `LlmOutput.OrRaise` | src/llm_planner.py:191-195 | Succeeds exactly on a valid action and returns it. |
| `LlmOutput.PlanOrWait` | src/remote_llm_planner.py:151-171 | The remote planner's output is schema-valid, and open_app when in the wrong app. Outside the wrong app, a parsed schema-valid action is returned as it is. A reply that does not parse, or parses to an invalid action, becomes a 400 ms wait. |
| `LlmOutput.PlanOrRaise` | src/llm_planner.py:176-195 | The local planner's output is schema-valid when returned, and open_app when in the wrong app. It raises exactly when, outside the wrong app, the reply parses to a schema-invalid action. A parsed valid action is returned as it is. A reply that does not parse gives a 400 ms wait. |
| `LlmOutput.PoliciesAgree` | src/llm_planner.py:191-195 | The raising and waiting policies return the same action whenever the first returns. The first raises only on a parsed invalid action, where the second waits 400 ms. |
| `LlmOutput.ChatFormat` | src/llm_planner.py:116-124 | An explicit format wins. Otherwise the first rule of the table (mistral to `mistral-instruct`, then llama-2 to `llama-2`) whose name occurs in the lower-cased model path, else none. |
| `LlmOutput.FirstRule` | src/llm_planner.py:119-124 | None exactly when no rule name occurs in the path. Otherwise the format of the first rule whose name occurs. |
| `LlmOutput.ResolveApiKey` | src/remote_llm_planner.py:100-103 | The argument wins. Otherwise the first non-empty of the three environment variables in order. An error exactly when all are unset or empty. |
| `GeminiPlanner.ScrollIntent` | src/gemini_llm_planner.py:124-133 | Some direction exactly when the goal says `scroll`. Up exactly for `scroll up`, otherwise down. |
| `GeminiPlanner.MentionedWords` | src/gemini_llm_planner.py:158-161 | Every label word the goal mentions is kept, every kept word is one the goal mentions, and the list is no longer than the word list. |
| `GeminiPlanner.ScrollTerms` | src/gemini_llm_planner.py:146-161 | The terms end with exactly the mentioned label words, in list order. At most one phrase precedes them, and only when the label pattern matches the goal. |
| `GeminiPlanner.ScrollAssist` | src/gemini_llm_planner.py:135-175 | A tap by `element_id` on the first element showing a term, when there is one. Otherwise the strong scroll in the requested direction. |
| `GeminiPlanner.GoalSearchTerm` | src/gemini_llm_planner.py:195-207 | The stripped termination text wins when non-blank. Otherwise the stripped second group of a `search` match, else the stripped first group of a `find` match, else no term. Any term is stripped. |
| `GeminiPlanner.Assist` | src/gemini_llm_planner.py:143-217 | With scroll intent, the scroll assist. Otherwise it types the term into the first input field exactly when a field and a non-empty term exist and the term was not already typed. |
| `GeminiPlanner.PlanNextAction` | src/gemini_llm_planner.py:115-266 | An assist is returned before any model output is used. Otherwise the action is schema-valid, and open_app in the wrong app. With no assist, the result is exactly the remote planner's answer: the post-fixed parsed action, or a 400 ms wait when it is missing or invalid. |
| `GeminiPlanner.AssistTypesTerm` | src/gemini_llm_planner.py:209-217 | A non-scroll assist is a type of the stripped, non-empty search term. |
| `GeminiPlanner.AssistSkipsTyped` | src/gemini_llm_planner.py:185-193 | A term already typed among the last three plans suppresses the typing assist. |
| `GeminiPlanner.TypedLastIsAlready` | src/gemini_llm_planner.py:185-193 | A text just typed counts as already typed. |
| `GeminiPlanner.TypingAssistFiresOnce` | src/gemini_llm_planner.py:209-217 | Once the typing assist's action is in the history, the assist stays quiet on the next step. |

## Left out

- I/O is outside the model: running adb, dumping and pulling files, screenshots, sleeping, the clock, logging and config-file persistence. The adb primitive's outcome is a parameter. The observation sequence is a function from attempt number to frame. Delays are returned rather than slept.
- `run_goal.main` is not modelled beyond the expectation derivation and the ENTER nudge. That covers the step loop, argument parsing, planner selection and exit codes.
- LLM calls, prompts, `_summarize_ui` and `verify_goal_gemini` are not modelled. They are network and model back-ends. The model's text output is a parameter.
- The Gemini planner's API-key and model setup is not modelled. It is a one-line `or` with an environment lookup, like the remote planner's key precedence, which is modelled.
- These library routines are parameters with no properties assumed:
  - `difflib.SequenceMatcher.ratio`;
  - SHA-1;
  - XML parsing;
  - `json.loads`;
  - `ast.literal_eval`;
  - `re.search`.
- A model answer that parses to JSON `null` reaches the planners as "nothing parsed". The parser parameter stands for that by returning None.
- Regex flags such as `IGNORECASE` are folded into the search parameter. A group that did not participate reads as None.
- Draft-07 validation of the action schema is restated as a predicate on the action's kind and target selector. The type checks on `value` and `args` hold by construction of the datatype.
- Whitespace for `strip` and `split` is Python's full `str.isspace` set. Case mapping, title-casing, `\d` and `int()` are ASCII only; Python's are Unicode-aware. `int()` also accepts digit-group underscores, which the model does not.
- `RunGoal.DeriveExpectation`: the phone check uses an ASCII digit test. The source's `str.isdigit` (src/run_goal.py:209) also accepts other Unicode digits.
- `Adb.FocusedActivity`: the dumpsys output arrives already split into lines, so `splitlines` is not modelled.
- `Resolver.BestCandidate`: the fuzzy score, its +0.1 bonus and the 0.6 threshold are exact `real` arithmetic, not binary floating point. The similarity ratio is a parameter, so no property of `difflib` is assumed.
- Normalized elements always hold strings.
- `Termination.EvaluateTermination`: a present-but-null value in a termination spec is treated as absent. The source is stricter. `{"any_of_texts": null}` reads as an empty list there and fails, but is met in the model.
- `Termination.EvaluateTermination`: a null `package` or `activity` raises on `.lower()` in the source (src/termination.py:31 and 36). The model treats it as absent. Registry entries without a package produce such a null (src/goal_router.py:66).
- `RunGoal.GoalSatisfied`: a null `package` raises on `None in act` in the source (src/run_goal.py:61). The model treats it as absent.
- `RunGoal.GoalSatisfied`: a `Spec` is given, not parsed from JSON. A key whose value is null, such as `{"not_package_in": null}`, is read by no check, and the source meets such a spec on any screen. The model agrees only when that key is passed as an unread key (`otherKeys`). Passed as an absent field, the spec is empty and is not met.
- `Termination.EvaluateTermination`: the detail is the list of reasons, each with its check, expected value and outcome. The source joins its reasons into one `"; "`-separated string (src/termination.py:54), and that wording is not modelled.
- `Ui.StrArg`: a `text` argument that is not a string reads as `""`. In the source the anti-repeat guard calls `.strip()` on it (src/planner.py:183), which raises for a truthy non-string such as a number.
- `Planner.GroupArgs`: a hint's `args_from_regex_group` is an ordered list of pairs. In the source it is a JSON object (src/planner.py:136), and `json.load` keeps only the last value of a duplicated key. With a duplicated key, an out-of-range group index in a shadowed entry fails in the model but not in the source. Configs with distinct keys behave the same in both.
- `GoalRouter.ChooseEntry`: the registry is a list of entries in file order. With a duplicated key, `json.load` keeps only the last value, and the model does not collapse duplicates.
- A registry entry holding only keys the router ignores is treated like `{}`.
- `centroid_from_element` is the element's stored center. A missing center cannot occur for normalizer output.
- `GoalRouter.ExtractSearchTerm`: the result is stated in terms of the pattern-search parameter. The three patterns' regular-expression semantics are not modelled.
- `GoalRouter.MergeTermination`: the package branch is modelled in general. For registry configs it never adds anything, because the base termination always holds a `package` key, possibly null.
- `GeminiPlanner.ScrollTerms`: the contract places the label words and allows at most one leading phrase. It does not describe that phrase's content, the first three words of the cut match. The cut at `and`/`tap`/`on`/`it` is a parameter.

## Findings

| source | as written | input that shows it | evidently intended | confidence | as-written member | corrected member |
|---|---|---|---|---|---|---|
| src/run_goal.py:48-69 | `goal_satisfied` checks only `must_contain_text`, `activity`, `package` and `not_package_in`. A spec whose only checks are `any_of_texts` or `all_of_texts` is met by any screen. | termination `{"any_of_texts": ["Done"]}`, no elements, empty focus string: satisfied | The text-list checks constrain the screen, as `evaluate_termination` does for the same keys | medium, not executed | `RunGoal.TextListOnlySpecIsVacuous` | `RunGoal.FixedIsNotVacuous` |
| src/goal_router.py:180-184 | The copy loop reads `base`, which `_base_config_for_app` built without `fallback_scroll_if_not_found` or `fallback_scroll_args`, so nothing is ever copied. | registry `{"a": {"package": "p", "fallback_scroll_if_not_found": false}}`, goal `a`: the config still scrolls on a miss | The entry's fallback-scroll policy reaches the synthesized config | medium, not executed | `GoalRouter.FallbackPolicyLost` | `GoalRouter.Synthesize` |

=== FILE: actuator.dfy ===
/** The actuator: resolving a target inside a snapshot by selector, and turning
    one action into the adb input commands it issues. The device itself is
    outside the model: the outcome of the last primitive (its success flag and
    output) is a parameter, and the report lists the commands in the logged
    `adb_cmds` form. */
module Actuator {
  import opened Base
  import opened Strings
  import opened Ui

  /** Python's `ast.literal_eval` as far as the bounds selector needs it:
      `Some(xs)` when the value evaluates to a list equal to the integer list
      `xs`, `None` when it raises or yields anything else. */
  type LiteralEval = string -> Option<seq<int>>

  /** The `bounds` list the normalizer stores for an element. */
  function BoundsList(r: Rect): seq<int> {
    [r.left, r.top, r.right, r.bottom]
  }

  /** Whether element `e` answers selector `by` = `value` in the element scan of
      `find_by_selector` (the `element_id` selector goes through the index instead). */
  predicate ScanMatch(sel: string, value: string, e: Element, eval: LiteralEval) {
    if sel == "resource-id" then e.resourceId == value
    else if sel == "text" then e.text != "" && Strip(e.text) == Strip(value)
    else if sel == "content-desc" then e.contentDesc == value
    else if sel == "bounds" then IsPrefix("[", Strip(value)) && eval(value) == Some(BoundsList(e.bounds))
    else false
  }

  /** `find_by_selector`: an `element_id` is looked up in the index, the other
      four selectors take the first element in document order that answers them,
      and any other selector finds nothing. */
  function FindBySelector(snap: Snapshot, sel: string, value: string, eval: LiteralEval): (r: Option<Element>)
    ensures sel == "element_id" ==> (r.Some? <==> value in snap.byId)
    ensures sel == "element_id" && r.Some? ==> r.value == snap.byId[value]
    ensures sel != "element_id" && r.Some? ==>
              exists i :: 0 <= i < |snap.elements| && snap.elements[i] == r.value
                && ScanMatch(sel, value, snap.elements[i], eval)
                && forall j :: 0 <= j < i ==> !ScanMatch(sel, value, snap.elements[j], eval)
    ensures sel != "element_id" && r.None? ==>
              forall i :: 0 <= i < |snap.elements| ==> !ScanMatch(sel, value, snap.elements[i], eval)
    ensures Indexed(snap) && r.Some? ==> r.value in snap.elements
  {
    if sel == "element_id" then
      if value in snap.byId then Some(snap.byId[value]) else None
    else FirstWhere(snap.elements, e => ScanMatch(sel, value, e, eval))
  }

  /** A selector the scan does not know never matches. */
  lemma UnknownSelectorFindsNothing(snap: Snapshot, sel: string, value: string, eval: LiteralEval)
    requires sel !in {"resource-id", "element_id", "text", "content-desc", "bounds"}
    ensures FindBySelector(snap, sel, value, eval) == None
  {
    assert forall e :: !ScanMatch(sel, value, e, eval);
  }

  /** The text selector ignores surrounding whitespace on both sides. */
  lemma TextSelectorIgnoresPadding(snap: Snapshot, value: string, pad: string, eval: LiteralEval)
    requires forall k :: 0 <= k < |pad| ==> IsSpace(pad[k])
    ensures FindBySelector(snap, "text", pad + value + pad, eval) == FindBySelector(snap, "text", value, eval)
  {
    StripPadding(value, pad);
    var v1, v2 := pad + value + pad, value;
    FirstWhereSame(snap.elements, e => ScanMatch("text", v1, e, eval), e => ScanMatch("text", v2, e, eval));
  }

  lemma StripPadding(value: string, pad: string)
    requires forall k :: 0 <= k < |pad| ==> IsSpace(pad[k])
    ensures Strip(pad + value + pad) == Strip(value)
  {
    StripLeftPad(value + pad, pad);
    assert pad + value + pad == pad + (value + pad);
    StripRightPad(StripLeft(value), pad);
    StripLeftSuffix(value, pad);
  }

  lemma {:induction false} StripLeftPad(s: string, pad: string)
    requires forall k :: 0 <= k < |pad| ==> IsSpace(pad[k])
    ensures StripLeft(pad + s) == StripLeft(s)
    decreases |pad|
  {
    if pad != [] {
      assert (pad + s)[1..] == pad[1..] + s;
      StripLeftPad(s, pad[1..]);
    } else {
      assert pad + s == s;
    }
  }

  lemma {:induction false} StripRightPad(s: string, pad: string)
    requires forall k :: 0 <= k < |pad| ==> IsSpace(pad[k])
    ensures StripRight(s + pad) == StripRight(s)
    decreases |pad|
  {
    if pad != [] {
      var init := pad[..|pad| - 1];
      assert (s + pad)[..|s + pad| - 1] == s + init;
      StripRightPad(s, init);
    } else {
      assert s + pad == s;
    }
  }

  /** Stripping the left end commutes with appending trailing whitespace. */
  lemma {:induction false} StripLeftSuffix(s: string, pad: string)
    requires forall k :: 0 <= k < |pad| ==> IsSpace(pad[k])
    ensures StripRight(StripLeft(s + pad)) == StripRight(StripLeft(s) + pad)
    decreases |s|
  {
    if s == [] {
      assert s + pad == pad;
      StripLeftPad([], pad);
      assert pad == pad + [];
      StripRightPad([], pad);
      assert StripLeft(pad) == [];
      assert StripRight(StripLeft(pad)) == [];
    } else if IsSpace(s[0]) {
      assert (s + pad)[1..] == s[1..] + pad;
      StripLeftSuffix(s[1..], pad);
    } else {
      assert (s + pad)[0] == s[0];
    }
  }

  /** A command as the actuator logs it in `adb_cmds`. */
  datatype Cmd =
    | AmStart(component: string)
    | KeyBack
    | InputTap(x: int, y: int)
    | InputText(text: string)
    | InputSwipe(x1: int, y1: int, x2: int, y2: int, duration: ArgValue)

  /** `str(v)` of an argument value. */
  function ArgText(v: ArgValue): string {
    match v
    case Str(s) => s
    case Int(i) => IntToString(i)
    case Num(repr) => repr
    case Bool(b) => if b then "True" else "False"
    case Null => "None"
  }

  /** The logged command line of each command: `am start -n` and the component
      for a launch, an `input` line for everything else, with a typed text
      logged verbatim after `input text `. */
  function RenderCmd(c: Cmd): (line: string)
    ensures c.AmStart? <==> IsPrefix("am start -n ", line)
    ensures c.AmStart? ==> line == "am start -n " + c.component
    ensures !c.AmStart? ==> IsPrefix("input ", line)
    ensures c.InputText? ==> IsPrefix("input text ", line) && line[|"input text "|..] == c.text
  {
    var line :=
      match c
      case AmStart(comp) => "am start -n " + comp
      case KeyBack => "input keyevent KEYCODE_BACK"
      case InputTap(x, y) => "input tap " + IntToString(x) + " " + IntToString(y)
      case InputText(t) => "input text " + t
      case InputSwipe(x1, y1, x2, y2, d) =>
        "input swipe " + IntToString(x1) + " " + IntToString(y1) + " "
          + IntToString(x2) + " " + IntToString(y2) + " " + ArgText(d);
    assert !c.AmStart? ==> |line| > 6 && line[0] == 'i';
    line
  }

  /** The report's `adb_cmds`: each issued command as logged. */
  function Log(cmds: seq<Cmd>): (lines: seq<string>)
    ensures |lines| == |cmds|
    ensures forall i :: 0 <= i < |cmds| ==> lines[i] == RenderCmd(cmds[i])
  {
    if cmds == [] then []
    else
      assert forall i :: 1 <= i < |cmds| ==> cmds[i] == cmds[1..][i - 1];
      [RenderCmd(cmds[0])] + Log(cmds[1..])
  }

  /** The `(ok, output)` pair the last adb primitive returns. */
  datatype Prim = Prim(ok: bool, out: string)

  datatype Note = Output(out: string) | SwipeParseError | Unsupported(kind: string)

  /** The execution report: `success`, `adb_cmds` and `note`. */
  datatype Report = Report(success: bool, cmds: seq<Cmd>, note: Note)

  /** The raw-coordinate fallback of tap and type: the first two comma-separated
      fields as integers, or the origin when there is no comma or either field
      fails to parse. */
  function RawCoords(value: string): (p: Point)
    ensures ',' !in value ==> p == Point(0, 0)
    ensures ',' in value && ParseInt(Split(value, ',')[0]).Some? && ParseInt(Split(value, ',')[1]).Some? ==>
              p == Point(ParseInt(Split(value, ',')[0]).value, ParseInt(Split(value, ',')[1]).value)
    ensures ',' in value && (ParseInt(Split(value, ',')[0]).None? || ParseInt(Split(value, ',')[1]).None?) ==>
              p == Point(0, 0)
  {
    if ',' in value then
      var parts := Split(value, ',');
      match (ParseInt(parts[0]), ParseInt(parts[1]))
      case (Some(x), Some(y)) => Point(x, y)
      case _ => Point(0, 0)
    else Point(0, 0)
  }

  /** The point tap and type aim at: the center of the element the target
      resolves to, else the raw `x,y` coordinates in the target value, else the
      origin (also when there is no target at all). */
  function AimPoint(target: Option<Target>, snap: Snapshot, eval: LiteralEval): (p: Point)
    ensures target.None? ==> p == Point(0, 0)
    ensures target.Some? && FindBySelector(snap, target.value.selector, target.value.value, eval).Some? ==>
              p == FindBySelector(snap, target.value.selector, target.value.value, eval).value.center
    ensures target.Some? && FindBySelector(snap, target.value.selector, target.value.value, eval).None? ==>
              p == RawCoords(target.value.value)
    ensures Indexed(snap) && target.Some? && FindBySelector(snap, target.value.selector, target.value.value, eval).Some? ==>
              exists e :: e in snap.elements && p == e.center
  {
    match target
    case None => Point(0, 0)
    case Some(t) =>
      match FindBySelector(snap, t.selector, t.value, eval)
      case Some(e) => e.center
      case None => RawCoords(t.value)
  }

  /** Every option filled in: the values in order, or `None` when one is missing. */
  function AllSome(xs: seq<Option<int>>): (r: Option<seq<int>>)
    ensures r.Some? <==> forall k :: 0 <= k < |xs| ==> xs[k].Some?
    ensures r.Some? ==> |r.value| == |xs| && forall k :: 0 <= k < |xs| ==> Some(r.value[k]) == xs[k]
  {
    if xs == [] then Some([])
    else
      var rest := AllSome(xs[1..]);
      assert forall k :: 1 <= k < |xs| ==> xs[k] == xs[1..][k - 1];
      if xs[0].None? || rest.None? then None else Some([xs[0].value] + rest.value)
  }

  /** `map(int, parts)` over the four fields of a swipe value. */
  function FourFields(parts: seq<string>): seq<Option<int>>
    requires |parts| == 4
  {
    [ParseInt(parts[0]), ParseInt(parts[1]), ParseInt(parts[2]), ParseInt(parts[3])]
  }

  /** `x1,y1,x2,y2 = map(int, value.split(","))`: the value splits into exactly
      four comma-separated fields, each of which `int()` accepts, and the result
      holds their values in order. */
  function SwipeCoords(value: string): Option<seq<int>> {
    var parts := Split(value, ',');
    if |parts| == 4 then AllSome(FourFields(parts)) else None
  }

  /** `args.get(key, default)` */
  function ArgOr(args: Args, key: string, default: ArgValue): ArgValue {
    if key in args then args[key] else default
  }

  /** The action kinds `exec_action` carries out; every other kind (the
      schema's `scroll`, `wait` and `keyevent` included) is unsupported. */
  const Supported: set<string> := {"open_app", "back", "tap", "type", "swipe"}

  /** `open_app` without a target passes `None` to `am_start`, and the process
      call raises `TypeError` on it. */
  predicate OpenWithoutTarget(a: Action) {
    a.kind == "open_app" && a.target.None?
  }

  /** `type` with a `text` that is not a string (`null` included) makes the
      escaping loop iterate over a non-string, which raises `TypeError`. */
  predicate TypesNonString(a: Action) {
    a.kind == "type" && "text" in a.args && !a.args["text"].Str?
  }

  /** The primitive's outcome as a report of the given commands. */
  function Ran(prim: Prim, cmds: seq<Cmd>): Report {
    Report(prim.ok, cmds, Output(prim.out))
  }

  /** `exec_action`: the command(s) one action issues and the report, or the
      exception that escapes it. `open_app` starts the target component, `back`
      sends KEYCODE_BACK, `tap` taps the aim point, `type` focuses the aim point
      when both coordinates are nonzero and then types, `swipe` needs four
      integers in its target value and defaults its duration to 300 ms, and any
      other kind is reported unsupported without issuing anything. */
  function ExecAction(a: Action, snap: Snapshot, eval: LiteralEval, prim: Prim): (r: Result<Report, string>)
    ensures r.Err? <==> OpenWithoutTarget(a) || TypesNonString(a)
    ensures r.Ok? && r.value.success ==> prim.ok
    ensures r.Ok? ==> (r.value.cmds != [] <==> r.value.note.Output?)
    ensures r.Ok? && r.value.note.Output? ==> r.value.success == prim.ok && r.value.note.out == prim.out
    ensures a.kind == "open_app" && a.target.Some? ==> r == Ok(Ran(prim, [AmStart(a.target.value.value)]))
    ensures a.kind == "back" ==> r == Ok(Ran(prim, [KeyBack]))
    ensures a.kind == "tap" ==>
              r == Ok(Ran(prim, [InputTap(AimPoint(a.target, snap, eval).x, AimPoint(a.target, snap, eval).y)]))
    ensures a.kind == "type" && r.Ok? ==>
              var p := AimPoint(a.target, snap, eval);
              r.value.success == prim.ok && r.value.note == Output(prim.out)
              && r.value.cmds[|r.value.cmds| - 1] == InputText(StrArg(a.args, "text"))
              && (r.value.cmds == [InputTap(p.x, p.y), InputText(StrArg(a.args, "text"))] <==> p.x != 0 && p.y != 0)
              && (r.value.cmds == [InputText(StrArg(a.args, "text"))] <==> !(p.x != 0 && p.y != 0))
    ensures a.kind == "swipe" && (a.target.None? || SwipeCoords(a.target.value.value).None?) ==>
              r == Ok(Report(false, [], SwipeParseError))
    ensures a.kind == "swipe" && a.target.Some? && SwipeCoords(a.target.value.value).Some? ==>
              var c := SwipeCoords(a.target.value.value).value;
              r == Ok(Ran(prim, [InputSwipe(c[0], c[1], c[2], c[3], ArgOr(a.args, "duration_ms", Int(300)))]))
    ensures a.kind !in Supported ==> r == Ok(Report(false, [], Unsupported(a.kind)))
  {
    if a.kind == "open_app" then
      if a.target.None? then Err("TypeError: am_start(None)")
      else Ok(Ran(prim, [AmStart(a.target.value.value)]))
    else if a.kind == "back" then
      Ok(Ran(prim, [KeyBack]))
    else if a.kind == "tap" then
      var p := AimPoint(a.target, snap, eval);
      Ok(Ran(prim, [InputTap(p.x, p.y)]))
    else if a.kind == "type" then
      if "text" in a.args && !a.args["text"].Str? then Err("TypeError: input_text of a non-string")
      else
        var p := AimPoint(a.target, snap, eval);
        var focus := if p.x != 0 && p.y != 0 then [InputTap(p.x, p.y)] else [];
        Ok(Ran(prim, focus + [InputText(StrArg(a.args, "text"))]))
    else if a.kind == "swipe" then
      var value := match a.target case Some(t) => Some(t.value) case None => None;
      if value.None? || SwipeCoords(value.value).None? then Ok(Report(false, [], SwipeParseError))
      else
        var c := SwipeCoords(value.value).value;
        Ok(Ran(prim, [InputSwipe(c[0], c[1], c[2], c[3], ArgOr(a.args, "duration_ms", Int(300)))]))
    else Ok(Report(false, [], Unsupported(a.kind)))
  }

  /** The logged `adb_cmds` of an action: `am start -n <value>` for a launch,
      the BACK key event for back, and a type ends with `input text <text>`. */
  lemma ExecActionLog(a: Action, snap: Snapshot, eval: LiteralEval, prim: Prim)
    ensures a.kind == "open_app" && a.target.Some? ==>
              Log(ExecAction(a, snap, eval, prim).value.cmds) == ["am start -n " + a.target.value.value]
    ensures a.kind == "back" ==> Log(ExecAction(a, snap, eval, prim).value.cmds) == ["input keyevent KEYCODE_BACK"]
    ensures a.kind == "type" && !TypesNonString(a) ==>
              var lines := Log(ExecAction(a, snap, eval, prim).value.cmds);
              |lines| > 0 && lines[|lines| - 1] == "input text " + StrArg(a.args, "text")
    ensures ExecAction(a, snap, eval, prim).Ok? ==>
              forall i :: 0 <= i < |ExecAction(a, snap, eval, prim).value.cmds| ==>
                IsPrefix("am start -n ", Log(ExecAction(a, snap, eval, prim).value.cmds)[i])
                || IsPrefix("input ", Log(ExecAction(a, snap, eval, prim).value.cmds)[i])
  {
    var r := ExecAction(a, snap, eval, prim);
    if r.Ok? {
      var lines := Log(r.value.cmds);
      forall i | 0 <= i < |r.value.cmds|
        ensures IsPrefix("am start -n ", lines[i]) || IsPrefix("input ", lines[i])
      {
        var c := r.value.cmds[i];
        assert lines[i] == RenderCmd(c);
      }
    }
  }

  /** A tap on a target that resolves hits the element's center. */
  lemma TapHitsResolvedCenter(a: Action, snap: Snapshot, eval: LiteralEval, prim: Prim, e: Element)
    requires a.kind == "tap" && a.target.Some?
    requires FindBySelector(snap, a.target.value.selector, a.target.value.value, eval) == Some(e)
    ensures ExecAction(a, snap, eval, prim) == Ok(Ran(prim, [InputTap(e.center.x, e.center.y)]))
  {
  }

  /** Rendering two integers as `x,y` and reading them back as raw coordinates
      gives the same point. */
  lemma RawCoordsRoundTrip(x: int, y: int)
    ensures RawCoords(IntToString(x) + ([','] + IntToString(y))) == Point(x, y)
  {
    var sx, sy := IntToString(x), IntToString(y);
    IntToStringChars(x, ',');
    IntToStringChars(y, ',');
    SplitAtSep(sx, ',', sy);
    SplitWithoutSep(sy, ',');
    ParseIntOfIntToString(x);
    ParseIntOfIntToString(y);
  }

  /** A tap whose target resolves to nothing but holds `x,y` taps those coordinates. */
  lemma TapOnRawCoordinates(a: Action, snap: Snapshot, eval: LiteralEval, prim: Prim, x: int, y: int)
    requires a.kind == "tap" && a.target.Some?
    requires a.target.value.value == IntToString(x) + ([','] + IntToString(y))
    requires FindBySelector(snap, a.target.value.selector, a.target.value.value, eval).None?
    ensures ExecAction(a, snap, eval, prim) == Ok(Ran(prim, [InputTap(x, y)]))
  {
    RawCoordsRoundTrip(x, y);
  }

  /** `x1,y1,x2,y2` rendered from four integers. */
  function FormatSwipe(x1: int, y1: int, x2: int, y2: int): string {
    IntToString(x1) + ([','] + (IntToString(y1) + ([','] + (IntToString(x2) + ([','] + IntToString(y2))))))
  }

  lemma SplitFour(a: string, b: string, c: string, d: string)
    requires ',' !in a && ',' !in b && ',' !in c && ',' !in d
    ensures Split(a + ([','] + (b + ([','] + (c + ([','] + d))))), ',') == [a, b, c, d]
  {
    SplitWithoutSep(d, ',');
    SplitAtSep(c, ',', d);
    SplitAtSep(b, ',', c + ([','] + d));
    SplitAtSep(a, ',', b + ([','] + (c + ([','] + d))));
  }

  lemma SplitSwipe(x1: int, y1: int, x2: int, y2: int)
    ensures Split(FormatSwipe(x1, y1, x2, y2), ',')
         == [IntToString(x1), IntToString(y1), IntToString(x2), IntToString(y2)]
  {
    IntToStringChars(x1, ',');
    IntToStringChars(y1, ',');
    IntToStringChars(x2, ',');
    IntToStringChars(y2, ',');
    SplitFour(IntToString(x1), IntToString(y1), IntToString(x2), IntToString(y2));
  }

  /** Rendering four integers as `x1,y1,x2,y2` and reading them back as swipe
      coordinates gives the same four. */
  lemma SwipeCoordsRoundTrip(x1: int, y1: int, x2: int, y2: int)
    ensures SwipeCoords(FormatSwipe(x1, y1, x2, y2)) == Some([x1, y1, x2, y2])
  {
    SplitSwipe(x1, y1, x2, y2);
    ParseIntOfIntToString(x1);
    ParseIntOfIntToString(y1);
    ParseIntOfIntToString(x2);
    ParseIntOfIntToString(y2);
    AllSomeFour(x1, y1, x2, y2);
  }

  lemma AllSomeFour(a: int, b: int, c: int, d: int)
    ensures AllSome([Some(a), Some(b), Some(c), Some(d)]) == Some([a, b, c, d])
  {
    AllSomeOfValues([Some(a), Some(b), Some(c), Some(d)], [a, b, c, d]);
  }

  /** Options that all hold their value yield exactly those values. */
  lemma {:induction false} AllSomeOfValues(opts: seq<Option<int>>, xs: seq<int>)
    requires |opts| == |xs|
    requires forall k :: 0 <= k < |xs| ==> opts[k] == Some(xs[k])
    ensures AllSome(opts) == Some(xs)
  {
    if opts != [] {
      AllSomeOfValues(opts[1..], xs[1..]);
      assert [xs[0]] + xs[1..] == xs;
    }
  }

  /** The swipe value is four comma-separated fields that `int()` accepts,
      and the coordinates are their values in order. */
  lemma SwipeCoordsFields(value: string)
    ensures var p := Split(value, ',');
      SwipeCoords(value).Some? <==>
        |p| == 4 && ParseInt(p[0]).Some? && ParseInt(p[1]).Some? && ParseInt(p[2]).Some? && ParseInt(p[3]).Some?
    ensures var p := Split(value, ',');
      SwipeCoords(value).Some? ==>
        SwipeCoords(value).value == [ParseInt(p[0]).value, ParseInt(p[1]).value, ParseInt(p[2]).value, ParseInt(p[3]).value]
  {
    var parts := Split(value, ',');
    if |parts| == 4 {
      AllSomeOfFour(ParseInt(parts[0]), ParseInt(parts[1]), ParseInt(parts[2]), ParseInt(parts[3]));
    }
  }

  lemma AllSomeOfFour(a: Option<int>, b: Option<int>, c: Option<int>, d: Option<int>)
    ensures AllSome([a, b, c, d]).Some? <==> a.Some? && b.Some? && c.Some? && d.Some?
    ensures AllSome([a, b, c, d]).Some? ==> AllSome([a, b, c, d]).value == [a.value, b.value, c.value, d.value]
  {
    var xs := [a, b, c, d];
    assert xs[0] == a && xs[1] == b && xs[2] == c && xs[3] == d;
    if AllSome(xs).Some? {
      var v := AllSome(xs).value;
      assert Some(v[0]) == a && Some(v[1]) == b && Some(v[2]) == c && Some(v[3]) == d;
    }
  }

  /** Typing a string (or nothing) never raises: it focuses the field first
      exactly when both aim coordinates are nonzero, and always ends with the
      text command. */
  lemma TypeFocusesWhenAimed(a: Action, snap: Snapshot, eval: LiteralEval, prim: Prim)
    requires a.kind == "type" && !TypesNonString(a)
    ensures var r := ExecAction(a, snap, eval, prim);
            var p := AimPoint(a.target, snap, eval);
            r.Ok? && r.value.cmds[|r.value.cmds| - 1] == InputText(StrArg(a.args, "text"))
            && (|r.value.cmds| == 2 <==> p.x != 0 && p.y != 0)
  {
  }

  /** Two actions the action schema accepts still escape `exec_action` with an
      exception: `open_app` without a target, and `type` with a `null` text. */
  lemma SchemaShapedActionsThatRaise(t: Option<Target>, snap: Snapshot, eval: LiteralEval, prim: Prim)
    ensures ExecAction(Action("open_app", None, map[]), snap, eval, prim).Err?
    ensures ExecAction(Action("type", t, map["text" := Null]), snap, eval, prim).Err?
  {
  }
}

=== FILE: adb.dfy ===
/** The pure parts of the adb wrapper: escaping text for `input text`, and
    picking the focused `package/activity` out of `dumpsys` output. Running adb
    itself is outside the model; its results arrive as parameters. */
module Adb {
  import opened Base
  import opened Strings

  /** The twelve characters `input text` replaces with a space. */
  const ShellMeta: set<char> := {'&', '<', '>', '(', ')', '|', ';', '\'', '"', '\\', '$', '`'}

  function CountChar(s: string, c: char): nat {
    if s == [] then 0 else (if s[0] == c then 1 else 0) + CountChar(s[1..], c)
  }

  function CountIn(s: string, cs: set<char>): nat {
    if s == [] then 0 else (if s[0] in cs then 1 else 0) + CountIn(s[1..], cs)
  }

  /** What one input character becomes. */
  function EscapeChar(c: char): (r: string)
    ensures |r| == if c == ' ' then 2 else 1
    ensures forall i :: 0 <= i < |r| ==> r[i] !in ShellMeta
    ensures CountChar(r, ' ') == if c in ShellMeta then 1 else 0
    ensures c == ' ' ==> r == "%s"
    ensures c in ShellMeta ==> r == " "
    ensures c != ' ' && c !in ShellMeta ==> r == [c]
  {
    if c == ' ' then "%s" else if c in ShellMeta then " " else [c]
  }

  /** `_escape_text_for_input`: every space grows into `%s`, every metacharacter
      shrinks to a space, so the output is longer by the number of spaces, holds no
      metacharacter, and has exactly as many spaces as the input had metacharacters. */
  function EscapeTextForInput(text: string): (r: string)
    ensures |r| == |text| + CountChar(text, ' ')
    ensures forall i :: 0 <= i < |r| ==> r[i] !in ShellMeta
    ensures CountChar(r, ' ') == CountIn(text, ShellMeta)
    decreases |text|
  {
    if text == [] then ""
    else
      var head := EscapeChar(text[0]);
      var rest := EscapeTextForInput(text[1..]);
      CountCharAppend(head, rest, ' ');
      head + rest
  }

  lemma {:induction false} CountCharAppend(a: string, b: string, c: char)
    ensures CountChar(a + b, c) == CountChar(a, c) + CountChar(b, c)
    decreases |a|
  {
    if a == [] {
      assert a + b == b;
    } else {
      assert (a + b)[1..] == a[1..] + b;
      CountCharAppend(a[1..], b, c);
    }
  }

  /** Escaping works character by character: it distributes over concatenation. */
  lemma {:induction false} EscapeAppend(a: string, b: string)
    ensures EscapeTextForInput(a + b) == EscapeTextForInput(a) + EscapeTextForInput(b)
    decreases |a|
  {
    if a == [] {
      assert a + b == b;
    } else {
      assert (a + b)[0] == a[0];
      assert (a + b)[1..] == a[1..] + b;
      EscapeAppend(a[1..], b);
    }
  }

  lemma EscapeOne(c: char)
    ensures EscapeTextForInput([c]) == EscapeChar(c)
  {
    assert [c][1..] == [];
  }

  /** A piece placed between two strings sits at the length of the first. */
  lemma SliceMiddle(a: string, p: string, b: string)
    ensures |a| + |p| <= |a + p + b| && (a + p + b)[|a|..|a| + |p|] == p
  {
  }

  /** Input character `i` is rewritten in place: its escape starts at `i` plus the
      number of spaces before it. */
  lemma EscapePosition(text: string, i: nat)
    requires i < |text|
    ensures var off := i + CountChar(text[..i], ' ');
            var piece := EscapeChar(text[i]);
            off + |piece| <= |EscapeTextForInput(text)|
            && EscapeTextForInput(text)[off..off + |piece|] == piece
  {
    var pre, c, post := text[..i], [text[i]], text[i + 1..];
    var piece := EscapeChar(text[i]);
    assert EscapeTextForInput(text)
        == EscapeTextForInput(pre) + piece + EscapeTextForInput(post) by {
      assert text == pre + c + post;
      EscapeAppend(pre + c, post);
      EscapeAppend(pre, c);
      EscapeOne(text[i]);
    }
    SliceMiddle(EscapeTextForInput(pre), piece, EscapeTextForInput(post));
  }

  /** `"mResumedActivity" in line or "mFocusedActivity" in line` */
  predicate MentionsFocus(line: string) {
    Contains(line, "mResumedActivity") || Contains(line, "mFocusedActivity")
  }

  /** A token that looks like `package/.Activity`. */
  predicate IsComponentToken(p: string) {
    '/' in p && '.' in p
  }

  /** The first component-like token of a word list. */
  function FirstComponent(ws: seq<string>): (r: Option<string>)
    ensures r.Some? ==> exists k :: 0 <= k < |ws| && ws[k] == r.value && IsComponentToken(r.value)
                          && forall j :: 0 <= j < k ==> !IsComponentToken(ws[j])
    ensures r.None? ==> forall k :: 0 <= k < |ws| ==> !IsComponentToken(ws[k])
  {
    if ws == [] then None
    else if IsComponentToken(ws[0]) then Some(ws[0])
    else
      var r := FirstComponent(ws[1..]);
      assert forall k :: 1 <= k < |ws| ==> ws[k] == ws[1..][k - 1];
      r
  }

  /** What one `dumpsys` line yields: a token only when it mentions the focus. */
  function LineComponent(line: string): Option<string> {
    if MentionsFocus(line) then FirstComponent(Words(Strip(line))) else None
  }

  /** The first line for which `f` yields something, with what it yields. */
  function FirstSome(lines: seq<string>, f: string -> Option<string>): (r: Option<string>)
    ensures r.Some? ==> exists i :: 0 <= i < |lines| && f(lines[i]) == r
                          && forall j :: 0 <= j < i ==> f(lines[j]).None?
    ensures r.None? ==> forall i :: 0 <= i < |lines| ==> f(lines[i]).None?
  {
    if lines == [] then None
    else if f(lines[0]).Some? then f(lines[0])
    else
      var r := FirstSome(lines[1..], f);
      assert forall i :: 1 <= i < |lines| ==> lines[i] == lines[1..][i - 1];
      r
  }

  /** The scan of `get_focused_activity`: lines in order, the first line with a
      component-like token wins (a marked line without one does not stop the scan). */
  function ScanFocused(lines: seq<string>): (r: Option<string>)
    ensures r.Some? ==> exists i :: 0 <= i < |lines| && LineComponent(lines[i]) == r
                          && forall j :: 0 <= j < i ==> LineComponent(lines[j]).None?
    ensures r.None? ==> forall i :: 0 <= i < |lines| ==> LineComponent(lines[i]).None?
  {
    FirstSome(lines, LineComponent)
  }

  /** `get_focused_activity` with both adb runs as parameters: exit code and output
      lines of `dumpsys activity activities`, exit code and raw output of the
      `mCurrentFocus` fallback. A failed first run gives `None` outright. */
  function FocusedActivity(rc: int, lines: seq<string>, rc2: int, out2: string): (r: Option<string>)
    ensures rc != 0 ==> r == None
    ensures rc == 0 && ScanFocused(lines).Some? ==> r == ScanFocused(lines)
    ensures rc == 0 && ScanFocused(lines).None? && r.Some? ==> rc2 == 0 && r.value == Strip(out2)
    ensures rc == 0 && ScanFocused(lines).None? && rc2 == 0 && Strip(out2) != "" ==> r == Some(Strip(out2))
    ensures r.Some? ==> r.value != []
  {
    if rc != 0 then None
    else
      match ScanFocused(lines)
      case Some(t) => Some(t)
      case None => if rc2 == 0 && Strip(out2) != "" then Some(Strip(out2)) else None
  }
}

=== FILE: base.dfy ===
/** Failure-compatible wrappers shared by every module of the model. */
module Base {

  /** An optional value; `None` stands for Python's `None` and for an absent dictionary key. */
  datatype Option<+T> = None | Some(value: T) {
    function GetOr(default: T): T {
      match this
      case Some(v) => v
      case None => default
    }
  }

  /** A value or an error; used where the source raises an exception. */
  datatype Result<+T, +E> = Ok(value: T) | Err(error: E)
}

=== FILE: gemini_planner.dfy ===
/** The deterministic assists of the Gemini planner, tried before the model is
    asked: a scroll intent taps a visible label or scrolls, and a visible input
    field with a known search term gets the term typed into it. Otherwise the
    model's answer goes through the shared post-fix and the wait fallback. */
module GeminiPlanner {
  import opened Base
  import opened Strings
  import opened Ui
  import Planner
  import LlmOutput
  import GoalRouter

  /** A needle's prefix occurs wherever the needle does. */
  lemma ContainsPrefixOfNeedle(g: string, a: string, b: string)
    requires Contains(g, a + b)
    ensures Contains(g, a)
  {
    var i := ContainsOffset(g, a + b);
    assert g[i..i + |a|] == (a + b)[..|a|] == a;
    ContainsAt(g, a, i);
  }

  /** `_goal_has_scroll`: "scroll up" means up; any other mention of scrolling
      means down. */
  function ScrollIntent(goal: string): (r: Option<string>)
    ensures r.Some? <==> Contains(Lower(goal), "scroll")
    ensures r == Some("up") <==> Contains(Lower(goal), "scroll up")
    ensures r.Some? ==> r.value in {"up", "down"}
  {
    var g := Lower(goal);
    if Contains(g, "scroll up") then
      assert "scroll" + " up" == "scroll up";
      ContainsPrefixOfNeedle(g, "scroll", " up");
      Some("up")
    else if Contains(g, "scroll down") then
      assert "scroll" + " down" == "scroll down";
      ContainsPrefixOfNeedle(g, "scroll", " down");
      Some("down")
    else if Contains(g, "scroll") then Some("down")
    else None
  }

  /** The label pattern after "find" / "search [for]" (case-insensitive). */
  const LabelPattern := "(?:find|search(?:\\s+for)?)\\s+([a-z0-9 &._-]+)"

  /** Single words looked for in the goal as extra labels. */
  const LabelWords: seq<string> := ["system", "about", "apps", "privacy", "security", "developer"]

  /** `re.split(r"\band\b|\btap\b|\bon\b|\bit\b", raw)[0]`: the text before the
      first of those words; outside the model. */
  type Cut = string -> string

  /** At most the first `n` words. */
  function TakeWords(ws: seq<string>, n: nat): seq<string> {
    if |ws| <= n then ws else ws[..n]
  }

  /** The words of `LabelWords` that occur in the lower-cased goal, in order. */
  function MentionedWords(goal: string, ws: seq<string>): (r: seq<string>)
    ensures forall j :: 0 <= j < |ws| && Contains(Lower(goal), ws[j]) ==> ws[j] in r
    ensures forall k :: 0 <= k < |r| ==> r[k] in ws && Contains(Lower(goal), r[k])
    ensures |r| <= |ws|
  {
    if ws == [] then []
    else
      var rest := MentionedWords(goal, ws[1..]);
      assert forall j :: 1 <= j < |ws| ==> ws[j] == ws[1..][j - 1];
      (if Contains(Lower(goal), ws[0]) then [ws[0]] else []) + rest
  }

  /** The labels a scroll goal is after: the first three words of the phrase
      after "find"/"search", cut before "and"/"tap"/"on"/"it", then every label
      word the goal mentions. */
  function ScrollTerms(goal: string, search: Planner.Search, cut: Cut): (ts: seq<string>)
    ensures forall j :: 0 <= j < |LabelWords| && Contains(Lower(goal), LabelWords[j]) ==> LabelWords[j] in ts
    ensures |ts| <= 1 + |LabelWords|
    ensures var mw := MentionedWords(goal, LabelWords);
            |mw| <= |ts| <= |mw| + 1 && ts[|ts| - |mw|..] == mw
    ensures |ts| > |MentionedWords(goal, LabelWords)| ==> search(LabelPattern, goal).Some?
  {
    var m := search(LabelPattern, goal);
    var raw := if m.Some? then Lower(Planner.Group(m.value, 1).GetOr("")) else "";
    var head := Strip(cut(raw));
    var phrase := if m.Some? && head != "" then [Join(TakeWords(Words(head), 3), " ")] else [];
    phrase + MentionedWords(goal, LabelWords)
  }

  /** The element shows one of the nonempty terms in its text or description,
      ignoring case. */
  predicate ShowsTerm(e: Element, terms: seq<string>) {
    exists j :: 0 <= j < |terms| && terms[j] != "" && Contains(Lower(e.text + " " + e.contentDesc), Lower(terms[j]))
  }

  function ScrollArgs(dir: string): Args {
    map["direction" := Str(dir), "duration_ms" := Int(700), "length_factor" := Num("0.9"),
        "start_pos" := Str(if dir == "down" then "bottom" else "top")]
  }

  /** The scroll assist: tap (by element id) the first element showing a wanted
      label, otherwise a strong scroll that starts at the bottom for down and at
      the top for up. */
  function ScrollAssist(dir: string, terms: seq<string>, snap: Snapshot): (a: Action)
    ensures a.kind == "tap" <==> exists i :: 0 <= i < |snap.elements| && ShowsTerm(snap.elements[i], terms)
    ensures a.kind == "tap" ==> exists i :: 0 <= i < |snap.elements| && ShowsTerm(snap.elements[i], terms)
                                  && a.target == Some(Target("element_id", snap.elements[i].elementId))
                                  && forall j :: 0 <= j < i ==> !ShowsTerm(snap.elements[j], terms)
    ensures a.kind != "tap" ==> a == Action("scroll", None, ScrollArgs(dir))
  {
    var hit := if terms == [] then None else FirstWhere(snap.elements, e => ShowsTerm(e, terms));
    if hit.Some? then Action("tap", Some(Target("element_id", hit.value.elementId)), map[])
    else Action("scroll", None, ScrollArgs(dir))
  }

  /** A text or search input: class mentions `edittext`, or the resource id is a
      search box. */
  predicate IsInputField(e: Element) {
    Contains(Lower(e.className), "edittext")
    || Contains(Lower(e.resourceId), "search_src_text")
    || Contains(Lower(e.resourceId), "search_edit_text")
  }

  /** `_already_typed`: a nonempty text that one of the last three plans typed,
      compared stripped and lower-cased. */
  predicate AlreadyTyped(text: string, history: History) {
    Planner.TextKey(text) != ""
    && exists i :: 0 <= i < |Recent(history)| && Recent(history)[i].plan.kind == "type"
                   && Planner.TextKey(text) == Planner.TextKey(StrArg(Recent(history)[i].plan.args, "text"))
  }

  /** `_goal_search_term`: the termination's `must_contain_text` when it is not
      blank, otherwise the "search [for] X" or "find X" phrase of the goal. */
  function GoalSearchTerm(goal: string, cfg: Config, search: Planner.Search): (r: Option<string>)
    ensures Strip(cfg.termination.mustContainText.GetOr("")) != "" ==>
              r == Some(Strip(cfg.termination.mustContainText.GetOr("")))
    ensures r.Some? ==> IsStripped(r.value)
    ensures Strip(cfg.termination.mustContainText.GetOr("")) == "" && search(GoalRouter.SearchPattern, goal).Some? ==>
              r == Some(Strip(Planner.Group(search(GoalRouter.SearchPattern, goal).value, 2).GetOr("")))
    ensures Strip(cfg.termination.mustContainText.GetOr("")) == "" && search(GoalRouter.SearchPattern, goal).None?
              && search(GoalRouter.FindPattern, goal).Some? ==>
              r == Some(Strip(Planner.Group(search(GoalRouter.FindPattern, goal).value, 1).GetOr("")))
    ensures Strip(cfg.termination.mustContainText.GetOr("")) == "" && search(GoalRouter.SearchPattern, goal).None?
              && search(GoalRouter.FindPattern, goal).None?
            ==> r.None?
  {
    var configured := GoalRouter.Stripped(cfg.termination.mustContainText.GetOr(""));
    if configured != "" then Some(configured)
    else
      var m1 := search(GoalRouter.SearchPattern, goal);
      var m2 := search(GoalRouter.FindPattern, goal);
      if m1.Some? then Some(GoalRouter.Stripped(Planner.Group(m1.value, 2).GetOr("")))
      else if m2.Some? then Some(GoalRouter.Stripped(Planner.Group(m2.value, 1).GetOr("")))
      else None
  }

  /** The assists, in order; `None` means the model is asked. */
  function Assist(goal: string, snap: Snapshot, cfg: Config, history: History,
                  search: Planner.Search, cut: Cut): (r: Option<Action>)
    ensures ScrollIntent(goal).Some? ==> r == Some(ScrollAssist(ScrollIntent(goal).value, ScrollTerms(goal, search, cut), snap))
    ensures ScrollIntent(goal).None? ==>
              (r.Some? <==> FirstWhere(snap.elements, IsInputField).Some?
                            && GoalSearchTerm(goal, cfg, search).Some? && GoalSearchTerm(goal, cfg, search).value != ""
                            && !AlreadyTyped(GoalSearchTerm(goal, cfg, search).value, history))
    ensures ScrollIntent(goal).None? && r.Some? ==>
              r.value == Action("type", Some(Target("element_id", FirstWhere(snap.elements, IsInputField).value.elementId)),
                                map["text" := Str(GoalSearchTerm(goal, cfg, search).value)])
  {
    var dir := ScrollIntent(goal);
    if dir.Some? then Some(ScrollAssist(dir.value, ScrollTerms(goal, search, cut), snap))
    else
      var edit := FirstWhere(snap.elements, IsInputField);
      var term := GoalSearchTerm(goal, cfg, search);
      if edit.Some? && term.Some? && term.value != "" && !AlreadyTyped(term.value, history) then
        Some(Action("type", Some(Target("element_id", edit.value.elementId)), map["text" := Str(term.value)]))
      else None
  }

  /** `plan_next_action_gemini`: an assist when one applies, otherwise the model's
      answer post-fixed, with an invalid action replaced by a wait. */
  function PlanNextAction(goal: string, pa: string, snap: Snapshot, cfg: Config, history: History,
                          search: Planner.Search, cut: Cut, text: string, loads: LlmOutput.Loads): (r: Action)
    ensures Assist(goal, snap, cfg, history, search, cut).Some? ==> r == Assist(goal, snap, cfg, history, search, cut).value
    ensures Assist(goal, snap, cfg, history, search, cut).None? ==>
              Planner.SchemaValid(r) && (LlmOutput.WrongApp(cfg, pa) ==> r == LlmOutput.OpenApp(cfg.appComponent))
    ensures Assist(goal, snap, cfg, history, search, cut).None? ==> r == LlmOutput.PlanOrWait(text, loads, cfg, pa)
  {
    match Assist(goal, snap, cfg, history, search, cut)
    case Some(a) => a
    case None => LlmOutput.PlanOrWait(text, loads, cfg, pa)
  }

  /** The typing assist fires once: with the typed plan recorded, the same screen
      and goal go to the model instead. */
  lemma TypingAssistFiresOnce(goal: string, snap: Snapshot, cfg: Config, history: History,
                              search: Planner.Search, cut: Cut)
    requires ScrollIntent(goal).None?
    requires Assist(goal, snap, cfg, history, search, cut).Some?
    ensures Assist(goal, snap, cfg, history + [Record(Assist(goal, snap, cfg, history, search, cut).value)], search, cut).None?
  {
    var a := Assist(goal, snap, cfg, history, search, cut).value;
    var term := GoalSearchTerm(goal, cfg, search).value;
    AssistTypesTerm(goal, snap, cfg, history, search, cut);
    KeyOfStripped(term);
    TypedLastIsAlready(term, history, a);
    AssistSkipsTyped(goal, snap, cfg, history + [Record(a)], search, cut);
  }

  /** Without a scroll intent, an assist types the search term, which is a
      nonempty stripped string. */
  lemma AssistTypesTerm(goal: string, snap: Snapshot, cfg: Config, history: History,
                        search: Planner.Search, cut: Cut)
    requires ScrollIntent(goal).None?
    requires Assist(goal, snap, cfg, history, search, cut).Some?
    ensures var a := Assist(goal, snap, cfg, history, search, cut).value;
            GoalSearchTerm(goal, cfg, search).Some?
            && var term := GoalSearchTerm(goal, cfg, search).value;
            a.kind == "type" && StrArg(a.args, "text") == term && term != "" && IsStripped(term)
  {
  }

  /** Without a scroll intent, a search term already typed leaves nothing to assist. */
  lemma AssistSkipsTyped(goal: string, snap: Snapshot, cfg: Config, h: History,
                         search: Planner.Search, cut: Cut)
    requires ScrollIntent(goal).None?
    requires GoalSearchTerm(goal, cfg, search).Some?
    requires AlreadyTyped(GoalSearchTerm(goal, cfg, search).value, h)
    ensures Assist(goal, snap, cfg, h, search, cut).None?
  {
  }

  /** A nonempty stripped text has a nonempty comparison key. */
  lemma KeyOfStripped(t: string)
    requires t != "" && IsStripped(t)
    ensures Planner.TextKey(t) != ""
  {
    StripOfStripped(t);
  }

  /** A nonempty text the last plan typed counts as already typed. */
  lemma TypedLastIsAlready(text: string, history: History, a: Action)
    requires a.kind == "type" && StrArg(a.args, "text") == text && Planner.TextKey(text) != ""
    ensures AlreadyTyped(text, history + [Record(a)])
  {
    var h := history + [Record(a)];
    var r := Recent(h);
    var i := |r| - 1;
    assert r[i] == Record(a);
    assert r[i].plan.kind == "type"
        && Planner.TextKey(text) == Planner.TextKey(StrArg(r[i].plan.args, "text"));
  }
}

=== FILE: goal_router.dfy ===
/** The goal router: pick a registry app from a natural-language goal and
    build a minimal config for it (or a generic app-drawer config), plus the
    slug used in auto-config file names. The registry file is a parameter (an
    ordered list of entries, as `json.load` keeps key order); writing the
    auto-config file and its metadata is outside the model. */
module GoalRouter {
  import opened Base
  import opened Strings
  import opened Ui
  import Planner

  // ---------------------------------------------------------------- slugs

  /** A character of the class `[a-zA-Z0-9]`. */
  predicate IsAlnum(c: char) {
    'a' <= c <= 'z' || 'A' <= c <= 'Z' || '0' <= c <= '9'
  }

  /** No ASCII capital letter occurs in `s`. */
  predicate NoUpper(s: string) {
    forall i :: 0 <= i < |s| ==> !('A' <= s[i] <= 'Z')
  }

  /** Every character is a letter, a digit or `-`. */
  predicate DashAlnum(s: string) {
    forall i :: 0 <= i < |s| ==> s[i] == '-' || IsAlnum(s[i])
  }

  predicate NoDoubleDash(s: string) {
    forall i :: 0 <= i < |s| - 1 ==> !(s[i] == '-' && s[i + 1] == '-')
  }

  /** `s` with its leading run of non-alphanumerics removed. */
  function DropSeparators(s: string): (r: string)
    ensures |r| <= |s| && r == s[|s| - |r|..]
    ensures r == [] || IsAlnum(r[0])
    ensures forall i :: 0 <= i < |s| - |r| ==> !IsAlnum(s[i])
    decreases |s|
  {
    if |s| > 0 && !IsAlnum(s[0]) then DropSeparators(s[1..]) else s
  }

  /** `re.sub(r"[^a-zA-Z0-9]+", "-", s)`: every maximal run of other characters
      becomes one `-` (the shape of the result is `DashifyShape`). */
  function Dashify(s: string): (r: string)
    ensures r == [] <==> s == []
    ensures r != [] ==> (r[0] == '-' <==> !IsAlnum(s[0]))
    decreases |s|
  {
    if s == [] then []
    else if IsAlnum(s[0]) then [s[0]] + Dashify(s[1..])
    else "-" + Dashify(DropSeparators(s[1..]))
  }

  /** Putting a letter, digit or dash in front of slug characters, without making a
      double dash, keeps them slug characters. */
  lemma ConsChars(c: char, rest: string)
    requires c == '-' || IsAlnum(c)
    requires DashAlnum(rest) && NoDoubleDash(rest)
    requires c == '-' ==> rest == [] || rest[0] != '-'
    ensures DashAlnum([c] + rest) && NoDoubleDash([c] + rest)
  {
    var r := [c] + rest;
    assert forall i :: 1 <= i < |r| ==> r[i] == rest[i - 1];
  }

  lemma ConsNoUpper(c: char, rest: string)
    requires !('A' <= c <= 'Z') && NoUpper(rest)
    ensures NoUpper([c] + rest)
  {
    var r := [c] + rest;
    assert forall i :: 1 <= i < |r| ==> r[i] == rest[i - 1];
  }

  /** The dash substitution yields letters, digits and single dashes, and
      introduces no capital. */
  lemma {:induction false} DashifyShape(s: string)
    ensures DashAlnum(Dashify(s)) && NoDoubleDash(Dashify(s))
    ensures NoUpper(s) ==> NoUpper(Dashify(s))
    decreases |s|
  {
    if s == [] {
    } else if IsAlnum(s[0]) {
      var t := s[1..];
      DashifyShape(t);
      ConsChars(s[0], Dashify(t));
      if NoUpper(s) {
        assert NoUpper(t);
        ConsNoUpper(s[0], Dashify(t));
      }
    } else {
      var t := DropSeparators(s[1..]);
      DashifyShape(t);
      assert Dashify(t) == [] || Dashify(t)[0] != '-';
      ConsChars('-', Dashify(t));
      if NoUpper(s) {
        assert NoUpper(t) by {
          assert forall i :: 0 <= i < |t| ==> t[i] == s[|s| - |t| + i];
        }
        ConsNoUpper('-', Dashify(t));
      }
    }
  }

  /** `s.lstrip(c)` */
  function TrimLeading(s: string, c: char): (r: string)
    ensures |r| <= |s| && r == s[|s| - |r|..]
    ensures r == [] || r[0] != c
    ensures forall i :: 0 <= i < |s| - |r| ==> s[i] == c
    decreases |s|
  {
    if |s| > 0 && s[0] == c then TrimLeading(s[1..], c) else s
  }

  /** `s.rstrip(c)` */
  function TrimTrailing(s: string, c: char): (r: string)
    ensures |r| <= |s| && r == s[..|r|]
    ensures r == [] || r[|r| - 1] != c
    ensures forall i :: |r| <= i < |s| ==> s[i] == c
    decreases |s|
  {
    if |s| > 0 && s[|s| - 1] == c then TrimTrailing(s[..|s| - 1], c) else s
  }

  /** The default `max_len` of `_slugify`. */
  const MaxSlug := 48

  /** What `_slugify` promises of its output: 1 to 48 characters from
      `[a-z0-9-]`, no `-` at either end and never two in a row. */
  predicate IsSlug(s: string) {
    0 < |s| <= MaxSlug && DashAlnum(s) && NoUpper(s) && NoDoubleDash(s)
    && s[0] != '-' && s[|s| - 1] != '-'
  }

  /** Letters, digits and dashes, no capitals, no double dash. */
  predicate SlugChars(s: string) {
    DashAlnum(s) && NoUpper(s) && NoDoubleDash(s)
  }

  /** A slug of any length. */
  predicate IsSlugShape(s: string) {
    0 < |s| && SlugChars(s) && s[0] != '-' && s[|s| - 1] != '-'
  }

  /** Every slice of slug characters is made of slug characters. */
  lemma SliceSlugChars(s: string, lo: nat, hi: nat)
    requires lo <= hi <= |s| && SlugChars(s)
    ensures SlugChars(s[lo..hi])
  {
    var t := s[lo..hi];
    assert forall i :: 0 <= i < |t| ==> t[i] == s[lo + i];
  }

  /** Lower-casing leaves no capital. */
  lemma LowerNoUpper(s: string)
    ensures NoUpper(Lower(s))
  {
  }

  lemma TrimmedLeading(d: string)
    requires SlugChars(d)
    ensures var l := TrimLeading(d, '-');
            SlugChars(l) && (l == [] || l[0] != '-')
  {
    var l := TrimLeading(d, '-');
    SuffixSlugChars(d, |d| - |l|);
  }

  lemma TrimmedTrailing(l: string)
    requires SlugChars(l) && (l == [] || l[0] != '-')
    ensures var t := TrimTrailing(l, '-');
            t == [] || IsSlugShape(t)
  {
    var t := TrimTrailing(l, '-');
    SliceSlugChars(l, 0, |t|);
    assert t != [] ==> t[0] == l[0];
  }

  /** Trimming the dashes off both ends of slug characters leaves a slug, or nothing. */
  lemma TrimmedSlug(d: string)
    requires SlugChars(d)
    ensures var t := TrimTrailing(TrimLeading(d, '-'), '-');
            t == [] || IsSlugShape(t)
  {
    TrimmedLeading(d);
    TrimmedTrailing(TrimLeading(d, '-'));
  }

  /** Every suffix of slug characters is made of slug characters. */
  lemma SuffixSlugChars(s: string, lo: nat)
    requires lo <= |s| && SlugChars(s)
    ensures SlugChars(s[lo..])
  {
    var t := s[lo..];
    assert forall i :: 0 <= i < |t| ==> t[i] == s[lo + i];
  }

  /** The slug before truncation: stripped, lower-cased, runs dashed, and the
      dashes at both ends removed. */
  function SlugBody(text: string): (s: string)
    ensures s == [] || IsSlugShape(s)
  {
    var d := Dashify(Lower(Strip(text)));
    LowerNoUpper(Strip(text));
    DashifyShape(Lower(Strip(text)));
    TrimmedSlug(d);
    TrimTrailing(TrimLeading(d, '-'), '-')
  }

  /** `s[:max_len].rstrip("-")` when `s` is too long. */
  function Truncate(s: string): (t: string)
    requires s == [] || IsSlugShape(s)
    ensures t == [] <==> s == []
    ensures t == [] || (IsSlugShape(t) && |t| <= MaxSlug)
    ensures |s| <= MaxSlug ==> t == s
  {
    if |s| > MaxSlug then
      var c := s[..MaxSlug];
      SliceSlugChars(s, 0, MaxSlug);
      var t := TrimTrailing(c, '-');
      assert t != [] by {
        assert c[0] == s[0] != '-';
      }
      SliceSlugChars(c, 0, |t|);
      assert t[0] == s[0];
      t
    else s
  }

  lemma FallbackIsSlug()
    ensures IsSlug("goal")
  {
  }

  /** `_slugify(text)` with the default bound. */
  function Slugify(text: string): (r: string)
    ensures IsSlug(r)
  {
    var t := Truncate(SlugBody(text));
    if |t| == 0 then
      FallbackIsSlug();
      "goal"
    else t
  }

  lemma LowerOfNoUpper(s: string)
    requires NoUpper(s)
    ensures Lower(s) == s
  {
  }

  /** A string with no two dashes in a row and nothing but letters, digits and
      dashes is left alone by the dash substitution. */
  lemma {:induction false} DashifyFixed(s: string)
    requires DashAlnum(s) && NoDoubleDash(s)
    ensures Dashify(s) == s
    decreases |s|
  {
    if s != [] {
      var t := s[1..];
      assert DashAlnum(t) && NoDoubleDash(t);
      if IsAlnum(s[0]) {
        DashifyFixed(t);
      } else {
        assert t == [] || IsAlnum(t[0]);
        assert DropSeparators(t) == t;
        DashifyFixed(t);
      }
      assert [s[0]] + t == s;
    }
  }

  /** `_slugify` is idempotent: a slug is its own slug. */
  lemma SlugifyIdempotent(s: string)
    requires IsSlug(s)
    ensures Slugify(s) == s
  {
    assert !IsSpace(s[0]) && !IsSpace(s[|s| - 1]);
    StripOfStripped(s);
    LowerOfNoUpper(s);
    DashifyFixed(s);
  }

  lemma {:induction false} DashifyNoAlnum(s: string)
    requires forall i :: 0 <= i < |s| ==> !IsAlnum(s[i])
    ensures Dashify(s) == [] || Dashify(s) == "-"
  {
    if s != [] {
      assert DropSeparators(s[1..]) == [];
    }
  }

  /** A goal without a single ASCII letter or digit gets the fallback slug. */
  lemma SlugifyWithoutAlnums(text: string)
    requires forall i :: 0 <= i < |text| ==> !IsAlnum(text[i])
    ensures Slugify(text) == "goal"
  {
    var st := Strip(text);
    var lo := Lower(st);
    StripLeftIsSuffix(text);
    assert forall i :: 0 <= i < |st| ==> st[i] in text;
    assert forall i :: 0 <= i < |lo| ==> !IsAlnum(lo[i]);
    DashifyNoAlnum(lo);
  }

  // ------------------------------------------------------------- registry

  /** One registry entry's metadata; an absent key is `None`. */
  datatype AppMeta = AppMeta(
    appComponent: Option<string>,
    package: Option<string>,
    allowedPackages: Option<seq<string>>,
    planHints: Option<seq<Hint>>,
    aliases: Option<seq<string>>,
    fallbackScroll: Option<bool>,
    fallbackScrollArgs: Option<Args>)

  /** `{}`: the one entry Python treats as false. */
  const BlankMeta := AppMeta(None, None, None, None, None, None, None)

  /** A registry key and its entry. */
  datatype AppEntry = AppEntry(name: string, meta: AppMeta)

  /** `app_registry.json` in file order. */
  type Registry = seq<AppEntry>

  /** The position of the first entry satisfying `p`. */
  function FirstEntry(reg: Registry, p: AppEntry -> bool): (r: Option<nat>)
    ensures r.Some? ==> r.value < |reg| && p(reg[r.value]) && forall j :: 0 <= j < r.value ==> !p(reg[j])
    ensures r.None? ==> forall j :: 0 <= j < |reg| ==> !p(reg[j])
  {
    if reg == [] then None
    else if p(reg[0]) then Some(0)
    else
      var r := FirstEntry(reg[1..], p);
      assert forall j :: 1 <= j < |reg| ==> reg[j] == reg[1..][j - 1];
      if r.Some? then Some(r.value + 1) else None
  }

  function Aliases(m: AppMeta): seq<string> {
    m.aliases.GetOr([])
  }

  /** Some alias of the entry, lower-cased, equals `app`. */
  predicate AliasIs(m: AppMeta, app: string) {
    exists j :: 0 <= j < |Aliases(m)| && Lower(Aliases(m)[j]) == app
  }

  /** The entry `_base_config_for_app` chooses for an app name: the entry keyed by
      the lower-cased name (unless it is `{}`), otherwise the first entry with an
      alias equal to it. */
  function ChooseEntry(app: string, reg: Registry): (r: Option<AppMeta>)
    ensures r.Some? ==> r.value != BlankMeta
    ensures var key := FirstEntry(reg, (e: AppEntry) => e.name == Lower(app));
            key.Some? ==> r == (if reg[key.value].meta == BlankMeta then None else Some(reg[key.value].meta))
    ensures (forall j :: 0 <= j < |reg| ==> reg[j].name != Lower(app)) ==>
              (r.Some? <==> exists j :: 0 <= j < |reg| && AliasIs(reg[j].meta, Lower(app)))
    ensures (forall j :: 0 <= j < |reg| ==> reg[j].name != Lower(app)) && r.Some? ==>
              exists j :: 0 <= j < |reg| && r.value == reg[j].meta && AliasIs(reg[j].meta, Lower(app))
                          && forall k :: 0 <= k < j ==> !AliasIs(reg[k].meta, Lower(app))
  {
    var low := Lower(app);
    var key := FirstEntry(reg, (e: AppEntry) => e.name == low);
    if key.Some? then
      var m := reg[key.value].meta;
      if m == BlankMeta then None else Some(m)
    else
      var alias := FirstEntry(reg, (e: AppEntry) => AliasIs(e.meta, low));
      if alias.Some? then Some(reg[alias.value].meta) else None
  }

  /** `_base_config_for_app` as written: component, package, the allowed list and
      hints when given, and a termination that only asks for the package. */
  function BaseConfigAsWritten(m: AppMeta): (c: Config)
    ensures c.termination == EmptySpec.(package := m.package)
    ensures c.appComponent == m.appComponent.GetOr("") && c.package == m.package.GetOr("")
    ensures c.fallbackScroll && c.fallbackScrollArgs.None?
  {
    Config(m.appComponent.GetOr(""), m.package.GetOr(""), m.allowedPackages.GetOr([]),
           m.planHints.GetOr([]), true, None, EmptySpec.(package := m.package), "")
  }

  /** The base config with the entry's fallback-scroll policy carried over, as the
      copy loop of `synthesize_config_from_goal` evidently means to do. */
  function BaseConfig(m: AppMeta): (c: Config)
    ensures c.termination == EmptySpec.(package := m.package)
    ensures c.appComponent == m.appComponent.GetOr("") && c.package == m.package.GetOr("")
    ensures c.fallbackScroll == m.fallbackScroll.GetOr(true) && c.fallbackScrollArgs == m.fallbackScrollArgs
    ensures c == BaseConfigAsWritten(m).(fallbackScroll := m.fallbackScroll.GetOr(true),
                                        fallbackScrollArgs := m.fallbackScrollArgs)
  {
    BaseConfigAsWritten(m).(fallbackScroll := m.fallbackScroll.GetOr(true),
                           fallbackScrollArgs := m.fallbackScrollArgs)
  }

  /** `_infer_app`: the first registry key found in the lower-cased goal; only when
      no key is, the first entry one of whose aliases is. */
  function InferApp(goal: string, reg: Registry): (r: Option<string>)
    ensures r.Some? ==> exists j :: 0 <= j < |reg| && reg[j].name == r.value
    ensures (exists j :: 0 <= j < |reg| && Contains(Lower(goal), reg[j].name)) ==>
              r.Some? && Contains(Lower(goal), r.value)
    ensures r.None? <==> forall j :: 0 <= j < |reg| ==>
              !Contains(Lower(goal), reg[j].name) && !MentionsAlias(goal, reg[j].meta)
    ensures (exists j :: 0 <= j < |reg| && Contains(Lower(goal), reg[j].name)) ==>
              exists i :: 0 <= i < |reg| && r == Some(reg[i].name) && Contains(Lower(goal), reg[i].name)
                            && forall j :: 0 <= j < i ==> !Contains(Lower(goal), reg[j].name)
    ensures (forall j :: 0 <= j < |reg| ==> !Contains(Lower(goal), reg[j].name)) && r.Some? ==>
              exists i :: 0 <= i < |reg| && r == Some(reg[i].name) && MentionsAlias(goal, reg[i].meta)
                            && forall j :: 0 <= j < i ==> !MentionsAlias(goal, reg[j].meta)
  {
    var g := Lower(goal);
    var key := FirstEntry(reg, (e: AppEntry) => Contains(g, e.name));
    if key.Some? then Some(reg[key.value].name)
    else
      var alias := FirstEntry(reg, (e: AppEntry) => MentionsAlias(goal, e.meta));
      if alias.Some? then Some(reg[alias.value].name) else None
  }

  /** Some lower-cased alias occurs in the lower-cased goal. */
  predicate MentionsAlias(goal: string, m: AppMeta) {
    exists j :: 0 <= j < |Aliases(m)| && Contains(Lower(goal), Lower(Aliases(m)[j]))
  }

  /** Keys take precedence over aliases: an alias of an earlier entry never beats
      a key named later in the file. */
  lemma KeysBeforeAliases(goal: string, reg: Registry, i: nat)
    requires i < |reg| && Contains(Lower(goal), reg[i].name)
    requires forall j :: 0 <= j < i ==> !Contains(Lower(goal), reg[j].name)
    ensures InferApp(goal, reg) == Some(reg[i].name)
  {
    var g := Lower(goal);
    var key := FirstEntry(reg, (e: AppEntry) => Contains(g, e.name));
    assert key == Some(i);
  }

  // -------------------------------------------------------- search terms

  /** The goal regexes. `search(pattern, goal)` is `re.search` with the flags of
      the call site (case-insensitive for the first two). */
  const SearchPattern := "search\\s+(for\\s+)?(.+)"
  const FindPattern := "find\\s+(.+)"
  const QuotedPattern := "['\"]([^'\"]+)['\"]"
  const OpenPattern := "open\\s+([a-zA-Z0-9 ._-]+?)(?:\\s+(?:and|then)\\b|\\s*[,;]|$)"

  /** The group a search-term pattern yields: the second when the pattern has
      two, otherwise the first. */
  function TermGroup(m: Planner.Match): Option<string> {
    if |m| - 1 >= 2 then Planner.Group(m, 2) else Planner.Group(m, 1)
  }

  /** `s.strip()`, with the fact that the result is stripped. */
  function Stripped(s: string): (r: string)
    ensures r == Strip(s) && IsStripped(r)
  {
    StripIsStripped(s);
    Strip(s)
  }

  /** A pattern's term when it matches with a nonempty group. */
  function PatternTerm(goal: string, pat: string, search: Planner.Search): (r: Option<string>)
    ensures r.Some? ==> IsStripped(r.value)
  {
    var m := search(pat, goal);
    if m.Some? && TermGroup(m.value).Some? && TermGroup(m.value).value != "" then Some(Stripped(TermGroup(m.value).value))
    else None
  }

  /** `_extract_search_term`: "search [for] X", then "find X", then a quoted phrase. */
  function ExtractSearchTerm(goal: string, search: Planner.Search): (r: Option<string>)
    ensures r.Some? ==> IsStripped(r.value)
    ensures PatternTerm(goal, SearchPattern, search).Some? ==> r == PatternTerm(goal, SearchPattern, search)
    ensures PatternTerm(goal, SearchPattern, search).None? && PatternTerm(goal, FindPattern, search).Some? ==>
              r == PatternTerm(goal, FindPattern, search)
    ensures PatternTerm(goal, SearchPattern, search).None? && PatternTerm(goal, FindPattern, search).None? ==>
              r == (if search(QuotedPattern, goal).Some?
                    then Some(Strip(Planner.Group(search(QuotedPattern, goal).value, 1).GetOr(""))) else None)
    ensures search(SearchPattern, goal).None? && search(FindPattern, goal).None? && search(QuotedPattern, goal).None? ==> r.None?
  {
    var first := PatternTerm(goal, SearchPattern, search);
    var second := PatternTerm(goal, FindPattern, search);
    var quoted := search(QuotedPattern, goal);
    if first.Some? then first
    else if second.Some? then second
    else if quoted.Some? then Some(Stripped(Planner.Group(quoted.value, 1).GetOr("")))
    else None
  }

  /** Every group that took part in the match is a piece of the goal. */
  predicate GroupsOfGoal(goal: string, m: Planner.Match) {
    forall k :: 0 <= k < |m| && m[k].Some? ==> Contains(goal, m[k].value)
  }

  /** Any group the term is read from is a piece of the goal. */
  lemma TermGroupOfGoal(goal: string, m: Planner.Match)
    requires GroupsOfGoal(goal, m)
    ensures TermGroup(m).Some? ==> Contains(goal, TermGroup(m).value)
    ensures Planner.Group(m, 1).Some? ==> Contains(goal, Planner.Group(m, 1).value)
  {
  }

  /** Whenever the search oracle reports groups taken from the goal, the extracted
      term is a piece of the goal. */
  lemma SearchTermFromGoal(goal: string, search: Planner.Search)
    requires search(SearchPattern, goal).Some? ==> GroupsOfGoal(goal, search(SearchPattern, goal).value)
    requires search(FindPattern, goal).Some? ==> GroupsOfGoal(goal, search(FindPattern, goal).value)
    requires search(QuotedPattern, goal).Some? ==> GroupsOfGoal(goal, search(QuotedPattern, goal).value)
    ensures ExtractSearchTerm(goal, search).Some? ==> Contains(goal, ExtractSearchTerm(goal, search).value)
  {
    var r := ExtractSearchTerm(goal, search);
    if r.Some? {
      var g: string;
      if PatternTerm(goal, SearchPattern, search).Some? {
        g := TermGroup(search(SearchPattern, goal).value).value;
        TermGroupOfGoal(goal, search(SearchPattern, goal).value);
      } else if PatternTerm(goal, FindPattern, search).Some? {
        g := TermGroup(search(FindPattern, goal).value).value;
        TermGroupOfGoal(goal, search(FindPattern, goal).value);
      } else {
        g := Planner.Group(search(QuotedPattern, goal).value, 1).GetOr("");
        TermGroupOfGoal(goal, search(QuotedPattern, goal).value);
        if Planner.Group(search(QuotedPattern, goal).value, 1).None? {
          assert IsPrefix("", goal);
        }
      }
      assert r.value == Strip(g);
      StripContained(g);
      ContainsTrans(goal, g, Strip(g));
    }
  }

  // ----------------------------------------------------------- synthesis

  predicate IsLetter(c: char) {
    'a' <= c <= 'z' || 'A' <= c <= 'Z'
  }

  /** `str.title()` on ASCII text: a letter is capitalised when the character
      before it is not a letter, and lower-cased otherwise. */
  function TitleFrom(s: string, afterLetter: bool): (r: string)
    ensures |r| == |s|
    ensures forall i :: 0 <= i < |s| ==> LowerChar(r[i]) == LowerChar(s[i])
  {
    if s == [] then []
    else
      var c := s[0];
      var rest := TitleFrom(s[1..], IsLetter(c));
      assert forall i :: 1 <= i < |s| ==> s[i] == s[1..][i - 1];
      [if IsLetter(c) then (if afterLetter then LowerChar(c) else UpperChar(c)) else c] + rest
  }

  function Title(s: string): string {
    TitleFrom(s, false)
  }

  /** Title-casing only changes case. */
  lemma TitleKeepsLetters(s: string)
    ensures Lower(Title(s)) == Lower(s)
  {
  }

  /** The launcher packages the app-drawer flow must leave. */
  const Launchers: seq<string> := [
    "com.google.android.apps.nexuslauncher",
    "com.android.launcher3",
    "com.miui.home",
    "com.sec.android.app.launcher"]

  /** A plan hint with fixed arguments and no target. */
  function ArgsHint(kind: string, args: Args): Hint {
    Hint(None, None, kind, None, [], [], [], Some(args), None)
  }

  /** A tap hint over preferred `text`/`content-desc` selectors. */
  function PreferHint(prefer: seq<Target>): Hint {
    Hint(None, None, "tap", None, prefer, [], [], None, None)
  }

  /** The seven fixed hints of the app-drawer flow: home, wait, two upward
      swipes, the Apps label, the search bar, wait. */
  const DrawerHints: seq<Hint> := [
    ArgsHint("keyevent", map["key" := Str("HOME")]),
    ArgsHint("wait", map["duration_ms" := Int(200)]),
    ArgsHint("scroll", map["direction" := Str("down"), "duration_ms" := Int(700),
                           "length_factor" := Num("0.9"), "start_pos" := Str("bottom")]),
    ArgsHint("scroll", map["direction" := Str("down"), "duration_ms" := Int(900),
                           "length_factor" := Num("1.0"), "start_pos" := Str("bottom")]),
    PreferHint([Target("text", "Apps"), Target("text", "App drawer")]),
    PreferHint([Target("content-desc", "Search apps"), Target("text", "Search apps"),
                Target("content-desc", "Search your phone"), Target("text", "Search your phone"),
                Target("text", "Search your phone & more")]),
    ArgsHint("wait", map["duration_ms" := Int(200)])]

  /** The word(s) after "open", stripped; empty when the goal has no "open". */
  function SaidName(goal: string, search: Planner.Search): string {
    var m := search(OpenPattern, goal);
    if m.Some? then Strip(Planner.Group(m.value, 1).GetOr("")) else ""
  }

  /** The app name the drawer flow searches for: the word(s) after "open", or
      the inferred registry key when the name does not already mention it. */
  function DrawerTarget(goal: string, canon: Option<string>, search: Planner.Search): (name: string)
    ensures canon.Some? && canon.value != "" && NoUpper(canon.value) ==> Contains(Lower(name), canon.value)
    ensures canon.Some? && canon.value != "" && !Contains(Lower(SaidName(goal, search)), canon.value) ==>
              name == canon.value
    ensures !(canon.Some? && canon.value != "" && !Contains(Lower(SaidName(goal, search)), canon.value)) ==>
              name == SaidName(goal, search)
  {
    var said := SaidName(goal, search);
    if canon.Some? && canon.value != "" && !Contains(Lower(said), canon.value) then
      var k := canon.value;
      if NoUpper(k) then
        LowerOfNoUpper(k);
        assert IsPrefix(k, k);
        k
      else k
    else said
  }

  /** The generic app-drawer config used when no registry entry applies. */
  function DrawerConfig(name: string): (c: Config)
    ensures c.termination == EmptySpec.(notPackageIn := Some(Many(Launchers)))
    ensures c.appComponent == "" && c.package == ""
    ensures |c.hints| == (if name != "" then 9 else 7)
    ensures c.hints[..7] == DrawerHints
    ensures name != "" ==> c.hints[7] == ArgsHint("type", map["text" := Str(name)])
                           && c.hints[8] == PreferHint([Target("text", Title(name)), Target("text", name)])
  {
    var extra := if name != "" then [ArgsHint("type", map["text" := Str(name)]),
                                     PreferHint([Target("text", Title(name)), Target("text", name)])]
                 else [];
    Config("", "", [], DrawerHints + extra, true, None, EmptySpec.(notPackageIn := Some(Many(Launchers))), "")
  }

  /** The termination merge: an extracted term becomes `must_contain_text`, and
      the package is added only when the termination does not name one. */
  function MergeTermination(cfg: Config, term: Option<string>): (c: Config)
    ensures c == cfg.(termination := c.termination)
    ensures c.termination.mustContainText ==
              (if term.Some? && term.value != "" then term else cfg.termination.mustContainText)
    ensures c.termination.package ==
              (if cfg.termination.package.Some? then cfg.termination.package
               else if cfg.package != "" then Some(cfg.package) else None)
    ensures c.termination.(mustContainText := None, package := None)
         == cfg.termination.(mustContainText := None, package := None)
  {
    var t1 := if term.Some? && term.value != "" then cfg.termination.(mustContainText := term) else cfg.termination;
    var t2 := if cfg.package != "" && t1.package.None? then t1.(package := Some(cfg.package)) else t1;
    cfg.(termination := t2)
  }

  /** The registry entry the router builds on: `_base_config_for_app(app) if app
      else None`, so an inferred empty key (which every goal contains) counts as
      no app at all. */
  function KnownEntry(app: Option<string>, reg: Registry): (meta: Option<AppMeta>)
    ensures app.None? || app.value == "" ==> meta.None?
    ensures app.Some? && app.value != "" ==> meta == ChooseEntry(app.value, reg)
  {
    if app.Some? && app.value != "" then ChooseEntry(app.value, reg) else None
  }

  /** `synthesize_config_from_goal` with the base config built by `base`: the
      registry config for the inferred app with the termination merged in, or the
      app-drawer config. */
  function SynthesizeWith(goal: string, reg: Registry, search: Planner.Search, base: AppMeta -> Config): Config {
    var app := InferApp(goal, reg);
    var meta := KnownEntry(app, reg);
    if meta.None? then DrawerConfig(DrawerTarget(goal, app, search))
    else MergeTermination(base(meta.value), ExtractSearchTerm(goal, search))
  }

  /** The router as written: the registry's fallback-scroll policy is lost. */
  function SynthesizeAsWritten(goal: string, reg: Registry, search: Planner.Search): (c: Config)
    ensures c.fallbackScroll && c.fallbackScrollArgs.None?
  {
    SynthesizeWith(goal, reg, search, BaseConfigAsWritten)
  }

  /** The router with the policy carried over from the chosen entry. */
  function Synthesize(goal: string, reg: Registry, search: Planner.Search): (c: Config)
    ensures var app := InferApp(goal, reg);
            var meta := KnownEntry(app, reg);
            meta.Some? ==> c.fallbackScroll == meta.value.fallbackScroll.GetOr(true)
                           && c.fallbackScrollArgs == meta.value.fallbackScrollArgs
                           && c.termination.package == meta.value.package
                           && c.package == meta.value.package.GetOr("")
    ensures var app := InferApp(goal, reg);
            var meta := KnownEntry(app, reg);
            var term := ExtractSearchTerm(goal, search);
            meta.Some? && term.Some? && term.value != "" ==>
              c.termination == EmptySpec.(package := meta.value.package, mustContainText := term)
    ensures InferApp(goal, reg).None? || InferApp(goal, reg) == Some("") ==>
              c.termination == EmptySpec.(notPackageIn := Some(Many(Launchers)))
              && (|c.hints| == 9 <==> DrawerTarget(goal, None, search) != "")
    ensures c == SynthesizeAsWritten(goal, reg, search).(fallbackScroll := c.fallbackScroll,
                                                         fallbackScrollArgs := c.fallbackScrollArgs)
  {
    SynthesizeWith(goal, reg, search, BaseConfig)
  }

  /** A registry key `""` is inferred for every goal, yet it is falsy, so the
      router takes the app-drawer path instead of the entry's config. */
  lemma EmptyKeyTakesDrawer(goal: string, search: Planner.Search)
    ensures var reg := [AppEntry("", BlankMeta.(package := Some("p")))];
            SynthesizeAsWritten(goal, reg, search).termination == EmptySpec.(notPackageIn := Some(Many(Launchers)))
            && SynthesizeAsWritten(goal, reg, search).package == ""
  {
    var reg := [AppEntry("", BlankMeta.(package := Some("p")))];
    assert IsPrefix("", Lower(goal));
    assert InferApp(goal, reg) == Some("");
  }

  /** The registry entry of the counterexample: it turns the scroll fallback off. */
  const QuietMeta := BlankMeta.(package := Some("p"), fallbackScroll := Some(false))

  /** The copy loop reads the already-built config, which never holds the
      fallback keys: a registry entry that disables scrolling still scrolls. */
  lemma FallbackPolicyLost(search: Planner.Search)
    ensures SynthesizeAsWritten("a", [AppEntry("a", QuietMeta)], search).fallbackScroll
    ensures !Synthesize("a", [AppEntry("a", QuietMeta)], search).fallbackScroll
  {
    var reg := [AppEntry("a", QuietMeta)];
    assert Lower("a") == "a";
    assert IsPrefix("a", "a");
    assert InferApp("a", reg) == Some("a");
    assert ChooseEntry("a", reg) == Some(QuietMeta);
  }
}

=== FILE: llm_output.dfy ===
/** The deterministic handling around the three LLM planners (Gemini, local
    llama.cpp, remote OpenAI-compatible): pulling a JSON object out of model
    text, the open_app / wait post-fix, the two policies for a schema-invalid
    action, the llama chat-format choice and the remote API-key precedence.
    The model calls, prompts and `json.loads` are outside the model: `loads` is
    the parser, and its result is either an object of the action's shape or
    some other JSON value (a JSON `null`, which the planners treat like a
    parse failure, is `None`). The three planners carry identical copies of
    `_extract_json_object`; it is defined once here. */
module LlmOutput {
  import opened Base
  import opened Strings
  import opened Ui
  import Planner

  /** A parsed JSON value: an object of the action's shape, or anything else
      (which the action schema rejects). */
  datatype Json = ActionJson(action: Action) | OtherJson

  type Loads = string -> Option<Json>

  // ---------------------------------------------------------- brace scan

  function Delta(c: char): int {
    if c == '{' then 1 else if c == '}' then -1 else 0
  }

  /** Opening minus closing braces in `t`. */
  function Depth(t: string): int {
    if t == [] then 0 else Delta(t[0]) + Depth(t[1..])
  }

  lemma DepthStep(s: string, i: nat, k: nat)
    requires i < k <= |s|
    ensures Depth(s[i..k]) == Delta(s[i]) + Depth(s[i + 1..k])
  {
    assert s[i..k][1..] == s[i + 1..k];
  }

  /** `s.find(c)` */
  function Find(s: string, c: char): (r: Option<nat>)
    ensures r.None? <==> c !in s
    ensures r.Some? ==> r.value < |s| && s[r.value] == c && c !in s[..r.value]
  {
    if s == [] then None
    else if s[0] == c then Some(0)
    else
      var r := Find(s[1..], c);
      assert r.Some? ==> s[..r.value + 1] == [s[0]] + s[1..][..r.value];
      assert s == [s[0]] + s[1..];
      if r.Some? then Some(r.value + 1) else None
  }

  /** Position `e` closes the scan begun at `i` with depth `depth`: it follows a
      `}` that brings the depth to zero. */
  predicate ClosesAt(s: string, i: nat, depth: int, e: nat)
    requires i < e <= |s|
  {
    s[e - 1] == '}' && depth + Depth(s[i..e]) == 0
  }

  /** The brace loop from index `i` on: the end of the first closing `}`. */
  function CloseFrom(s: string, i: nat, depth: int): (r: Option<nat>)
    requires i <= |s|
    ensures r.Some? ==> i < r.value <= |s| && ClosesAt(s, i, depth, r.value)
                        && forall k :: i < k < r.value ==> !ClosesAt(s, i, depth, k)
    ensures r.None? ==> forall k :: i < k <= |s| ==> !ClosesAt(s, i, depth, k)
    decreases |s| - i
  {
    if i == |s| then None
    else
      var d := depth + Delta(s[i]);
      var rest := CloseFrom(s, i + 1, d);
      assert forall k :: i + 1 < k <= |s| ==> (ClosesAt(s, i, depth, k) <==> ClosesAt(s, i + 1, d, k)) by {
        forall k | i + 1 < k <= |s|
          ensures ClosesAt(s, i, depth, k) <==> ClosesAt(s, i + 1, d, k)
        {
          DepthStep(s, i, k);
        }
      }
      assert Depth(s[i..i + 1]) == Delta(s[i]) by {
        DepthStep(s, i, i + 1);
      }
      if s[i] == '}' && d == 0 then Some(i + 1)
      else rest
  }

  datatype ExtractError = NoBrace | Unbalanced | BadChunk

  /** The brace scan of `_extract_json_object`: from the first `{` to the `}`
      where the depth first returns to zero. */
  function BraceScan(s: string): (r: Result<string, ExtractError>)
    ensures r == Err(NoBrace) <==> '{' !in s
    ensures r.Err? ==> r.error in {NoBrace, Unbalanced}
    ensures r.Ok? ==> Find(s, '{').Some?
                      && exists e :: Find(s, '{').value < e <= |s| && r.value == s[Find(s, '{').value..e]
                                     && ClosesAt(s, Find(s, '{').value, 0, e)
  {
    var st := Find(s, '{');
    if st.None? then Err(NoBrace)
    else
      var e := CloseFrom(s, st.value, 0);
      if e.None? then Err(Unbalanced)
      else Ok(s[st.value..e.value])
  }

  /** `_extract_json_object`: the whole text when it parses, otherwise the
      first balanced chunk, which must parse. */
  function ExtractJsonObject(s: string, loads: Loads): (r: Result<Json, ExtractError>)
    ensures loads(s).Some? ==> r == Ok(loads(s).value)
    ensures loads(s).None? && '{' !in s ==> r == Err(NoBrace)
    ensures r.Ok? && loads(s).None? ==> BraceScan(s).Ok? && r == Ok(loads(BraceScan(s).value).GetOr(OtherJson))
    ensures loads(s).None? && BraceScan(s).Err? ==> r == Err(BraceScan(s).error)
    ensures loads(s).None? && BraceScan(s).Ok? && loads(BraceScan(s).value).Some? ==>
              r == Ok(loads(BraceScan(s).value).value)
    ensures loads(s).None? && BraceScan(s).Ok? && loads(BraceScan(s).value).None? ==> r == Err(BadChunk)
  {
    if loads(s).Some? then Ok(loads(s).value)
    else
      match BraceScan(s)
      case Err(e) => Err(e)
      case Ok(chunk) => if loads(chunk).Some? then Ok(loads(chunk).value) else Err(BadChunk)
  }

  /** A JSON object text: starts with `{`, ends with the `}` that first brings
      the depth back to zero. */
  predicate BalancedObject(o: string) {
    |o| >= 2 && o[0] == '{' && o[|o| - 1] == '}' && Depth(o) == 0
    && forall k :: 0 < k < |o| ==> Depth(o[..k]) > 0
  }

  /** Prose around one object: the scan returns exactly that object, whatever
      follows it. */
  lemma ScanFindsObject(p: string, o: string, q: string)
    requires '{' !in p && BalancedObject(o)
    ensures BraceScan(p + o + q) == Ok(o)
  {
    var s := p + o + q;
    AppendAssoc(p, o, q);
    FindAfterBraceFree(p, o + q);
    assert s[|p|..|p| + |o|] == o;
    CloseAtObject(s, |p|, o);
  }

  /** Model text that wraps one parsable object in prose yields that object. */
  lemma ProseAroundObject(p: string, o: string, q: string, loads: Loads)
    requires '{' !in p && BalancedObject(o)
    requires loads(p + o + q).None? && loads(o).Some?
    ensures ExtractJsonObject(p + o + q, loads) == Ok(loads(o).value)
  {
    ScanFindsObject(p, o, q);
  }

  /** The first `{` after a brace-free prefix is the one that starts the rest. */
  lemma FindAfterBraceFree(p: string, r: string)
    requires '{' !in p && |r| > 0 && r[0] == '{'
    ensures Find(p + r, '{') == Some(|p|)
  {
    var s := p + r;
    assert s[..|p|] == p;
    assert s[|p|] == '{';
  }

  /** A balanced object sitting at `st` is closed exactly at its end. */
  lemma CloseAtObject(s: string, st: nat, o: string)
    requires st + |o| <= |s| && s[st..st + |o|] == o && BalancedObject(o)
    ensures CloseFrom(s, st, 0) == Some(st + |o|)
  {
    var e := st + |o|;
    assert ClosesAt(s, st, 0, e);
    forall k | st < k < e
      ensures !ClosesAt(s, st, 0, k)
    {
      assert s[st..k] == o[..k - st];
    }
  }

  // ------------------------------------------------------------ post-fix

  function WaitAction(ms: int): Action {
    Action("wait", None, map["duration_ms" := Int(ms)])
  }

  /** The action that launches the configured component. */
  function OpenApp(comp: string): Action {
    Action("open_app", Some(Target("component", comp)), map[])
  }

  /** The app must be launched: a package is configured, it is not in the
      focused `package/activity`, and a component is known. */
  predicate WrongApp(cfg: Config, pa: string) {
    cfg.package != "" && !Contains(pa, cfg.package) && cfg.appComponent != ""
  }

  /** The post-fix shared by the three planners: open the app when it is not in
      front (parsed or not), otherwise keep the parsed value, or wait 400 ms
      when nothing parsed. */
  function PostFix(parsed: Option<Json>, cfg: Config, pa: string): (r: Json)
    ensures WrongApp(cfg, pa) ==> r == ActionJson(OpenApp(cfg.appComponent))
    ensures !WrongApp(cfg, pa) ==> r == (if parsed.Some? then parsed.value else ActionJson(WaitAction(400)))
  {
    if WrongApp(cfg, pa) then ActionJson(OpenApp(cfg.appComponent))
    else if parsed.Some? then parsed.value
    else ActionJson(WaitAction(400))
  }

  /** Draft-7 validation against the action schema. */
  predicate Valid(j: Json) {
    j.ActionJson? && Planner.SchemaValid(j.action)
  }

  /** The planners' own fallbacks always pass the schema. */
  lemma FallbacksValid(cfg: Config, pa: string)
    ensures Valid(PostFix(None, cfg, pa))
  {
  }

  /** The Gemini and remote policy: an invalid action becomes wait 400 ms. */
  function OrWait(j: Json): (r: Action)
    ensures Planner.SchemaValid(r)
    ensures Valid(j) ==> r == j.action
    ensures !Valid(j) ==> r == WaitAction(400)
  {
    if Valid(j) then j.action else WaitAction(400)
  }

  /** The llama policy: an invalid action is an error. */
  function OrRaise(j: Json): (r: Result<Action, string>)
    ensures r.Ok? <==> Valid(j)
    ensures r.Ok? ==> r.value == j.action && Planner.SchemaValid(r.value)
  {
    if Valid(j) then Ok(j.action) else Err("LLM produced invalid action")
  }

  /** The model's answer after extraction (`None` when extraction failed). */
  function Parsed(text: string, loads: Loads): Option<Json> {
    match ExtractJsonObject(text, loads)
    case Ok(j) => Some(j)
    case Err(_) => None
  }

  /** `plan_next_action_remote`, and `plan_next_action_gemini` when no assist
      applies, after the model call: the model text is the only input. */
  function PlanOrWait(text: string, loads: Loads, cfg: Config, pa: string): (r: Action)
    ensures Planner.SchemaValid(r)
    ensures WrongApp(cfg, pa) ==> r == OpenApp(cfg.appComponent)
    ensures !WrongApp(cfg, pa) && Parsed(text, loads).Some? && Valid(Parsed(text, loads).value) ==>
              r == Parsed(text, loads).value.action
    ensures !WrongApp(cfg, pa) && (Parsed(text, loads).None? || !Valid(Parsed(text, loads).value)) ==>
              r == WaitAction(400)
  {
    OrWait(PostFix(Parsed(text, loads), cfg, pa))
  }

  /** `plan_next_action_llm` after the model call. */
  function PlanOrRaise(text: string, loads: Loads, cfg: Config, pa: string): (r: Result<Action, string>)
    ensures r.Ok? ==> Planner.SchemaValid(r.value)
    ensures WrongApp(cfg, pa) ==> r == Ok(OpenApp(cfg.appComponent))
    ensures r.Err? <==> !WrongApp(cfg, pa) && Parsed(text, loads).Some? && !Valid(Parsed(text, loads).value)
    ensures !WrongApp(cfg, pa) && Parsed(text, loads).Some? && Valid(Parsed(text, loads).value) ==>
              r == Ok(Parsed(text, loads).value.action)
    ensures !WrongApp(cfg, pa) && Parsed(text, loads).None? ==> r == Ok(WaitAction(400))
  {
    OrRaise(PostFix(Parsed(text, loads), cfg, pa))
  }

  /** The two policies agree whenever the llama planner does not raise, and it
      raises only on a parsed value the schema rejects. */
  lemma PoliciesAgree(text: string, loads: Loads, cfg: Config, pa: string)
    ensures PlanOrRaise(text, loads, cfg, pa).Ok? ==> PlanOrRaise(text, loads, cfg, pa).value == PlanOrWait(text, loads, cfg, pa)
    ensures PlanOrRaise(text, loads, cfg, pa).Err? ==>
              !WrongApp(cfg, pa) && Parsed(text, loads).Some? && !Valid(Parsed(text, loads).value)
              && PlanOrWait(text, loads, cfg, pa) == WaitAction(400)
  {
  }

  // ------------------------------------------------------ configuration

  /** The model-path rules of the chat template, in priority order: a path
      mentioning the first component gets the second. */
  const ChatRules: seq<(string, string)> := [("mistral", "mistral-instruct"), ("llama-2", "llama-2")]

  /** The format of the first rule whose name occurs in `path`. */
  function FirstRule(path: string, rules: seq<(string, string)>): (r: Option<string>)
    ensures r.None? <==> forall i :: 0 <= i < |rules| ==> !Contains(path, rules[i].0)
    ensures r.Some? ==> exists i :: 0 <= i < |rules| && Contains(path, rules[i].0) && r.value == rules[i].1
                                    && forall j :: 0 <= j < i ==> !Contains(path, rules[j].0)
  {
    if rules == [] then None
    else if Contains(path, rules[0].0) then Some(rules[0].1)
    else
      var r := FirstRule(path, rules[1..]);
      assert forall i :: 1 <= i < |rules| ==> rules[i] == rules[1..][i - 1];
      r
  }

  /** The llama chat template: an explicit choice wins; otherwise the model
      path decides, mistral before llama-2, and anything else is left to the
      library. */
  function ChatFormat(explicit: Option<string>, modelPath: string): (r: Option<string>)
    ensures explicit.Some? ==> r == explicit
    ensures explicit.None? ==> r == FirstRule(Lower(modelPath), ChatRules)
    ensures explicit.None? && Contains(Lower(modelPath), "mistral") ==> r == Some("mistral-instruct")
    ensures explicit.None? && !Contains(Lower(modelPath), "mistral") ==>
              r == (if Contains(Lower(modelPath), "llama-2") then Some("llama-2") else None)
  {
    if explicit.Some? then explicit
    else if Contains(Lower(modelPath), "mistral") then Some("mistral-instruct")
    else if Contains(Lower(modelPath), "llama-2") then Some("llama-2")
    else None
  }

  /** `a or b or ...`: the first candidate that is set and nonempty. */
  function FirstSet(cands: seq<Option<string>>): (r: Option<string>)
    ensures r.Some? ==> r.value != ""
    ensures r.Some? ==> exists i :: 0 <= i < |cands| && cands[i] == r
                                    && forall j :: 0 <= j < i ==> !(cands[j].Some? && cands[j].value != "")
    ensures r.None? <==> forall i :: 0 <= i < |cands| ==> !(cands[i].Some? && cands[i].value != "")
  {
    if cands == [] then None
    else if cands[0].Some? && cands[0].value != "" then cands[0]
    else
      var r := FirstSet(cands[1..]);
      assert forall i :: 1 <= i < |cands| ==> cands[i] == cands[1..][i - 1];
      r
  }

  /** The environment variables the remote planner reads, in order. */
  const KeyVariables: seq<string> := ["OPENAI_API_KEY", "OPENROUTER_API_KEY", "TOGETHER_API_KEY"]

  /** The remote planner's API key: the argument, then the environment variables
      in order; none set is an error. `env` is `os.getenv`. */
  function ResolveApiKey(arg: Option<string>, env: string -> Option<string>): (r: Result<string, string>)
    ensures arg.Some? && arg.value != "" ==> r == Ok(arg.value)
    ensures r.Ok? ==> r.value != ""
    ensures r.Ok? && !(arg.Some? && arg.value != "") ==>
              exists i :: 0 <= i < |KeyVariables| && env(KeyVariables[i]) == Some(r.value)
                          && forall j :: 0 <= j < i ==> !(env(KeyVariables[j]).Some? && env(KeyVariables[j]).value != "")
    ensures r.Err? <==> !(arg.Some? && arg.value != "")
                        && forall i :: 0 <= i < |KeyVariables| ==> !(env(KeyVariables[i]).Some? && env(KeyVariables[i]).value != "")
  {
    var cands := [arg, env(KeyVariables[0]), env(KeyVariables[1]), env(KeyVariables[2])];
    var r := FirstSet(cands);
    assert forall i :: 0 <= i < |KeyVariables| ==> cands[i + 1] == env(KeyVariables[i]);
    assert !(arg.Some? && arg.value != "") && r.Some? ==> cands[0] != r;
    if r.Some? then Ok(r.value) else Err("No API key found")
  }
}

=== FILE: normalizer.dfy ===
/** The per-node part of the normalizer: bounds parsing, element construction
    (defaults, center, id key) and the `by_id` index. XML parsing and SHA-1 are
    outside the model: nodes arrive as attribute maps and the hash is a parameter. */
module Normalizer {
  import opened Base
  import opened Strings
  import opened Ui

  /** The longest run of ASCII digits at the head of `s`. */
  function TakeDigits(s: string): (d: string)
    ensures |d| <= |s| && d == s[..|d|] && AllDigits(d)
    ensures |d| < |s| ==> !IsDigit(s[|d|])
  {
    if s == [] || !IsDigit(s[0]) then [] else [s[0]] + TakeDigits(s[1..])
  }

  lemma TakeDigitsOf(d: string, rest: string)
    requires AllDigits(d)
    requires rest == [] || !IsDigit(rest[0])
    ensures TakeDigits(d + rest) == d
  {
    var s := d + rest;
    assert forall i :: 0 <= i < |d| ==> s[i] == d[i];
    if |d| < |s| {
      assert s[|d|] == rest[0];
    }
  }

  /** One or more digits followed by `close`: their value and what follows `close`. */
  function ParseNumThen(s: string, close: char): (r: Option<(nat, string)>)
    ensures r.Some? ==> |s| >= |r.value.1| + 2 && r.value.1 == s[|s| - |r.value.1|..]
    ensures r.Some? ==> |TakeDigits(s)| < |s| && s[|TakeDigits(s)|] == close && r.value.0 == DigitsValue(TakeDigits(s))
  {
    var d := TakeDigits(s);
    if |d| == 0 || |d| == |s| || s[|d|] != close then None
    else Some((DigitsValue(d), s[|d| + 1..]))
  }

  /** `[digits,digits]` at the head of `s`: both values and what follows. */
  function ParsePair(s: string): (r: Option<(nat, nat, string)>)
    ensures r.Some? ==> |s| >= |r.value.2| + 5 && s[0] == '['
    ensures r.Some? ==> r.value.0 == DigitsValue(TakeDigits(s[1..]))
  {
    if |s| == 0 || s[0] != '[' then None
    else
      match ParseNumThen(s[1..], ',')
      case None => None
      case Some((x, r1)) =>
        match ParseNumThen(r1, ']')
        case None => None
        case Some((y, r2)) => Some((x, y, r2))
  }

  /** `parse_bounds`: the pattern `[l,t][r,b]` matched at the start of the string
      (not anchored at the end), else `None`. */
  function ParseBounds(s: string): (r: Option<Rect>)
    ensures r.Some? ==> |s| >= 10 && s[0] == '['
    ensures r.Some? ==> r.value.left == DigitsValue(TakeDigits(s[1..]))
  {
    match ParsePair(s)
    case None => None
    case Some((l, t, rest)) =>
      match ParsePair(rest)
      case None => None
      case Some((r, b, _)) => Some(Rect(l, t, r, b))
  }

  /** `[a,b]` followed by `rest`. */
  function FormatPair(a: nat, b: nat, rest: string): string {
    ['['] + (NatToString(a) + ([','] + (NatToString(b) + ([']'] + rest))))
  }

  /** The uiautomator rendering of a rectangle, `[l,t][r,b]`, followed by `rest`. */
  function FormatBounds(r: Rect, rest: string): string {
    FormatPair(r.left, r.top, FormatPair(r.right, r.bottom, rest))
  }

  lemma ParseNumThenOf(d: string, close: char, rest: string)
    requires |d| > 0 && AllDigits(d) && !IsDigit(close)
    ensures ParseNumThen(d + ([close] + rest), close) == Some((DigitsValue(d), rest))
  {
    TakeDigitsOf(d, [close] + rest);
    AfterMark(d, close, rest);
  }

  lemma AfterMark(d: string, c: char, rest: string)
    ensures (d + ([c] + rest))[|d|] == c && (d + ([c] + rest))[|d| + 1..] == rest
  {
  }

  lemma ParsePairOf(s: string, x: nat, r1: string, y: nat, r2: string)
    requires |s| > 0 && s[0] == '['
    requires ParseNumThen(s[1..], ',') == Some((x, r1))
    requires ParseNumThen(r1, ']') == Some((y, r2))
    ensures ParsePair(s) == Some((x, y, r2))
  {
  }

  lemma ParsePairOfDigits(da: string, db: string, rest: string)
    requires |da| > 0 && AllDigits(da) && |db| > 0 && AllDigits(db)
    ensures ParsePair(['['] + (da + ([','] + (db + ([']'] + rest)))))
         == Some((DigitsValue(da), DigitsValue(db), rest))
  {
    var tail := db + ([']'] + rest);
    var s := ['['] + (da + ([','] + tail));
    assert s[1..] == da + ([','] + tail);
    ParseNumThenOf(da, ',', tail);
    ParseNumThenOf(db, ']', rest);
    ParsePairOf(s, DigitsValue(da), tail, DigitsValue(db), rest);
  }

  /** Parsing a rendered rectangle gives it back, whatever follows the pattern. */
  lemma ParseFormatBounds(r: Rect, suffix: string)
    ensures ParseBounds(FormatBounds(r, suffix)) == Some(r)
  {
    ParsePairOfDigits(NatToString(r.left), NatToString(r.top), FormatPair(r.right, r.bottom, suffix));
    ParsePairOfDigits(NatToString(r.right), NatToString(r.bottom), suffix);
  }

  /** A string that does not open with `[` has no bounds. */
  lemma ParseBoundsNeedsBracket(s: string)
    requires s == [] || s[0] != '['
    ensures ParseBounds(s) == None
  {
  }

  /** A nonempty run of ASCII digits: one `\d+` of the bounds pattern. */
  predicate DigitRun(d: string) {
    |d| > 0 && AllDigits(d)
  }

  /** `[a,b]` for two digit runs. */
  function PairText(a: string, b: string): string {
    ['['] + (a + ([','] + (b + [']'])))
  }

  /** `s` opens with `[a,b][c,d]` for four digit runs: the text the bounds
      pattern matches at the start of a string. */
  predicate BoundsPrefix(s: string, a: string, b: string, c: string, d: string) {
    DigitRun(a) && DigitRun(b) && DigitRun(c) && DigitRun(d) && IsPrefix(PairText(a, b) + PairText(c, d), s)
  }

  lemma PairTextThen(a: string, b: string, rest: string)
    ensures PairText(a, b) + rest == ['['] + (a + ([','] + (b + ([']'] + rest))))
  {
  }

  /** Any string opening with the pattern parses to the four values, leading
      zeros and trailing text included. */
  lemma ParseBoundsOfPrefix(s: string, a: string, b: string, c: string, d: string)
    requires BoundsPrefix(s, a, b, c, d)
    ensures ParseBounds(s) == Some(Rect(DigitsValue(a), DigitsValue(b), DigitsValue(c), DigitsValue(d)))
  {
    var head := PairText(a, b) + PairText(c, d);
    var tail := s[|head|..];
    assert s == PairText(a, b) + (PairText(c, d) + tail);
    PairTextThen(a, b, PairText(c, d) + tail);
    PairTextThen(c, d, tail);
    ParsePairOfDigits(a, b, PairText(c, d) + tail);
    ParsePairOfDigits(c, d, tail);
  }

  /** A digit run, the closing character, then the rest the parse returns. */
  lemma ParseNumThenSplit(t: string, close: char)
    requires ParseNumThen(t, close).Some?
    ensures var d := TakeDigits(t);
            DigitRun(d) && t == d + ([close] + ParseNumThen(t, close).value.1)
            && ParseNumThen(t, close).value.0 == DigitsValue(d)
  {
    var d := TakeDigits(t);
    assert t == t[..|d|] + ([t[|d|]] + t[|d| + 1..]);
  }

  /** `[d1,d2]` at the head of `s`: the two digit runs, whose values the pair
      parse returns, and what follows. */
  lemma ParsePairHasPrefix(s: string) returns (d1: string, d2: string)
    requires ParsePair(s).Some?
    ensures DigitRun(d1) && DigitRun(d2) && s == PairText(d1, d2) + ParsePair(s).value.2
    ensures ParsePair(s).value.0 == DigitsValue(d1) && ParsePair(s).value.1 == DigitsValue(d2)
  {
    var t := s[1..];
    ParseNumThenSplit(t, ',');
    d1 := TakeDigits(t);
    var r1 := ParseNumThen(t, ',').value.1;
    ParseNumThenSplit(r1, ']');
    d2 := TakeDigits(r1);
    var r2 := ParseNumThen(r1, ']').value.1;
    assert ParsePair(s).value == (DigitsValue(d1), DigitsValue(d2), r2);
    PairTextThen(d1, d2, r2);
    assert s == ['['] + t;
  }

  lemma PrefixOfAppend(h: string, t: string)
    ensures IsPrefix(h, h + t)
  {
    assert (h + t)[..|h|] == h;
  }

  /** The four digit runs behind a successful parse. */
  lemma ParseBoundsRuns(s: string) returns (a: string, b: string, c: string, d: string)
    requires ParseBounds(s).Some?
    ensures BoundsPrefix(s, a, b, c, d)
    ensures ParseBounds(s).value == Rect(DigitsValue(a), DigitsValue(b), DigitsValue(c), DigitsValue(d))
  {
    a, b := ParsePairHasPrefix(s);
    var rest := ParsePair(s).value.2;
    c, d := ParsePairHasPrefix(rest);
    var tail := ParsePair(rest).value.2;
    var head := PairText(a, b) + PairText(c, d);
    AppendAssoc(PairText(a, b), PairText(c, d), tail);
    PrefixOfAppend(head, tail);
  }

  /** A successful parse means the string opens with the pattern, and the
      values are those of its four digit runs. */
  lemma ParseBoundsHasPrefix(s: string)
    requires ParseBounds(s).Some?
    ensures exists a, b, c, d :: BoundsPrefix(s, a, b, c, d)
              && ParseBounds(s).value == Rect(DigitsValue(a), DigitsValue(b), DigitsValue(c), DigitsValue(d))
  {
    var a, b, c, d := ParseBoundsRuns(s);
  }

  /** `BOUND_RE.match` succeeds exactly on strings that open with
      `[d+,d+][d+,d+]`, and then yields those four numbers. */
  lemma ParseBoundsShape(s: string)
    ensures ParseBounds(s).Some? <==> exists a, b, c, d :: BoundsPrefix(s, a, b, c, d)
    ensures forall a, b, c, d :: BoundsPrefix(s, a, b, c, d) ==>
              ParseBounds(s) == Some(Rect(DigitsValue(a), DigitsValue(b), DigitsValue(c), DigitsValue(d)))
  {
    if ParseBounds(s).Some? {
      ParseBoundsHasPrefix(s);
    }
    forall a, b, c, d | BoundsPrefix(s, a, b, c, d)
      ensures ParseBounds(s) == Some(Rect(DigitsValue(a), DigitsValue(b), DigitsValue(c), DigitsValue(d)))
    {
      ParseBoundsOfPrefix(s, a, b, c, d);
    }
  }

  /** The attributes of one `node` of the dump. */
  type Attrs = map<string, string>

  /** `attrib.get(key) or ""` */
  function Attr(a: Attrs, key: string): string {
    if key in a then a[key] else ""
  }

  /** The key whose hash becomes `element_id`: `resource_id|text|bounds`. */
  function IdKey(a: Attrs): string {
    Attr(a, "resource-id") + "|" + Attr(a, "text") + "|" + Attr(a, "bounds")
  }

  /** One element of `normalize`; unparseable or missing bounds become all zeros
      and the center is the floored midpoint. */
  function MakeElement(a: Attrs, sha1: string -> string): (e: Element)
    ensures e.elementId == sha1(IdKey(a))
    ensures e.resourceId == Attr(a, "resource-id") && e.text == Attr(a, "text")
    ensures e.contentDesc == Attr(a, "content-desc") && e.className == Attr(a, "class")
    ensures e.clickable <==> "clickable" in a && a["clickable"] == "true"
    ensures e.focusable <==> "focusable" in a && a["focusable"] == "true"
    ensures ParseBounds(Attr(a, "bounds")).Some? ==> e.bounds == ParseBounds(Attr(a, "bounds")).value
    ensures ParseBounds(Attr(a, "bounds")).None? ==> e.bounds == Rect(0, 0, 0, 0)
    ensures e.bounds.left <= e.bounds.right ==> e.bounds.left <= e.center.x <= e.bounds.right
    ensures e.bounds.top <= e.bounds.bottom ==> e.bounds.top <= e.center.y <= e.bounds.bottom
    ensures e.bounds.left + e.bounds.right - 1 <= 2 * e.center.x <= e.bounds.left + e.bounds.right
    ensures e.bounds.top + e.bounds.bottom - 1 <= 2 * e.center.y <= e.bounds.top + e.bounds.bottom
  {
    var b := ParseBounds(Attr(a, "bounds")).GetOr(Rect(0, 0, 0, 0));
    Element(
      elementId := sha1(IdKey(a)),
      resourceId := Attr(a, "resource-id"),
      text := Attr(a, "text"),
      contentDesc := Attr(a, "content-desc"),
      className := Attr(a, "class"),
      bounds := b,
      clickable := Attr(a, "clickable") == "true",
      focusable := Attr(a, "focusable") == "true",
      center := Point((b.left + b.right) / 2, (b.top + b.bottom) / 2))
  }

  /** The id never depends on the content description, the class or the flags:
      two nodes that agree on resource id, text and raw bounds share it. */
  lemma IdIgnoresOtherAttributes(a1: Attrs, a2: Attrs, sha1: string -> string)
    requires Attr(a1, "resource-id") == Attr(a2, "resource-id")
    requires Attr(a1, "text") == Attr(a2, "text")
    requires Attr(a1, "bounds") == Attr(a2, "bounds")
    ensures MakeElement(a1, sha1).elementId == MakeElement(a2, sha1).elementId
  {
  }

  /** `{e["element_id"]: e for e in elements}`: a later element replaces an
      earlier one with the same id. */
  function IndexById(es: seq<Element>): (m: map<string, Element>)
    ensures forall k :: k in m ==> m[k] in es && m[k].elementId == k
    ensures forall i :: 0 <= i < |es| ==> es[i].elementId in m
    decreases |es|
  {
    if es == [] then map[]
    else
      var init := es[..|es| - 1];
      var last := es[|es| - 1];
      assert forall i :: 0 <= i < |init| ==> init[i] == es[i];
      IndexById(init)[last.elementId := last]
  }

  /** With duplicate ids, the index keeps the last element in document order. */
  lemma {:induction false} IndexByIdLastWins(es: seq<Element>, i: nat)
    requires i < |es|
    requires forall j :: i < j < |es| ==> es[j].elementId != es[i].elementId
    ensures IndexById(es)[es[i].elementId] == es[i]
    decreases |es|
  {
    if i < |es| - 1 {
      var init := es[..|es| - 1];
      assert init[i] == es[i];
      IndexByIdLastWins(init, i);
    }
  }

  /** `normalize` over the node attribute maps, in document order. */
  function Normalize(nodes: seq<Attrs>, sha1: string -> string): (s: Snapshot)
    ensures |s.elements| == |nodes|
    ensures forall i :: 0 <= i < |nodes| ==> s.elements[i] == MakeElement(nodes[i], sha1)
    ensures Indexed(s)
    ensures forall i :: 0 <= i < |nodes| ==> s.elements[i].elementId in s.byId
  {
    var es := seq(|nodes|, i requires 0 <= i < |nodes| => MakeElement(nodes[i], sha1));
    Snapshot(es, IndexById(es))
  }
}

=== FILE: planner.dfy ===
/** The deterministic, config-driven planner: open the target app when it is
    not in the foreground, otherwise fire the first plan hint that applies, and
    otherwise scroll (or wait). Goal regexes are outside the model: `search` is
    `re.search(pattern, goal, re.IGNORECASE)` and returns the groups of the match
    (group 0 is the whole match; a group that did not take part is `None`). */
module Planner {
  import opened Base
  import opened Strings
  import opened Ui
  import opened Actuator

  /** The groups of a regex match, group 0 first. */
  type Match = seq<Option<string>>

  type Search = (string, string) -> Option<Match>

  /** `m.group(k)`; a group the pattern does not have reads as `None`. */
  function Group(m: Match, k: nat): Option<string> {
    if k < |m| then m[k] else None
  }

  /** The action kinds the action schema enumerates. */
  const ActionKinds: set<string> := {"tap", "type", "swipe", "back", "scroll", "open_app", "wait", "keyevent"}

  /** The selector names the action schema enumerates. */
  const Selectors: set<string> := {"resource-id", "text", "content-desc", "bounds", "element_id", "component"}

  /** The action schema: a known kind and, when a target is present, a known
      selector (both target fields are strings by construction). */
  predicate SchemaValid(a: Action) {
    a.kind in ActionKinds && (a.target.Some? ==> a.target.value.selector in Selectors)
  }

  /** `_goal_contains_any`: some word occurs in the goal, case-insensitively. */
  predicate GoalContainsAny(goal: string, words: seq<string>) {
    exists i :: 0 <= i < |words| && Contains(Lower(goal), Lower(words[i]))
  }

  /** `_find_first_present`: the first preferred selector that finds an element. */
  function FindFirstPresent(snap: Snapshot, cands: seq<Target>, eval: LiteralEval): (r: Option<Target>)
    ensures r.Some? ==> exists i :: 0 <= i < |cands| && cands[i] == r.value
                          && FindBySelector(snap, cands[i].selector, cands[i].value, eval).Some?
                          && forall j :: 0 <= j < i ==> FindBySelector(snap, cands[j].selector, cands[j].value, eval).None?
    ensures r.None? ==> forall i :: 0 <= i < |cands| ==> FindBySelector(snap, cands[i].selector, cands[i].value, eval).None?
  {
    if cands == [] then None
    else if FindBySelector(snap, cands[0].selector, cands[0].value, eval).Some? then Some(cands[0])
    else
      var r := FindFirstPresent(snap, cands[1..], eval);
      assert forall i :: 1 <= i < |cands| ==> cands[i] == cands[1..][i - 1];
      r
  }

  /** The acceptable packages: the primary package when set, then the allowed list. */
  function AllowedList(cfg: Config): seq<string> {
    (if cfg.package != "" then [cfg.package] else []) + cfg.allowedPackages
  }

  /** Some nonempty acceptable package occurs in the focused `package/activity`. */
  predicate AllowedPresent(pa: string, cfg: Config) {
    exists i :: 0 <= i < |AllowedList(cfg)| && AllowedList(cfg)[i] != "" && Contains(pa, AllowedList(cfg)[i])
  }

  /** The action that launches the configured component. */
  function OpenApp(comp: string): Action {
    Action("open_app", Some(Target("component", comp)), map[])
  }

  /** `_need_open_app`. Its two launching branches collapse into one condition:
      a component is configured, no acceptable package is in the foreground, and
      either the component's package part is missing from the focus string or a
      primary package is configured (which, being acceptable, is then missing too). */
  function NeedOpenApp(obs: Observation, cfg: Config): (r: Option<Action>)
    ensures r.Some? ==> r.value == OpenApp(cfg.appComponent) && SchemaValid(r.value)
    ensures r.Some? <==>
              !AllowedPresent(obs.packageActivity, cfg) && cfg.appComponent != ""
              && (!Contains(obs.packageActivity, Split(cfg.appComponent, '/')[0]) || cfg.package != "")
  {
    var pa := obs.packageActivity;
    var comp := cfg.appComponent;
    if AllowedPresent(pa, cfg) then None
    else if comp != "" && !Contains(pa, Split(comp, '/')[0]) then Some(OpenApp(comp))
    else if cfg.package != "" && !Contains(pa, cfg.package) then
      assert AllowedList(cfg)[0] == cfg.package;
      if comp != "" then Some(OpenApp(comp)) else None
    else
      assert cfg.package != "" ==> AllowedList(cfg)[0] == cfg.package;
      None
  }

  /** `m.group(i)` of a valid index, as an argument value. */
  function GroupValue(g: Option<string>): ArgValue {
    match g
    case Some(s) => Str(s)
    case None => Null
  }

  /** The first index of `spec` that is not a group of `m`. */
  function FirstBadGroup(m: Match, spec: seq<(string, int)>): (r: Option<int>)
    ensures r.None? <==> forall i :: 0 <= i < |spec| ==> 0 <= spec[i].1 < |m|
    ensures r.Some? ==> exists i :: 0 <= i < |spec| && spec[i].1 == r.value && !(0 <= r.value < |m|)
                          && forall j :: 0 <= j < i ==> 0 <= spec[j].1 < |m|
  {
    if spec == [] then None
    else if !(0 <= spec[0].1 < |m|) then Some(spec[0].1)
    else
      var r := FirstBadGroup(m, spec[1..]);
      assert forall i :: 1 <= i < |spec| ==> spec[i] == spec[1..][i - 1];
      r
  }

  /** The arguments of valid `args_from_regex_group` entries, in order: each key
      takes its group, so a later entry for a key overwrites an earlier one. */
  function BuildGroupArgs(m: Match, spec: seq<(string, int)>): (r: Args)
    requires forall i :: 0 <= i < |spec| ==> 0 <= spec[i].1 < |m|
    ensures forall k :: k in r <==> exists i :: 0 <= i < |spec| && spec[i].0 == k
    decreases |spec|
  {
    if spec == [] then map[]
    else
      var init := spec[..|spec| - 1];
      var last := spec[|spec| - 1];
      assert forall i :: 0 <= i < |init| ==> init[i] == spec[i];
      BuildGroupArgs(m, init)[last.0 := GroupValue(m[last.1])]
  }

  /** The entry that names a key last decides its value. */
  lemma {:induction false} BuildGroupArgsLastWins(m: Match, spec: seq<(string, int)>, i: nat)
    requires forall j :: 0 <= j < |spec| ==> 0 <= spec[j].1 < |m|
    requires i < |spec| && forall j :: i < j < |spec| ==> spec[j].0 != spec[i].0
    ensures BuildGroupArgs(m, spec)[spec[i].0] == GroupValue(m[spec[i].1])
    decreases |spec|
  {
    if i < |spec| - 1 {
      var init := spec[..|spec| - 1];
      assert init[i] == spec[i];
      assert spec[|spec| - 1].0 != spec[i].0;
      assert forall j :: 0 <= j < |init| ==> init[j] == spec[j];
      BuildGroupArgsLastWins(m, init, i);
    }
  }

  /** `args_from_regex_group`. The first index outside the match raises
      `IndexError`, reported here as that index. */
  function GroupArgs(m: Match, spec: seq<(string, int)>): (r: Result<Args, int>)
    ensures r.Ok? <==> forall i :: 0 <= i < |spec| ==> 0 <= spec[i].1 < |m|
    ensures r.Err? ==> exists i :: 0 <= i < |spec| && spec[i].1 == r.error && !(0 <= r.error < |m|)
                         && forall j :: 0 <= j < i ==> 0 <= spec[j].1 < |m|
    ensures r.Ok? ==> r.value == BuildGroupArgs(m, spec)
    ensures r.Ok? ==> forall i :: 0 <= i < |spec| && (forall j :: i < j < |spec| ==> spec[j].0 != spec[i].0) ==>
                        r.value[spec[i].0] == GroupValue(m[spec[i].1])
  {
    match FirstBadGroup(m, spec)
    case Some(g) => Err(g)
    case None =>
      BuildGroupArgsContents(m, spec);
      Ok(BuildGroupArgs(m, spec))
  }

  lemma BuildGroupArgsContents(m: Match, spec: seq<(string, int)>)
    requires forall i :: 0 <= i < |spec| ==> 0 <= spec[i].1 < |m|
    ensures forall i :: 0 <= i < |spec| && (forall j :: i < j < |spec| ==> spec[j].0 != spec[i].0) ==>
              BuildGroupArgs(m, spec)[spec[i].0] == GroupValue(m[spec[i].1])
  {
    forall i | 0 <= i < |spec| && (forall j :: i < j < |spec| ==> spec[j].0 != spec[i].0)
      ensures BuildGroupArgs(m, spec)[spec[i].0] == GroupValue(m[spec[i].1])
    {
      BuildGroupArgsLastWins(m, spec, i);
    }
  }

  /** The static `args` of a hint laid over the group arguments; `None` values are
      dropped rather than copied. */
  function MergeStatic(args: Args, fixed: Option<Args>): (r: Args)
    ensures fixed.None? ==> r == args
    ensures fixed.Some? ==> forall k :: k in r <==> k in args || (k in fixed.value && fixed.value[k] != Null)
    ensures fixed.Some? ==> forall k :: k in fixed.value && fixed.value[k] != Null ==> r[k] == fixed.value[k]
    ensures fixed.Some? ==> forall k :: k in args && !(k in fixed.value && fixed.value[k] != Null) ==> r[k] == args[k]
  {
    match fixed
    case None => args
    case Some(s) => args + map k | k in s && s[k] != Null :: s[k]
  }

  /** `target_from_regex_group`: the chosen group, wrapped in the prefix and
      suffix when either is set (an unmatched group renders as `None`); no target
      for an invalid group index or an empty value. */
  function GroupTargetOf(m: Match, gt: GroupTarget): (r: Option<Target>)
    ensures !(0 <= gt.group < |m|) ==> r.None?
    ensures 0 <= gt.group < |m| && (gt.prefix != "" || gt.suffix != "") ==>
              r == Some(Target(gt.selector, gt.prefix + m[gt.group].GetOr("None") + gt.suffix))
    ensures gt.prefix == "" && gt.suffix == "" ==>
              (r.Some? <==> 0 <= gt.group < |m| && m[gt.group].Some? && m[gt.group].value != "")
    ensures r.Some? && gt.prefix == "" && gt.suffix == "" ==> r.value == Target(gt.selector, m[gt.group].value)
    ensures r.Some? ==> r.value.selector == gt.selector && r.value.value != "" && IsPrefix(gt.prefix, r.value.value)
  {
    if !(0 <= gt.group < |m|) then None
    else
      var g := m[gt.group];
      var v := if gt.prefix != "" || gt.suffix != "" then Some(gt.prefix + g.GetOr("None") + gt.suffix) else g;
      if v.Some? && v.value != "" then Some(Target(gt.selector, v.value)) else None
  }

  /** `hint.get("prefer") or hint.get("target_prefer") or []` */
  function PreferList(h: Hint): seq<Target> {
    if |h.prefer| > 0 then h.prefer else h.targetPrefer
  }

  /** Some preferred selector finds an element in the snapshot. */
  predicate SomePreferredPresent(h: Hint, snap: Snapshot, eval: LiteralEval) {
    exists i :: 0 <= i < |PreferList(h)| && FindBySelector(snap, PreferList(h)[i].selector, PreferList(h)[i].value, eval).Some?
  }

  /** The hint's target: a static one wins, then the first present preferred
      selector (`prefer`, else `target_prefer`), then the group target. */
  function ChooseTarget(h: Hint, snap: Snapshot, m: Option<Match>, eval: LiteralEval): (r: Option<Target>)
    ensures h.target.Some? ==> r == h.target
    ensures h.target.None? && SomePreferredPresent(h, snap, eval) ==>
              r.Some? &&
              exists i :: 0 <= i < |PreferList(h)| && PreferList(h)[i] == r.value
                            && FindBySelector(snap, r.value.selector, r.value.value, eval).Some?
                            && forall j :: 0 <= j < i ==> FindBySelector(snap, PreferList(h)[j].selector, PreferList(h)[j].value, eval).None?
    ensures h.target.None? && !SomePreferredPresent(h, snap, eval) ==>
              r == (if h.targetFromGroup.Some? && h.regex.Some? && m.Some? then GroupTargetOf(m.value, h.targetFromGroup.value) else None)
  {
    if h.target.Some? then h.target
    else
      var prefer := PreferList(h);
      var sel := FindFirstPresent(snap, prefer, eval);
      if sel.Some? then sel
      else if h.targetFromGroup.Some? && h.regex.Some? && m.Some? then GroupTargetOf(m.value, h.targetFromGroup.value)
      else None
  }

  /** `(text or "").strip().lower()` */
  function TextKey(s: string): string {
    Lower(Strip(s))
  }

  /** The same query (or, for an empty query, any query) was typed in one of the
      last three steps. */
  predicate TypedRecently(text: string, h: History) {
    exists i :: 0 <= i < |Recent(h)| && Recent(h)[i].plan.kind == "type"
      && (TextKey(text) == "" || TextKey(text) == TextKey(StrArg(Recent(h)[i].plan.args, "text")))
  }

  /** A search edit field is on screen, or a search activity is in the foreground. */
  predicate SearchFieldPresent(snap: Snapshot, pa: string) {
    (exists i :: 0 <= i < |snap.elements| &&
       (Contains(Lower(snap.elements[i].className), "edittext")
        || Contains(Lower(snap.elements[i].resourceId), "search_src_text")
        || Contains(Lower(snap.elements[i].resourceId), "search_edit_text")))
    || Contains(Lower(pa), "searchactivity") || Contains(Lower(pa), ".search")
  }

  /** What one hint contributes: nothing, an action, or the `IndexError` of a bad
      group index. */
  datatype Step = Skip | Fire(action: Action) | Crash(group: int)

  /** The goal passes the hint's word and regex gates. */
  predicate Gated(goal: string, h: Hint, search: Search) {
    (h.containsAny.Some? ==> GoalContainsAny(goal, h.containsAny.value))
    && (h.regex.Some? ==> search(h.regex.value, goal).Some?)
  }

  /** The hint's goal match, when it has a regex. */
  function HintMatch(goal: string, h: Hint, search: Search): Option<Match> {
    if h.regex.Some? then search(h.regex.value, goal) else None
  }

  /** The hint's `args_from_regex_group` arguments (none without a match). */
  function HintGroupArgs(h: Hint, m: Option<Match>): Result<Args, int> {
    if |h.argsFromGroup| > 0 && m.Some? then GroupArgs(m.value, h.argsFromGroup) else Ok(map[])
  }

  /** The action a gated hint with well-formed group arguments builds. */
  function HintAction(goal: string, snap: Snapshot, h: Hint, search: Search, eval: LiteralEval, groupArgs: Args): Action {
    var m := HintMatch(goal, h, search);
    Action(h.kind, ChooseTarget(h, snap, m, eval), MergeStatic(groupArgs, h.staticArgs))
  }

  /** The reasons a built action is passed over: an app launch while an
      acceptable package is in front, a tap or launch without a target, a query
      typed recently, a search tap while a search field shows, or an action the
      schema rejects. */
  predicate Rejected(goal: string, obs: Observation, snap: Snapshot, cfg: Config, history: History, a: Action) {
    var pa := obs.packageActivity;
    (a.kind == "open_app" && AllowedPresent(pa, cfg))
    || (a.kind in {"tap", "open_app"} && a.target.None?)
    || (a.kind == "type" && TypedRecently(StrArg(a.args, "text"), history))
    || (a.kind == "tap" && GoalContainsAny(goal, ["search"]) && SearchFieldPresent(snap, pa))
    || !SchemaValid(a)
  }

  /** One iteration of the hint loop. */
  function HintStep(goal: string, obs: Observation, snap: Snapshot, cfg: Config, history: History,
                    h: Hint, search: Search, eval: LiteralEval): (r: Step)
    ensures r.Crash? <==> Gated(goal, h, search) && HintGroupArgs(h, HintMatch(goal, h, search)).Err?
    ensures r.Crash? ==> r.group == HintGroupArgs(h, HintMatch(goal, h, search)).error
    ensures r.Fire? <==>
              Gated(goal, h, search) && HintGroupArgs(h, HintMatch(goal, h, search)).Ok?
              && !Rejected(goal, obs, snap, cfg, history,
                           HintAction(goal, snap, h, search, eval, HintGroupArgs(h, HintMatch(goal, h, search)).value))
    ensures r.Fire? ==> r.action == HintAction(goal, snap, h, search, eval, HintGroupArgs(h, HintMatch(goal, h, search)).value)
    ensures r.Crash? ==>
              h.regex.Some?
              && !(0 <= r.group < |search(h.regex.value, goal).value|)
              && exists i :: 0 <= i < |h.argsFromGroup| && h.argsFromGroup[i].1 == r.group
    ensures r.Fire? ==> r.action.kind == h.kind && SchemaValid(r.action)
    ensures r.Fire? && r.action.kind in {"tap", "open_app"} ==> r.action.target.Some?
    ensures r.Fire? && r.action.kind == "open_app" ==> !AllowedPresent(obs.packageActivity, cfg)
    ensures r.Fire? && r.action.kind == "type" ==> !TypedRecently(StrArg(r.action.args, "text"), history)
    ensures r.Fire? && r.action.kind == "tap" && GoalContainsAny(goal, ["search"]) ==>
              !SearchFieldPresent(snap, obs.packageActivity)
  {
    if !Gated(goal, h, search) then Skip
    else
      var m := HintMatch(goal, h, search);
      match HintGroupArgs(h, m)
      case Err(g) => Crash(g)
      case Ok(ga) =>
        var a := HintAction(goal, snap, h, search, eval, ga);
        if Rejected(goal, obs, snap, cfg, history, a) then Skip else Fire(a)
  }

  /** The step of the first hint that does not skip under `f`. */
  function FirstStep(hints: seq<Hint>, f: Hint -> Step): (r: Step)
    ensures r.Skip? <==> forall i :: 0 <= i < |hints| ==> f(hints[i]).Skip?
    ensures !r.Skip? ==> exists i :: 0 <= i < |hints| && r == f(hints[i])
                           && forall j :: 0 <= j < i ==> f(hints[j]).Skip?
  {
    if hints == [] then Skip
    else
      var rest := FirstStep(hints[1..], f);
      assert forall i :: 1 <= i < |hints| ==> hints[i] == hints[1..][i - 1];
      if !f(hints[0]).Skip? then f(hints[0]) else rest
  }

  /** The hint loop: the step of the first hint that does not skip. */
  function PlanHints(goal: string, obs: Observation, snap: Snapshot, cfg: Config, history: History,
                     hints: seq<Hint>, search: Search, eval: LiteralEval): (r: Step)
    ensures r.Skip? <==> forall i :: 0 <= i < |hints| ==> HintStep(goal, obs, snap, cfg, history, hints[i], search, eval).Skip?
    ensures !r.Skip? ==> exists i :: 0 <= i < |hints| && r == HintStep(goal, obs, snap, cfg, history, hints[i], search, eval)
                           && forall j :: 0 <= j < i ==> HintStep(goal, obs, snap, cfg, history, hints[j], search, eval).Skip?
  {
    FirstStep(hints, h => HintStep(goal, obs, snap, cfg, history, h, search, eval))
  }

  /** The defaults of the fallback scroll. */
  const ScrollDefaults: Args := map["direction" := Str("down"), "duration_ms" := Int(500), "length_factor" := Num("0.7")]

  /** Step 3 or 4: scroll with the defaults updated by `fallback_scroll_args`
      (every key, `None` included), or wait 500 ms. */
  function Fallback(cfg: Config): (a: Action)
    ensures SchemaValid(a) && a.target.None?
    ensures cfg.fallbackScroll ==> a.kind == "scroll" && ScrollDefaults.Keys <= a.args.Keys
    ensures cfg.fallbackScroll && cfg.fallbackScrollArgs.Some? ==>
              forall k :: k in cfg.fallbackScrollArgs.value ==> k in a.args && a.args[k] == cfg.fallbackScrollArgs.value[k]
    ensures cfg.fallbackScroll ==>
              forall k :: k in ScrollDefaults && !(cfg.fallbackScrollArgs.Some? && k in cfg.fallbackScrollArgs.value) ==>
                a.args[k] == ScrollDefaults[k]
    ensures !cfg.fallbackScroll ==> a == Action("wait", None, map["duration_ms" := Int(500)])
  {
    if cfg.fallbackScroll then
      var extra := cfg.fallbackScrollArgs.GetOr(map[]);
      var args := ScrollDefaults + extra;
      assert forall k :: k in extra ==> k in args && args[k] == extra[k];
      Action("scroll", None, args)
    else Action("wait", None, map["duration_ms" := Int(500)])
  }

  /** The planner's outcome: an action, or the `IndexError` a bad group index raises. */
  datatype PlanResult = Planned(action: Action) | GroupError(group: int)

  /** What the planner makes of the hint loop's outcome. */
  function StepPlan(step: Step, cfg: Config): PlanResult {
    match step
    case Fire(a) => Planned(a)
    case Crash(g) => GroupError(g)
    case Skip => Planned(Fallback(cfg))
  }

  /** `plan_next_action`. Every planned action satisfies the action schema; the
      app launch takes precedence over every hint; no app is launched while an
      acceptable package is in the foreground; tap and open_app always carry a
      target; the same query is never typed again within three steps; and a
      search goal never re-taps while a search field is showing. */
  function PlanNextAction(goal: string, obs: Observation, snap: Snapshot, cfg: Config, history: History,
                          search: Search, eval: LiteralEval): (r: PlanResult)
    ensures NeedOpenApp(obs, cfg).Some? ==> r == Planned(NeedOpenApp(obs, cfg).value)
    ensures r.Planned? ==> SchemaValid(r.action)
    ensures r.Planned? && r.action.kind == "open_app" ==> !AllowedPresent(obs.packageActivity, cfg)
    ensures r.Planned? && r.action.kind in {"tap", "open_app"} ==> r.action.target.Some?
    ensures r.Planned? && r.action.kind == "type" ==> !TypedRecently(StrArg(r.action.args, "text"), history)
    ensures r.Planned? && r.action.kind == "tap" && GoalContainsAny(goal, ["search"]) ==>
              !SearchFieldPresent(snap, obs.packageActivity)
    ensures r.GroupError? ==> NeedOpenApp(obs, cfg).None?
    ensures NeedOpenApp(obs, cfg).None? ==>
              forall i :: 0 <= i < |cfg.hints| && !HintStep(goal, obs, snap, cfg, history, cfg.hints[i], search, eval).Skip?
                          && (forall j :: 0 <= j < i ==> HintStep(goal, obs, snap, cfg, history, cfg.hints[j], search, eval).Skip?) ==>
                r == StepPlan(HintStep(goal, obs, snap, cfg, history, cfg.hints[i], search, eval), cfg)
  {
    match NeedOpenApp(obs, cfg)
    case Some(a) =>
      assert AllowedPresent(obs.packageActivity, cfg) ==> NeedOpenApp(obs, cfg).None?;
      Planned(a)
    case None =>
      StepPlan(PlanHints(goal, obs, snap, cfg, history, cfg.hints, search, eval), cfg)
  }

  /** Right after typing a query, the planner does not type it again (nor type
      an empty query). */
  lemma {:induction false} NoImmediateRetype(goal: string, obs: Observation, snap: Snapshot, cfg: Config,
                                             history: History, search: Search, eval: LiteralEval)
    requires |history| > 0 && history[|history| - 1].plan.kind == "type"
    requires PlanNextAction(goal, obs, snap, cfg, history, search, eval).Planned?
    requires PlanNextAction(goal, obs, snap, cfg, history, search, eval).action.kind == "type"
    ensures var a := PlanNextAction(goal, obs, snap, cfg, history, search, eval).action;
            var prev := history[|history| - 1].plan;
            TextKey(StrArg(a.args, "text")) != "" && TextKey(StrArg(a.args, "text")) != TextKey(StrArg(prev.args, "text"))
  {
    var a := PlanNextAction(goal, obs, snap, cfg, history, search, eval).action;
    NotTypedAfterLast(StrArg(a.args, "text"), history);
  }

  /** A query not typed recently differs from the one typed last and is not empty. */
  lemma NotTypedAfterLast(text: string, history: History)
    requires |history| > 0 && history[|history| - 1].plan.kind == "type"
    requires !TypedRecently(text, history)
    ensures TextKey(text) != "" && TextKey(text) != TextKey(StrArg(history[|history| - 1].plan.args, "text"))
  {
    var r := Recent(history);
    var i := |r| - 1;
    assert r[i] == history[|history| - 1];
    assert r[i].plan.kind == "type";
    assert !(TextKey(text) == "" || TextKey(text) == TextKey(StrArg(r[i].plan.args, "text")));
  }

  /** With no launch needed and no hint firing, the planner falls back. */
  lemma FallbackWhenNoHintFires(goal: string, obs: Observation, snap: Snapshot, cfg: Config,
                                history: History, search: Search, eval: LiteralEval)
    requires NeedOpenApp(obs, cfg).None?
    requires forall i :: 0 <= i < |cfg.hints| ==> HintStep(goal, obs, snap, cfg, history, cfg.hints[i], search, eval).Skip?
    ensures PlanNextAction(goal, obs, snap, cfg, history, search, eval) == Planned(Fallback(cfg))
  {
  }

  /** A hint whose word gate fails never contributes, whatever else it says. */
  lemma GateClosedSkips(goal: string, obs: Observation, snap: Snapshot, cfg: Config, history: History,
                        h: Hint, search: Search, eval: LiteralEval)
    requires h.containsAny.Some?
    requires forall i :: 0 <= i < |h.containsAny.value| ==> !Contains(Lower(goal), Lower(h.containsAny.value[i]))
    ensures HintStep(goal, obs, snap, cfg, history, h, search, eval) == Skip
  {
  }
}

=== FILE: resolver.dfy ===
/** The stand-alone selector resolver: exact tiers by selector, then a fuzzy
    fallback over the visible text of every element. Similarity is difflib's
    `SequenceMatcher(...).ratio()`, outside the model and passed in as `ratio`. */
module Resolver {
  import opened Base
  import opened Strings
  import opened Ui

  /** difflib's similarity ratio of two strings. */
  type Ratio = (string, string) -> real

  /** `_norm`: the stripped string (element fields are never `None` here). */
  function Norm(s: string): string {
    Strip(s)
  }

  /** The four coordinates of a rectangle, rendered. */
  function Coords(r: Rect): seq<string> {
    [NatToString(r.left), NatToString(r.top), NatToString(r.right), NatToString(r.bottom)]
  }

  /** `str(bounds)` for the bounds list: `[l, t, r, b]`. */
  function ListRepr(r: Rect): string {
    "[" + Join(Coords(r), ", ") + "]"
  }

  /** `s.replace(" ", "")`: every ASCII space removed. */
  function RemoveSpaces(s: string): (r: string)
    ensures ' ' !in r
    ensures |r| <= |s|
  {
    if s == [] then [] else (if s[0] == ' ' then [] else [s[0]]) + RemoveSpaces(s[1..])
  }

  /** Whether `e` answers an exact tier that scans the element list. */
  predicate ExactMatch(sel: string, val: string, e: Element) {
    if sel == "resource-id" then Norm(e.resourceId) == Norm(val)
    else if sel == "text" then Norm(e.text) == Norm(val)
    else if sel == "content-desc" then Norm(e.contentDesc) == Norm(val)
    else if sel == "bounds" then ListRepr(e.bounds) == val || RemoveSpaces(ListRepr(e.bounds)) == RemoveSpaces(val)
    else false
  }

  /** Tiers 1 to 5: the first exact match of a scanning selector, or the index
      entry of an `element_id`. */
  function ExactTier(snap: Snapshot, t: Target): (r: Option<Element>)
    ensures t.selector == "element_id" ==> (r.Some? <==> t.value in snap.byId)
    ensures t.selector == "element_id" && r.Some? ==> r.value == snap.byId[t.value]
    ensures t.selector != "element_id" ==>
              (r.None? <==> forall i :: 0 <= i < |snap.elements| ==> !ExactMatch(t.selector, t.value, snap.elements[i]))
    ensures t.selector != "element_id" && r.Some? ==>
              exists i :: 0 <= i < |snap.elements| && snap.elements[i] == r.value
                            && ExactMatch(t.selector, t.value, snap.elements[i])
                            && forall j :: 0 <= j < i ==> !ExactMatch(t.selector, t.value, snap.elements[j])
  {
    if t.selector == "element_id" then
      if t.value in snap.byId then Some(snap.byId[t.value]) else None
    else FirstWhere(snap.elements, ExactOn(t))
  }

  /** The exact test of a scanning selector, as a predicate on elements. */
  function ExactOn(t: Target): Element -> bool {
    e => ExactMatch(t.selector, t.value, e)
  }

  /** The fuzzy text of an element: normalized text and description joined by a
      space, stripped. */
  function Blob(e: Element): string {
    Strip(Norm(e.text) + " " + Norm(e.contentDesc))
  }

  lemma NotBlankAt(s: string, i: nat)
    requires i < |s| && !IsSpace(s[i])
    ensures Strip(s) != ""
  {
    StripEmpty(s);
  }

  lemma StripOneSpace()
    ensures Strip(" ") == ""
  {
    StripEmpty(" ");
  }

  /** The blob is empty exactly when both text and description are blank, so the
      fuzzy tier skips exactly the elements that show nothing. */
  lemma BlobEmpty(e: Element)
    ensures Blob(e) == "" <==> Norm(e.text) == "" && Norm(e.contentDesc) == ""
  {
    var a, b := Norm(e.text), Norm(e.contentDesc);
    StripIsStripped(e.text);
    StripIsStripped(e.contentDesc);
    SpaceJoinBlank(a, b);
  }

  /** Two stripped strings joined by a space strip to nothing exactly when both
      are empty. */
  lemma SpaceJoinBlank(a: string, b: string)
    requires IsStripped(a) && IsStripped(b)
    ensures Strip(a + " " + b) == "" <==> a == "" && b == ""
  {
    var s := a + " " + b;
    if a != "" {
      assert s[0] == a[0];
      NotBlankAt(s, 0);
    } else if b != "" {
      assert s[|s| - 1] == b[|b| - 1];
      NotBlankAt(s, |s| - 1);
    } else {
      assert s == " ";
      StripOneSpace();
    }
  }

  /** Whether the value occurs, case-insensitively, inside the blob. */
  predicate Contained(e: Element, val: string) {
    Contains(Lower(Blob(e)), Lower(Norm(val)))
  }

  /** An element is a fuzzy candidate when it shows something and either
      contains the value or is at least 0.6 similar to it. */
  predicate Candidate(e: Element, val: string, ratio: Ratio) {
    Blob(e) != "" && (Contained(e, val) || ratio(Lower(Blob(e)), Lower(Norm(val))) >= 0.6)
  }

  /** A candidate's score: its similarity, plus 0.1 when it contains the value. */
  function Score(e: Element, val: string, ratio: Ratio): real {
    ratio(Lower(Blob(e)), Lower(Norm(val))) + (if Contained(e, val) then 0.1 else 0.0)
  }

  /** The position of the head of a candidate list after a stable sort by
      descending score: the earliest candidate of maximal score. */
  function BestAt(es: seq<Element>, q: Element -> bool, score: Element -> real): (r: Option<nat>)
    ensures r.None? <==> forall i :: 0 <= i < |es| ==> !q(es[i])
    ensures r.Some? ==> r.value < |es| && q(es[r.value])
    ensures r.Some? ==> forall j :: 0 <= j < |es| && q(es[j]) ==> score(es[j]) <= score(es[r.value])
    ensures r.Some? ==> forall j :: 0 <= j < r.value && q(es[j]) ==> score(es[j]) < score(es[r.value])
  {
    if es == [] then None
    else
      var rest := BestAt(es[1..], q, score);
      assert forall i :: 1 <= i < |es| ==> es[i] == es[1..][i - 1];
      if !q(es[0]) then (if rest.Some? then Some(rest.value + 1) else None)
      else if rest.None? || score(es[rest.value + 1]) <= score(es[0]) then Some(0)
      else Some(rest.value + 1)
  }

  /** The fuzzy tier: the best-scoring candidate. */
  function BestCandidate(es: seq<Element>, val: string, ratio: Ratio): (r: Option<Element>)
    ensures r.None? <==> forall i :: 0 <= i < |es| ==> !IsCandidate(val, ratio)(es[i])
    ensures r.Some? ==>
              exists k :: 0 <= k < |es| && es[k] == r.value && IsCandidate(val, ratio)(es[k])
                            && (forall j :: 0 <= j < |es| && IsCandidate(val, ratio)(es[j]) ==> ScoreOf(val, ratio)(es[j]) <= ScoreOf(val, ratio)(es[k]))
                            && forall j :: 0 <= j < k && IsCandidate(val, ratio)(es[j]) ==> ScoreOf(val, ratio)(es[j]) < ScoreOf(val, ratio)(es[k])
  {
    var k := BestAt(es, IsCandidate(val, ratio), ScoreOf(val, ratio));
    if k.Some? then Some(es[k.value]) else None
  }

  /** `Candidate` and `Score` for a fixed value, as functions of the element. */
  function IsCandidate(val: string, ratio: Ratio): Element -> bool {
    e => Candidate(e, val, ratio)
  }

  function ScoreOf(val: string, ratio: Ratio): Element -> real {
    e => Score(e, val, ratio)
  }

  /** `resolve_selector`: nothing without a snapshot or a target; otherwise the
      exact tier of the selector, and when that finds nothing (whatever the
      selector) the best fuzzy candidate. */
  function ResolveSelector(snap: Option<Snapshot>, target: Option<Target>, ratio: Ratio): (r: Option<Element>)
    ensures snap.None? || target.None? ==> r.None?
    ensures snap.Some? && Indexed(snap.value) && r.Some? ==> r.value in snap.value.elements
    ensures snap.Some? && target.Some? && r.None? ==>
              ExactTier(snap.value, target.value).None?
              && forall i :: 0 <= i < |snap.value.elements| ==> !Candidate(snap.value.elements[i], target.value.value, ratio)
    ensures snap.Some? && target.Some? && ExactTier(snap.value, target.value).Some? ==>
              r == ExactTier(snap.value, target.value)
    ensures snap.Some? && target.Some? && ExactTier(snap.value, target.value).None? ==>
              r == BestCandidate(snap.value.elements, target.value.value, ratio)
  {
    if snap.None? || target.None? then None
    else
      var exact := ExactTier(snap.value, target.value);
      if exact.Some? then exact
      else BestCandidate(snap.value.elements, target.value.value, ratio)
  }

  /** The first element whose trimmed text equals the trimmed value is the
      result of a text selector, whatever the fuzzy tier would have picked. */
  lemma TextTierFirstMatch(snap: Snapshot, val: string, i: nat, ratio: Ratio)
    requires i < |snap.elements| && Norm(snap.elements[i].text) == Norm(val)
    requires forall j :: 0 <= j < i ==> Norm(snap.elements[j].text) != Norm(val)
    ensures ResolveSelector(Some(snap), Some(Target("text", val)), ratio) == Some(snap.elements[i])
  {
    var t := Target("text", val);
    forall j | 0 <= j <= i
      ensures ExactOn(t)(snap.elements[j]) <==> j == i
    {
      TextMatch(val, snap.elements[j]);
    }
    FirstWhereAt(snap.elements, ExactOn(t), i);
  }

  lemma TextMatch(val: string, e: Element)
    ensures ExactOn(Target("text", val))(e) <==> Norm(e.text) == Norm(val)
  {
  }

  /** An empty (or blank) value is contained in every blob, so with no exact hit
      the fuzzy tier picks an element whenever any element shows some text. */
  lemma BlankValueFindsShownElement(snap: Snapshot, t: Target, i: nat, ratio: Ratio)
    requires Norm(t.value) == "" && ExactTier(snap, t).None?
    requires i < |snap.elements| && Blob(snap.elements[i]) != ""
    ensures ResolveSelector(Some(snap), Some(t), ratio).Some?
  {
    BlankContained(snap.elements[i], t.value);
    assert Candidate(snap.elements[i], t.value, ratio);
  }

  lemma BlankContained(e: Element, val: string)
    requires Norm(val) == ""
    ensures Contained(e, val)
  {
    assert Lower(Norm(val)) == "";
    assert IsPrefix("", Lower(Blob(e)));
  }

  lemma {:induction false} RemoveSpacesAppend(a: string, b: string)
    ensures RemoveSpaces(a + b) == RemoveSpaces(a) + RemoveSpaces(b)
    decreases |a|
  {
    if a == [] {
      assert a + b == b;
    } else {
      var h := if a[0] == ' ' then [] else [a[0]];
      TailOfAppend(a, b);
      assert RemoveSpaces(a + b) == h + RemoveSpaces(a[1..] + b);
      RemoveSpacesAppend(a[1..], b);
      AppendAssoc(h, RemoveSpaces(a[1..]), RemoveSpaces(b));
    }
  }

  lemma {:induction false} RemoveSpacesDigits(d: string)
    requires AllDigits(d)
    ensures RemoveSpaces(d) == d
    decreases |d|
  {
    if d != [] {
      assert AllDigits(d[1..]);
      RemoveSpacesDigits(d[1..]);
      assert [d[0]] + d[1..] == d;
    }
  }

  lemma {:induction false} RemoveSpacesJoin(ws: seq<string>)
    requires forall k :: 0 <= k < |ws| ==> AllDigits(ws[k])
    ensures RemoveSpaces(Join(ws, ", ")) == Join(ws, ",")
  {
    if |ws| == 1 {
      RemoveSpacesDigits(ws[0]);
    } else if |ws| > 1 {
      RemoveSpacesAppend(ws[0] + ", ", Join(ws[1..], ", "));
      RemoveSpacesAppend(ws[0], ", ");
      RemoveSpacesDigits(ws[0]);
      assert RemoveSpaces(", ") == ",";
      RemoveSpacesJoin(ws[1..]);
    }
  }

  /** The bounds tier accepts the compact list form `[l,t,r,b]` as well as the
      list repr itself. */
  lemma CompactBoundsMatch(e: Element)
    ensures ExactMatch("bounds", "[" + Join(Coords(e.bounds), ",") + "]", e)
  {
    var ws := Coords(e.bounds);
    var compact := "[" + Join(ws, ",") + "]";
    RemoveSpacesJoin(ws);
    RemoveSpacesAppend("[", Join(ws, ", "));
    RemoveSpacesAppend("[" + Join(ws, ", "), "]");
    assert RemoveSpaces(ListRepr(e.bounds)) == compact;
    RemoveSpacesNone(compact);
  }

  lemma {:induction false} RemoveSpacesNone(s: string)
    requires forall k :: 0 <= k < |s| ==> s[k] != ' '
    ensures RemoveSpaces(s) == s
    decreases |s|
  {
    if s != [] {
      RemoveSpacesNone(s[1..]);
      assert [s[0]] + s[1..] == s;
    }
  }
}

=== FILE: run_goal.dfy ===
/** The decision helpers of the goal runner: its own termination check (the one
    the loop trusts), the ENTER nudge after typing, and the expectation derived
    from a plan for the verifier. The loop itself, logging, pacing and exit
    codes are outside the model. */
module RunGoal {
  import opened Base
  import opened Strings
  import opened Ui
  import Termination
  import Verifier

  /** One element's text contains the needle, both stripped and lower-cased. */
  predicate TextHit(e: Element, needle: string) {
    Contains(Lower(Strip(e.text)), Lower(Strip(needle)))
  }

  /** The `must_contain_text` test of `goal_satisfied`: text only, every element
      (input fields included). */
  function TextOnScreen(es: seq<Element>, needle: string): (r: bool)
    ensures r <==> exists i :: 0 <= i < |es| && TextHit(es[i], needle)
  {
    FirstWhere(es, e => TextHit(e, needle)).Some?
  }

  /** The entries of `not_package_in`: one string, or a list. */
  function Banned(p: PackageList): seq<string> {
    match p
    case One(name) => [name]
    case Many(names) => names
  }

  /** No nonempty banned entry occurs in the focus string. */
  predicate LeftBanned(pa: string, p: PackageList) {
    forall i :: 0 <= i < |Banned(p)| && Banned(p)[i] != "" ==> !Contains(pa, Banned(p)[i])
  }

  /** `goal_satisfied`, as written: an empty termination spec is never met (one
      holding only unread keys is not empty); the checks it knows are ANDed,
      with case-sensitive package and activity substrings; `any_of_texts` and
      `all_of_texts` are not read. */
  function GoalSatisfied(es: seq<Element>, pa: string, term: Spec): (r: bool)
    ensures term == EmptySpec ==> !r
    ensures r <==> term != EmptySpec
                   && (term.mustContainText.Some? ==> TextOnScreen(es, term.mustContainText.value))
                   && (term.activity.Some? ==> Contains(pa, term.activity.value))
                   && (term.package.Some? ==> Contains(pa, term.package.value))
                   && (term.notPackageIn.Some? ==> LeftBanned(pa, term.notPackageIn.value))
  {
    if term == EmptySpec then false
    else
      (term.mustContainText.None? || TextOnScreen(es, term.mustContainText.value))
      && (term.activity.None? || Contains(pa, term.activity.value))
      && (term.package.None? || Contains(pa, term.package.value))
      && (term.notPackageIn.None? || LeftBanned(pa, term.notPackageIn.value))
  }

  /** A spec whose keys are all ones no check reads is not empty, so it is met
      by every screen, even an empty one with nothing in focus. */
  lemma UnreadKeysMeetAnyScreen(es: seq<Element>, pa: string)
    ensures GoalSatisfied(es, pa, EmptySpec.(otherKeys := true))
  {
  }

  /** A spec that names only a text list is met by every screen, even an empty
      one with nothing in focus. */
  lemma TextListOnlySpecIsVacuous(texts: seq<string>)
    ensures GoalSatisfied([], "", EmptySpec.(anyOfTexts := Some(texts)))
    ensures GoalSatisfied([], "", EmptySpec.(allOfTexts := Some(texts)))
  {
  }

  /** Some text of the list is on screen, tried in order. */
  function AnyOnScreen(es: seq<Element>, texts: seq<string>): (r: bool)
    ensures r <==> exists j :: 0 <= j < |texts| && TextOnScreen(es, texts[j])
  {
    if texts == [] then false
    else
      assert forall j :: 1 <= j < |texts| ==> texts[j] == texts[1..][j - 1];
      TextOnScreen(es, texts[0]) || AnyOnScreen(es, texts[1..])
  }

  /** Every text of the list is on screen. */
  function AllOnScreen(es: seq<Element>, texts: seq<string>): (r: bool)
    ensures r <==> forall j :: 0 <= j < |texts| ==> TextOnScreen(es, texts[j])
  {
    if texts == [] then true
    else
      assert forall j :: 1 <= j < |texts| ==> texts[j] == texts[1..][j - 1];
      TextOnScreen(es, texts[0]) && AllOnScreen(es, texts[1..])
  }

  /** The evaluator the loop should trust: `goal_satisfied` that also reads the
      text lists, each text checked like `must_contain_text`. */
  function GoalSatisfiedFixed(es: seq<Element>, pa: string, term: Spec): (r: bool)
    ensures r <==> GoalSatisfied(es, pa, term)
                   && (term.anyOfTexts.Some? ==>
                         exists j :: 0 <= j < |term.anyOfTexts.value| && TextOnScreen(es, term.anyOfTexts.value[j]))
                   && (term.allOfTexts.Some? ==>
                         forall j :: 0 <= j < |term.allOfTexts.value| ==> TextOnScreen(es, term.allOfTexts.value[j]))
  {
    GoalSatisfied(es, pa, term)
    && (term.anyOfTexts.None? || AnyOnScreen(es, term.anyOfTexts.value))
    && (term.allOfTexts.None? || AllOnScreen(es, term.allOfTexts.value))
  }

  /** The corrected evaluator is never vacuously met: with a nonempty `any_of_texts`
      list and nothing on screen it fails, unlike the as-written one. */
  lemma FixedIsNotVacuous(texts: seq<string>, pa: string)
    requires |texts| > 0
    ensures !GoalSatisfiedFixed([], pa, EmptySpec.(anyOfTexts := Some(texts)))
    ensures GoalSatisfied([], pa, EmptySpec.(anyOfTexts := Some(texts)))
  {
  }

  /** The two termination evaluators disagree on the empty spec: the runner's is
      never met, the stand-alone one always is. */
  lemma EvaluatorsDisagreeOnEmptySpec(snap: Snapshot, pa: string)
    ensures !GoalSatisfied(snap.elements, pa, EmptySpec)
    ensures Termination.EvaluateTermination(snap, pa, EmptySpec).ok
  {
  }

  /** A needle whose first character never occurs in the haystack is not in it. */
  lemma {:induction false} NotContainedWithoutFirstChar(hay: string, needle: string)
    requires |needle| > 0 && needle[0] !in hay
    ensures !Contains(hay, needle)
    decreases |hay|
  {
    if |hay| > 0 {
      assert hay[0] != needle[0];
      NotContainedWithoutFirstChar(hay[1..], needle);
    }
  }

  /** They also disagree on case: a lower-case package inside a capitalised
      focus string meets only the stand-alone evaluator. */
  lemma EvaluatorsDisagreeOnCase(snap: Snapshot)
    ensures var spec := EmptySpec.(package := Some("app"));
            !GoalSatisfied(snap.elements, "App", spec)
            && Termination.EvaluateTermination(snap, "App", spec).ok
  {
    var spec := EmptySpec.(package := Some("app"));
    assert Termination.EvaluateTermination(snap, "App", spec).ok by {
      Termination.VerdictMeetsSpec(snap, "App", spec);
      LowerApp();
      ContainsSelf("app");
    }
    assert !GoalSatisfied(snap.elements, "App", spec) by {
      NotContainedWithoutFirstChar("App", "app");
    }
  }

  lemma LowerApp()
    ensures Lower("App") == "app" && Lower("app") == "app"
  {
  }

  /** No character of `s` is an ASCII capital. */
  predicate LowerCase(s: string) {
    forall i :: 0 <= i < |s| ==> !('A' <= s[i] <= 'Z')
  }

  lemma LowerOfLowerCase(s: string)
    requires LowerCase(s)
    ensures Lower(s) == s
  {
  }

  /** On lower-case data and a spec naming only a package and/or an activity,
      the two evaluators agree. */
  lemma EvaluatorsAgreeOnLowerCase(snap: Snapshot, pa: string, term: Spec)
    requires term.package.Some? || term.activity.Some?
    requires term.mustContainText.None? && term.mustEqualText.None? && term.anyOfTexts.None?
    requires term.allOfTexts.None? && term.notPackageIn.None?
    requires LowerCase(pa)
    requires term.package.Some? ==> LowerCase(term.package.value)
    requires term.activity.Some? ==> LowerCase(term.activity.value)
    ensures GoalSatisfied(snap.elements, pa, term) == Termination.EvaluateTermination(snap, pa, term).ok
  {
    Termination.VerdictMeetsSpec(snap, pa, term);
    LowerOfLowerCase(pa);
    if term.package.Some? {
      LowerOfLowerCase(term.package.value);
    }
    if term.activity.Some? {
      LowerOfLowerCase(term.activity.value);
    }
  }

  /** The verifier's text test implies the runner's: whatever the verifier counts
      as a result the runner sees too; the converse fails for text shown only in
      an input field. */
  lemma VerifierTextImpliesRunnerText(es: seq<Element>, needle: string)
    ensures Verifier.FuzzyTextPresent(es, needle) ==> TextOnScreen(es, needle)
  {
    if Verifier.FuzzyTextPresent(es, needle) {
      var i :| 0 <= i < |es| && Verifier.ShowsResult(es[i], needle);
      assert TextHit(es[i], needle);
    }
  }

  /** The input field of the counterexample below. */
  const Field := Element("", "", "a", "", "EditText", Rect(0, 0, 0, 0), false, false, Point(0, 0))

  /** Every element's text is a hit for that same text. */
  lemma OwnTextHit(e: Element)
    ensures TextHit(e, e.text)
  {
    var y := Lower(Strip(e.text));
    assert IsPrefix(y, y);
  }

  lemma FieldShowsItsText()
    ensures TextHit(Field, "a")
  {
    OwnTextHit(Field);
  }

  lemma LowerEditText()
    ensures Lower("EditText") == "edittext"
  {
  }

  lemma FieldIsEditField()
    ensures Verifier.IsEditField(Field)
  {
    LowerEditText();
    ContainsSelf("edittext");
  }

  /** Text shown only in an input field meets the runner's test and not the
      verifier's. */
  lemma InputFieldSeparatesTextTests()
    ensures TextOnScreen([Field], "a") && !Verifier.FuzzyTextPresent([Field], "a")
  {
    FieldShowsItsText();
    FieldIsEditField();
    assert [Field][0] == Field;
  }

  /** The goal phrases that ask for ENTER after typing. */
  const EnterTriggers: seq<string> := [
    "[return]", " press enter", " hit enter", " press return", " hit return",
    " press go", " tap go", " hit go", " then go",
    " press search", " hit search", " then search", " input [return]"]

  /** An ENTER or SEARCH keyevent, as `args.key` upper-cased. */
  predicate IsEnterKey(a: Action) {
    a.kind == "keyevent" && Upper(StrArg(a.args, "key")) in {"ENTER", "SEARCH"}
  }

  /** `_needs_enter_after_type`: right after a type, unless an ENTER or SEARCH key
      went out within the last three plans, when the goal asks for it. */
  function NeedsEnterAfterType(goal: string, history: History): (r: bool)
    ensures r ==> |history| > 0 && history[|history| - 1].plan.kind == "type"
    ensures r ==> forall i :: 0 <= i < |Recent(history)| ==> !IsEnterKey(Recent(history)[i].plan)
    ensures r <==> |history| > 0 && history[|history| - 1].plan.kind == "type"
                   && (forall i :: 0 <= i < |Recent(history)| ==> !IsEnterKey(Recent(history)[i].plan))
                   && exists t :: 0 <= t < |EnterTriggers| && Contains(Lower(goal), EnterTriggers[t])
  {
    if |history| == 0 || history[|history| - 1].plan.kind != "type" then false
    else if exists i :: 0 <= i < |Recent(history)| && IsEnterKey(Recent(history)[i].plan) then false
    else exists t :: 0 <= t < |EnterTriggers| && Contains(Lower(goal), EnterTriggers[t])
  }

  /** An ENTER just sent (after a type) is never sent again on the next step. */
  lemma NoSecondEnter(goal: string, history: History, typed: Action, enter: Action)
    requires typed.kind == "type" && IsEnterKey(enter)
    ensures !NeedsEnterAfterType(goal, history + [Record(enter)])
    ensures !NeedsEnterAfterType(goal, history + [Record(enter), Record(typed)])
  {
    var h1 := history + [Record(enter), Record(typed)];
    var r := Recent(h1);
    assert r[|r| - 2] == Record(enter);
  }

  /** `str.isdigit()` with at least five characters: the phone-number heuristic. */
  predicate PhoneLike(s: string) {
    |s| >= 5 && AllDigits(s)
  }

  /** The expectation the runner hands to the verifier after a plan (lines
      198-212 of the loop): launching expects the package in focus, typing
      expects the configured text, a phone number replaces that with its
      "Send to" suggestion, and no expectation at all is `None`. */
  function DeriveExpectation(plan: Action, cfg: Config): (r: Option<Spec>)
    ensures plan.kind !in {"open_app", "type"} ==> r.None?
    ensures plan.kind == "open_app" ==>
              r == (if cfg.package != "" then Some(EmptySpec.(activity := Some(cfg.package))) else None)
    ensures plan.kind == "type" && PhoneLike(Strip(StrArg(plan.args, "text"))) ==>
              r == Some(EmptySpec.(mustEqualText := Some("Send to " + Strip(StrArg(plan.args, "text")))))
    ensures plan.kind == "type" && !PhoneLike(Strip(StrArg(plan.args, "text"))) ==>
              r == (if cfg.verifyAfterActionText != "" then Some(EmptySpec.(mustContainText := Some(cfg.verifyAfterActionText))) else None)
    ensures r.Some? ==> r.value != EmptySpec
  {
    var e1 := if plan.kind == "open_app" && cfg.package != "" then EmptySpec.(activity := Some(cfg.package)) else EmptySpec;
    var e2 := if plan.kind == "type" && cfg.verifyAfterActionText != "" then e1.(mustContainText := Some(cfg.verifyAfterActionText)) else e1;
    var text := Strip(StrArg(plan.args, "text"));
    var e3 := if plan.kind == "type" && PhoneLike(text) then EmptySpec.(mustEqualText := Some("Send to " + text)) else e2;
    if e3 == EmptySpec then None else Some(e3)
  }

  /** The "Send to" suggestion for a phone number has no surrounding whitespace. */
  lemma SendToStripped(d: string)
    requires PhoneLike(d)
    ensures Strip("Send to " + d) == "Send to " + d
  {
    var s := "Send to " + d;
    assert s[|s| - 1] == d[|d| - 1];
    DigitNotSpace(d[|d| - 1]);
    assert !IsSpace(s[0]);
    StripOfStripped(s);
  }

  /** An expectation naming only an exact text passes exactly when the text is shown. */
  lemma PassesExactText(s: string, f: Frame)
    requires s != ""
    ensures Verifier.Passes(EmptySpec.(mustEqualText := Some(s)), f)
        <==> Verifier.ExactTextPresent(f.snap.elements, s)
  {
  }

  /** After typing a phone number, verification passes exactly when some
      element's stripped text is the "Send to" suggestion for it. */
  lemma PhoneExpectationPasses(plan: Action, cfg: Config, f: Frame)
    requires plan.kind == "type" && PhoneLike(Strip(StrArg(plan.args, "text")))
    ensures var want := DeriveExpectation(plan, cfg);
            var s := "Send to " + Strip(StrArg(plan.args, "text"));
            want.Some?
            && (Verifier.Passes(want.value, f) <==>
                exists i :: 0 <= i < |f.snap.elements| && Strip(f.snap.elements[i].text) == s)
  {
    var d := Strip(StrArg(plan.args, "text"));
    var s := "Send to " + d;
    assert DeriveExpectation(plan, cfg) == Some(EmptySpec.(mustEqualText := Some(s)));
    PassesExactText(s, f);
    SendToStripped(d);
  }
}

=== FILE: strings.dfy ===
/** The handful of Python `str` operations the automation core relies on, over
    `string == seq<char>`. Case mapping is ASCII-only (see README). */
module Strings {
  import opened Base

  /** Python's `str.isspace` on one character: the controls 9-13 and 28-31,
      the space, NEL, NBSP and the Unicode separators Python counts as blank. */
  predicate IsSpace(c: char) {
    var n := c as int;
    n == 32 || 9 <= n <= 13 || 28 <= n <= 31 || n == 0x85 || n == 0xA0 || n == 0x1680
    || 0x2000 <= n <= 0x200A || n == 0x2028 || n == 0x2029 || n == 0x202F
    || n == 0x205F || n == 0x3000
  }

  function LowerChar(c: char): char {
    if 'A' <= c <= 'Z' then (c as int + 32) as char else c
  }

  function UpperChar(c: char): char {
    if 'a' <= c <= 'z' then (c as int - 32) as char else c
  }

  /** `s.lower()` */
  function Lower(s: string): (r: string)
    ensures |r| == |s|
    ensures forall i :: 0 <= i < |s| ==> r[i] == LowerChar(s[i])
  {
    if s == [] then [] else [LowerChar(s[0])] + Lower(s[1..])
  }

  /** `s.upper()` */
  function Upper(s: string): (r: string)
    ensures |r| == |s|
    ensures forall i :: 0 <= i < |s| ==> r[i] == UpperChar(s[i])
  {
    if s == [] then [] else [UpperChar(s[0])] + Upper(s[1..])
  }

  lemma TailOfAppend(a: string, b: string)
    requires a != []
    ensures (a + b)[0] == a[0] && (a + b)[1..] == a[1..] + b
  {
  }

  lemma AppendAssoc(x: string, y: string, z: string)
    ensures x + (y + z) == (x + y) + z
  {
  }

  predicate IsPrefix(p: string, s: string) {
    |p| <= |s| && s[..|p|] == p
  }

  /** Python's `needle in hay`; the empty needle is in every string. */
  predicate Contains(hay: string, needle: string)
    decreases |hay|
  {
    IsPrefix(needle, hay) || (|hay| > 0 && Contains(hay[1..], needle))
  }

  lemma ContainsSelf(s: string)
    ensures Contains(s, s)
  {
    assert s[..|s|] == s;
  }

  /** An occurrence at a known offset is a containment. */
  lemma {:induction false} ContainsAt(hay: string, needle: string, i: nat)
    requires i + |needle| <= |hay| && hay[i..i + |needle|] == needle
    ensures Contains(hay, needle)
    decreases i
  {
    if i > 0 {
      assert hay[1..][i - 1..i - 1 + |needle|] == hay[i..i + |needle|];
      ContainsAt(hay[1..], needle, i - 1);
    }
  }

  /** A containment has an offset. */
  lemma {:induction false} ContainsOffset(hay: string, needle: string) returns (i: nat)
    requires Contains(hay, needle)
    ensures i + |needle| <= |hay| && hay[i..i + |needle|] == needle
    decreases |hay|
  {
    if IsPrefix(needle, hay) {
      i := 0;
    } else {
      var j := ContainsOffset(hay[1..], needle);
      assert hay[1..][j..j + |needle|] == hay[j + 1..j + 1 + |needle|];
      i := j + 1;
    }
  }

  /** A needle found inside a prefix or suffix of `hay` is found in `hay`. */
  lemma ContainsInPart(hay: string, lo: nat, hi: nat, needle: string)
    requires lo <= hi <= |hay| && Contains(hay[lo..hi], needle)
    ensures Contains(hay, needle)
  {
    var i := ContainsOffset(hay[lo..hi], needle);
    assert hay[lo + i..lo + i + |needle|] == needle by {
      forall k | 0 <= k < |needle|
        ensures hay[lo + i..lo + i + |needle|][k] == needle[k]
      {
        var part := hay[lo..hi];
        assert part[i..i + |needle|][k] == needle[k];
        assert part[i..i + |needle|][k] == part[i + k] == hay[lo + i + k];
        assert hay[lo + i..lo + i + |needle|][k] == hay[lo + i + k];
      }
    }
    ContainsAt(hay, needle, lo + i);
  }

  /** The suffix property lives in `StripLeftIsSuffix`, called where needed: as an
      ensures here it sets off unbounded instantiation around `Strip`. */
  function StripLeft(s: string): (r: string)
    ensures |r| <= |s|
    ensures r == [] || !IsSpace(r[0])
    ensures forall i :: 0 <= i < |s| - |r| ==> IsSpace(s[i])
    decreases |s|
  {
    if |s| > 0 && IsSpace(s[0]) then StripLeft(s[1..]) else s
  }

  function StripRight(s: string): (r: string)
    ensures |r| <= |s| && r == s[..|r|]
    ensures r == [] || !IsSpace(r[|r| - 1])
    ensures forall i :: |r| <= i < |s| ==> IsSpace(s[i])
    decreases |s|
  {
    if |s| > 0 && IsSpace(s[|s| - 1]) then StripRight(s[..|s| - 1]) else s
  }

  lemma {:induction false} StripLeftIsSuffix(s: string)
    ensures StripLeft(s) == s[|s| - |StripLeft(s)|..]
    decreases |s|
  {
    if |s| > 0 && IsSpace(s[0]) {
      StripLeftIsSuffix(s[1..]);
    }
  }

  /** The stripped string is a piece of the original. */
  lemma StripContained(s: string)
    ensures Contains(s, Strip(s))
  {
    var l := StripLeft(s);
    var r := StripRight(l);
    var off := |s| - |l|;
    StripLeftIsSuffix(s);
    assert s[off..off + |r|] == r;
    ContainsAt(s, r, off);
  }

  /** A piece of a piece is a piece. */
  lemma ContainsTrans(a: string, b: string, c: string)
    requires Contains(a, b) && Contains(b, c)
    ensures Contains(a, c)
  {
    var i := ContainsOffset(a, b);
    assert a[i..i + |b|] == b;
    ContainsInPart(a, i, i + |b|, c);
  }

  /** `s.strip()` */
  function Strip(s: string): string {
    StripRight(StripLeft(s))
  }

  /** Neither end of `s` is whitespace. */
  predicate IsStripped(s: string) {
    s == [] || (!IsSpace(s[0]) && !IsSpace(s[|s| - 1]))
  }

  lemma StripIsStripped(s: string)
    ensures IsStripped(Strip(s))
  {
    var l := StripLeft(s);
    var r := StripRight(l);
    if r != [] {
      assert r[0] == l[0];
    }
  }

  lemma StripOfStripped(s: string)
    requires IsStripped(s)
    ensures StripLeft(s) == s && StripRight(s) == s && Strip(s) == s
  {
  }

  /** A stripped string is empty exactly when the input is all whitespace. */
  lemma StripEmpty(s: string)
    ensures Strip(s) == [] <==> forall i :: 0 <= i < |s| ==> IsSpace(s[i])
  {
    var l := StripLeft(s);
    var off := |s| - |l|;
    StripLeftIsSuffix(s);
    if l != [] {
      assert !IsSpace(s[off]);
    }
    if Strip(s) == [] {
      assert l == [];
    }
  }

  predicate IsDigit(c: char) {
    '0' <= c <= '9'
  }

  predicate AllDigits(s: string) {
    forall i :: 0 <= i < |s| ==> IsDigit(s[i])
  }

  function DigitChar(d: nat): (c: char)
    requires d < 10
    ensures IsDigit(c)
  {
    ('0' as int + d) as char
  }

  /** The value of a run of decimal digits (leading zeros allowed, as `int()` allows them). */
  function DigitsValue(s: string): nat
    requires AllDigits(s)
  {
    if s == [] then 0 else 10 * DigitsValue(s[..|s| - 1]) + (s[|s| - 1] as int - '0' as int)
  }

  /** `str(n)` for a natural number, with its round trip through `DigitsValue`. */
  function NatToString(n: nat): (r: string)
    ensures |r| > 0 && AllDigits(r)
    ensures DigitsValue(r) == n
  {
    if n < 10 then [DigitChar(n)]
    else
      var front := NatToString(n / 10);
      var r := front + [DigitChar(n % 10)];
      assert r[..|r| - 1] == front;
      r
  }

  /** `str(i)` for any integer. */
  function IntToString(i: int): string {
    if i < 0 then ['-'] + NatToString(-i) else NatToString(i)
  }

  /** Python's `int(s)` on a string: surrounding whitespace, an optional sign, then
      one or more ASCII digits; anything else is a `ValueError`, here `None`. */
  function ParseInt(s: string): Option<int> {
    var t := Strip(s);
    if |t| > 0 && (t[0] == '-' || t[0] == '+') then
      var d := t[1..];
      if |d| > 0 && AllDigits(d) then
        var v: int := DigitsValue(d);
        Some(if t[0] == '-' then -v else v)
      else None
    else if |t| > 0 && AllDigits(t) then Some(DigitsValue(t))
    else None
  }

  lemma DigitNotSpace(c: char)
    requires IsDigit(c)
    ensures !IsSpace(c)
  {
  }

  lemma ParseIntOfDigits(d: string)
    requires |d| > 0 && AllDigits(d)
    ensures ParseInt(d) == Some(DigitsValue(d))
  {
    DigitNotSpace(d[0]);
    DigitNotSpace(d[|d| - 1]);
    StripOfStripped(d);
  }

  lemma ParseIntOfNegative(d: string)
    requires |d| > 0 && AllDigits(d)
    ensures ParseInt(['-'] + d) == Some(-(DigitsValue(d) as int))
  {
    var s := ['-'] + d;
    DigitNotSpace(d[|d| - 1]);
    assert s[|s| - 1] == d[|d| - 1];
    assert !IsSpace('-');
    StripOfStripped(s);
    assert s[1..] == d;
  }

  /** Rendering an integer and parsing it back gives the integer. */
  lemma ParseIntOfIntToString(i: int)
    ensures ParseInt(IntToString(i)) == Some(i)
  {
    if i < 0 {
      ParseIntOfNegative(NatToString(-i));
    } else {
      ParseIntOfDigits(NatToString(i));
    }
  }

  /** `s.split(sep)` for a one-character separator. */
  function Split(s: string, sep: char): (parts: seq<string>)
    ensures |parts| >= 1
    ensures sep in s <==> |parts| >= 2
    decreases |s|
  {
    if s == [] then [""]
    else
      var rest := Split(s[1..], sep);
      assert sep in s <==> s[0] == sep || sep in s[1..];
      if s[0] == sep then [""] + rest else [[s[0]] + rest[0]] + rest[1..]
  }

  lemma {:induction false} SplitWithoutSep(s: string, sep: char)
    requires sep !in s
    ensures Split(s, sep) == [s]
    decreases |s|
  {
    if s != [] {
      assert s[0] != sep;
      assert forall k :: 0 <= k < |s| - 1 ==> s[1..][k] == s[k + 1];
      SplitWithoutSep(s[1..], sep);
      assert [s[0]] + s[1..] == s;
    }
  }

  /** Splitting at the first separator: the part before it, then the split of the rest. */
  lemma {:induction false} SplitAtSep(a: string, sep: char, b: string)
    requires sep !in a
    ensures Split(a + ([sep] + b), sep) == [a] + Split(b, sep)
    decreases |a|
  {
    var s := a + ([sep] + b);
    if a == [] {
      assert s == [sep] + b;
      assert s[1..] == b;
    } else {
      assert s[0] == a[0] && s[1..] == a[1..] + ([sep] + b);
      assert sep !in a[1..];
      SplitAtSep(a[1..], sep, b);
      assert [a[0]] + a[1..] == a;
    }
  }

  /** A rendered integer holds only digits and possibly a leading minus. */
  lemma IntToStringChars(i: int, c: char)
    requires !IsDigit(c) && c != '-'
    ensures c !in IntToString(i)
  {
    var s := IntToString(i);
    if i < 0 {
      assert forall k :: 1 <= k < |s| ==> s[k] == NatToString(-i)[k - 1];
    }
  }

  /** The longest whitespace-free prefix of `s`. */
  function TakeWord(s: string): (w: string)
    ensures |w| <= |s| && w == s[..|w|]
    ensures forall i :: 0 <= i < |w| ==> !IsSpace(w[i])
    ensures |w| < |s| ==> IsSpace(s[|w|])
  {
    if s == [] || IsSpace(s[0]) then [] else [s[0]] + TakeWord(s[1..])
  }

  /** A nonempty run of non-whitespace characters. */
  predicate IsWord(w: string) {
    |w| > 0 && forall i :: 0 <= i < |w| ==> !IsSpace(w[i])
  }

  lemma TakeWordIsWord(t: string)
    requires t != [] && !IsSpace(t[0])
    ensures IsWord(TakeWord(t))
  {
  }

  /** `s.split()` with no argument: the maximal whitespace-free runs of `s`. */
  function Words(s: string): (ws: seq<string>)
    ensures forall k :: 0 <= k < |ws| ==> IsWord(ws[k])
    decreases |s|
  {
    var t := StripLeft(s);
    if t == [] then []
    else
      var w := TakeWord(t);
      TakeWordIsWord(t);
      [w] + Words(t[|w|..])
  }

  /** `sep.join(ws)` */
  function Join(ws: seq<string>, sep: string): string {
    if ws == [] then "" else if |ws| == 1 then ws[0] else ws[0] + sep + Join(ws[1..], sep)
  }
}

=== FILE: termination.dfy ===
/** The goal-termination evaluator: a conjunction of the checks a termination
    spec names (package, activity, texts), each case-insensitive, with one
    reason recorded per check. */
module Termination {
  import opened Base
  import opened Strings
  import opened Ui

  /** The needle occurs in `hay` at offset `i`, character by character up to
      ASCII case. */
  predicate CiMatchAt(hay: string, needle: string, i: nat) {
    i + |needle| <= |hay| && forall k :: 0 <= k < |needle| ==> LowerChar(hay[i + k]) == LowerChar(needle[k])
  }

  /** `_ci_contains`: a nonempty haystack that contains the needle, ignoring case. */
  function CiContains(hay: string, needle: string): (r: bool)
    ensures r <==> hay != "" && exists i: nat :: CiMatchAt(hay, needle, i)
    ensures hay != "" && needle == "" ==> r
  {
    LowerContainsIff(hay, needle);
    assert needle == "" ==> CiMatchAt(hay, needle, 0);
    hay != "" && Contains(Lower(hay), Lower(needle))
  }

  lemma LowerContainsIff(hay: string, needle: string)
    ensures Contains(Lower(hay), Lower(needle)) <==> exists i: nat :: CiMatchAt(hay, needle, i)
  {
    var lh, ln := Lower(hay), Lower(needle);
    if Contains(lh, ln) {
      var i := ContainsOffset(lh, ln);
      forall k | 0 <= k < |needle|
        ensures LowerChar(hay[i + k]) == LowerChar(needle[k])
      {
        assert lh[i..i + |ln|][k] == ln[k];
      }
      assert CiMatchAt(hay, needle, i);
    }
    if exists i: nat :: CiMatchAt(hay, needle, i) {
      var i: nat :| CiMatchAt(hay, needle, i);
      assert lh[i..i + |ln|] == ln;
      ContainsAt(lh, ln, i);
    }
  }

  /** The element shows `t` in its text or its content description. */
  predicate Shows(e: Element, t: string) {
    CiContains(e.text, t) || CiContains(e.contentDesc, t)
  }

  /** The element shows one of `texts`, tried in order. */
  function ShowsAny(e: Element, texts: seq<string>): (r: bool)
    ensures r <==> exists j :: 0 <= j < |texts| && Shows(e, texts[j])
  {
    if texts == [] then false
    else
      assert forall j :: 1 <= j < |texts| ==> texts[j] == texts[1..][j - 1];
      Shows(e, texts[0]) || ShowsAny(e, texts[1..])
  }

  /** `_any_text_present`: the nested scan over elements and texts, stopping at the
      first hit; it holds exactly when some element shows some text. */
  function AnyTextPresent(es: seq<Element>, texts: seq<string>): (r: bool)
    ensures r <==> exists i, j :: 0 <= i < |es| && 0 <= j < |texts| && Shows(es[i], texts[j])
  {
    if es == [] then false
    else
      assert forall i :: 1 <= i < |es| ==> es[i] == es[1..][i - 1];
      ShowsAny(es[0], texts) || AnyTextPresent(es[1..], texts)
  }

  /** `_one_text_present` */
  predicate OneTextPresent(es: seq<Element>, t: string) {
    AnyTextPresent(es, [t])
  }

  /** `all(_one_text_present(t) for t in texts)` */
  function AllTextsPresent(es: seq<Element>, texts: seq<string>): (r: bool)
    ensures r <==> forall j :: 0 <= j < |texts| ==> OneTextPresent(es, texts[j])
  {
    if texts == [] then true
    else
      assert forall j :: 1 <= j < |texts| ==> texts[j] == texts[1..][j - 1];
      OneTextPresent(es, texts[0]) && AllTextsPresent(es, texts[1..])
  }

  /** The check one reason reports, with the expected value it names. */
  datatype Check =
    | PackageIs(exp: string)
    | ActivityIs(exp: string)
    | MustContainText(exp: string)
    | AnyOfTexts(texts: seq<string>)
    | AllOfTexts(texts: seq<string>)

  /** One entry of `detail`: the check and its outcome. */
  datatype Reason = Reason(check: Check, cond: bool)

  /** The evaluator's result: overall verdict, the reasons in check order, and the
      focus string it judged. */
  datatype Verdict = Verdict(ok: bool, detail: seq<Reason>, packageActivity: string)

  /** A present check as a one-element list, an absent one as nothing. */
  function When(present: bool, r: Reason): (w: seq<Reason>)
    ensures |w| == if present then 1 else 0
  {
    if present then [r] else []
  }

  /** `ok = ok and cond` over the reasons, starting from `True`. */
  function Conj(rs: seq<Reason>): (b: bool)
    ensures b <==> forall i :: 0 <= i < |rs| ==> rs[i].cond
  {
    if rs == [] then true
    else
      assert forall i :: 1 <= i < |rs| ==> rs[i] == rs[1..][i - 1];
      rs[0].cond && Conj(rs[1..])
  }

  lemma ConjAppend(a: seq<Reason>, b: seq<Reason>)
    ensures Conj(a + b) == (Conj(a) && Conj(b))
  {
    assert forall i :: 0 <= i < |a| ==> (a + b)[i] == a[i];
    assert forall i :: 0 <= i < |b| ==> (a + b)[|a| + i] == b[i];
  }

  /** The number of checks a spec names. */
  function CheckCount(conf: Spec): nat {
    (if conf.package.Some? then 1 else 0) + (if conf.activity.Some? then 1 else 0)
    + (if conf.mustContainText.Some? then 1 else 0) + (if conf.anyOfTexts.Some? then 1 else 0)
    + (if conf.allOfTexts.Some? then 1 else 0)
  }

  /** What a spec demands of a snapshot and focus string, field by field. */
  predicate Meets(es: seq<Element>, pa: string, conf: Spec) {
    (conf.package.Some? ==> Contains(Lower(pa), Lower(conf.package.value)))
    && (conf.activity.Some? ==> Contains(Lower(pa), Lower(conf.activity.value)))
    && (conf.mustContainText.Some? ==> OneTextPresent(es, conf.mustContainText.value))
    && (conf.anyOfTexts.Some? ==> exists i, j :: 0 <= i < |es| && 0 <= j < |conf.anyOfTexts.value|
                                             && Shows(es[i], conf.anyOfTexts.value[j]))
    && (conf.allOfTexts.Some? ==> forall j :: 0 <= j < |conf.allOfTexts.value| ==>
                                             OneTextPresent(es, conf.allOfTexts.value[j]))
  }

  /** Where the reason of check `k` (0 package, 1 activity, 2 must_contain_text,
      3 any_of_texts, 4 all_of_texts) lands: the number of named checks before it. */
  function Slot(conf: Spec, k: nat): nat {
    (if k > 0 && conf.package.Some? then 1 else 0) + (if k > 1 && conf.activity.Some? then 1 else 0)
    + (if k > 2 && conf.mustContainText.Some? then 1 else 0) + (if k > 3 && conf.anyOfTexts.Some? then 1 else 0)
  }

  /** The reasons of the checks a spec names, in the evaluator's order: each named
      check contributes one reason, placed after those of the named checks before
      it, carrying the expected value and the outcome of the check. */
  function Reasons(es: seq<Element>, pa: string, conf: Spec): (rs: seq<Reason>)
    ensures |rs| == CheckCount(conf)
    ensures conf.package.Some? ==>
              rs[Slot(conf, 0)] == Reason(PackageIs(conf.package.value), Contains(Lower(pa), Lower(conf.package.value)))
    ensures conf.activity.Some? ==>
              rs[Slot(conf, 1)] == Reason(ActivityIs(conf.activity.value), Contains(Lower(pa), Lower(conf.activity.value)))
    ensures conf.mustContainText.Some? ==>
              rs[Slot(conf, 2)] == Reason(MustContainText(conf.mustContainText.value),
                                          OneTextPresent(es, conf.mustContainText.value))
    ensures conf.anyOfTexts.Some? ==>
              rs[Slot(conf, 3)] == Reason(AnyOfTexts(conf.anyOfTexts.value), AnyTextPresent(es, conf.anyOfTexts.value))
    ensures conf.allOfTexts.Some? ==>
              rs[Slot(conf, 4)] == Reason(AllOfTexts(conf.allOfTexts.value), AllTextsPresent(es, conf.allOfTexts.value))
  {
    var low := Lower(pa);
    When(conf.package.Some?,
         Reason(PackageIs(conf.package.GetOr("")), Contains(low, Lower(conf.package.GetOr("")))))
    + When(conf.activity.Some?,
           Reason(ActivityIs(conf.activity.GetOr("")), Contains(low, Lower(conf.activity.GetOr("")))))
    + When(conf.mustContainText.Some?,
           Reason(MustContainText(conf.mustContainText.GetOr("")), OneTextPresent(es, conf.mustContainText.GetOr(""))))
    + When(conf.anyOfTexts.Some?,
           Reason(AnyOfTexts(conf.anyOfTexts.GetOr([])), AnyTextPresent(es, conf.anyOfTexts.GetOr([]))))
    + When(conf.allOfTexts.Some?,
           Reason(AllOfTexts(conf.allOfTexts.GetOr([])), AllTextsPresent(es, conf.allOfTexts.GetOr([]))))
  }

  /** `evaluate_termination`: the verdict is the conjunction of the reasons, one
      reason per named check (the verdict meets the spec by `VerdictMeetsSpec`).
      A spec naming no check is met by every screen. */
  function EvaluateTermination(snap: Snapshot, pa: string, conf: Spec): (r: Verdict)
    ensures r.ok == Conj(r.detail)
    ensures r.detail == Reasons(snap.elements, pa, conf)
    ensures |r.detail| == CheckCount(conf)
    ensures r.packageActivity == pa
    ensures conf == EmptySpec ==> r.ok && r.detail == []
  {
    var detail := Reasons(snap.elements, pa, conf);
    Verdict(Conj(detail), detail, pa)
  }

  lemma ConjWhen(present: bool, r: Reason)
    ensures Conj(When(present, r)) == (present ==> r.cond)
  {
  }

  /** The conjunction of five optional reasons. */
  lemma ConjFive(p1: bool, r1: Reason, p2: bool, r2: Reason, p3: bool, r3: Reason,
                 p4: bool, r4: Reason, p5: bool, r5: Reason)
    ensures Conj(When(p1, r1) + When(p2, r2) + When(p3, r3) + When(p4, r4) + When(p5, r5))
         == ((p1 ==> r1.cond) && (p2 ==> r2.cond) && (p3 ==> r3.cond) && (p4 ==> r4.cond) && (p5 ==> r5.cond))
  {
    var a, b, c, d, e := When(p1, r1), When(p2, r2), When(p3, r3), When(p4, r4), When(p5, r5);
    ConjWhen(p1, r1);
    ConjWhen(p2, r2);
    ConjWhen(p3, r3);
    ConjWhen(p4, r4);
    ConjWhen(p5, r5);
    ConjAppend(a, b);
    ConjAppend(a + b, c);
    ConjAppend(a + b + c, d);
    ConjAppend(a + b + c + d, e);
  }

  /** The verdict holds exactly when the spec is met. */
  lemma VerdictMeetsSpec(snap: Snapshot, pa: string, conf: Spec)
    ensures EvaluateTermination(snap, pa, conf).ok <==> Meets(snap.elements, pa, conf)
  {
    var es := snap.elements;
    var low := Lower(pa);
    ConjFive(conf.package.Some?,
             Reason(PackageIs(conf.package.GetOr("")), Contains(low, Lower(conf.package.GetOr("")))),
             conf.activity.Some?,
             Reason(ActivityIs(conf.activity.GetOr("")), Contains(low, Lower(conf.activity.GetOr("")))),
             conf.mustContainText.Some?,
             Reason(MustContainText(conf.mustContainText.GetOr("")), OneTextPresent(es, conf.mustContainText.GetOr(""))),
             conf.anyOfTexts.Some?,
             Reason(AnyOfTexts(conf.anyOfTexts.GetOr([])), AnyTextPresent(es, conf.anyOfTexts.GetOr([]))),
             conf.allOfTexts.Some?,
             Reason(AllOfTexts(conf.allOfTexts.GetOr([])), AllTextsPresent(es, conf.allOfTexts.GetOr([]))));
  }

  /** An empty `any_of_texts` list can never be met, an empty `all_of_texts`
      list always is. */
  lemma EmptyTextLists(snap: Snapshot, pa: string)
    ensures !EvaluateTermination(snap, pa, EmptySpec.(anyOfTexts := Some([]))).ok
    ensures EvaluateTermination(snap, pa, EmptySpec.(allOfTexts := Some([]))).ok
  {
  }

  /** More elements on screen never turn a met spec into an unmet one. */
  lemma {:induction false} MoreElementsStillMeet(es: seq<Element>, more: seq<Element>, pa: string, conf: Spec)
    requires Meets(es, pa, conf)
    ensures Meets(es + more, pa, conf)
  {
    var all := es + more;
    assert forall i :: 0 <= i < |es| ==> all[i] == es[i];
    forall t | true
      ensures OneTextPresent(es, t) ==> OneTextPresent(all, t)
    {
      if OneTextPresent(es, t) {
        var i, j :| 0 <= i < |es| && 0 <= j < 1 && Shows(es[i], [t][j]);
        assert Shows(all[i], [t][j]);
      }
    }
    if conf.anyOfTexts.Some? {
      var texts := conf.anyOfTexts.value;
      var i, j :| 0 <= i < |es| && 0 <= j < |texts| && Shows(es[i], texts[j]);
      assert Shows(all[i], texts[j]);
    }
  }

  lemma LowerUpperChar(c: char)
    ensures LowerChar(UpperChar(c)) == LowerChar(c)
  {
  }

  /** Upper-casing a checked package or activity does not change the verdict. */
  lemma PackageCheckIgnoresCase(snap: Snapshot, pa: string, conf: Spec)
    requires conf.package.Some?
    ensures EvaluateTermination(snap, pa, conf.(package := Some(Upper(conf.package.value)))).ok
         == EvaluateTermination(snap, pa, conf).ok
  {
    var p := conf.package.value;
    VerdictMeetsSpec(snap, pa, conf);
    VerdictMeetsSpec(snap, pa, conf.(package := Some(Upper(p))));
    assert Lower(Upper(p)) == Lower(p) by {
      forall k | 0 <= k < |p|
        ensures Lower(Upper(p))[k] == Lower(p)[k]
      {
        LowerUpperChar(p[k]);
      }
    }
  }
}

=== FILE: ui.dfy ===
/** The data the decision-and-verification engine passes around: normalized UI
    elements and snapshots, selector targets, actions, observations, history,
    termination/expectation specs and the per-app planner configuration. Every
    value is immutable; a new device observation builds a new snapshot. */
module Ui {
  import opened Base
  import opened Strings

  /** Pixel rectangle `[left, top, right, bottom]`; the normalizer only ever
      produces non-negative coordinates and does not enforce left <= right. */
  datatype Rect = Rect(left: nat, top: nat, right: nat, bottom: nat)

  datatype Point = Point(x: int, y: int)

  /** One node of the UI dump after normalization; absent attributes are "". */
  datatype Element = Element(
    elementId: string,
    resourceId: string,
    text: string,
    contentDesc: string,
    className: string,
    bounds: Rect,
    clickable: bool,
    focusable: bool,
    center: Point)

  /** The element list in document order plus the `by_id` index. */
  datatype Snapshot = Snapshot(elements: seq<Element>, byId: map<string, Element>)

  /** The first element of `es`, in document order, that satisfies `p`. */
  function FirstWhere(es: seq<Element>, p: Element -> bool): (r: Option<Element>)
    ensures r.Some? ==> exists i :: 0 <= i < |es| && es[i] == r.value && p(es[i])
                          && forall j :: 0 <= j < i ==> !p(es[j])
    ensures r.None? ==> forall i :: 0 <= i < |es| ==> !p(es[i])
  {
    if es == [] then None
    else if p(es[0]) then Some(es[0])
    else
      var r := FirstWhere(es[1..], p);
      assert forall i :: 1 <= i < |es| ==> es[i] == es[1..][i - 1];
      r
  }

  /** The first satisfying position determines the result. */
  lemma {:induction false} FirstWhereAt(es: seq<Element>, p: Element -> bool, i: nat)
    requires i < |es| && p(es[i])
    requires forall j :: 0 <= j < i ==> !p(es[j])
    ensures FirstWhere(es, p) == Some(es[i])
    decreases i
  {
    if i > 0 {
      assert !p(es[0]);
      assert forall j :: 0 <= j < i - 1 ==> es[1..][j] == es[j + 1];
      FirstWhereAt(es[1..], p, i - 1);
    }
  }

  /** Predicates that agree on every element pick the same element. */
  lemma {:induction false} FirstWhereSame(es: seq<Element>, p1: Element -> bool, p2: Element -> bool)
    requires forall e :: p1(e) == p2(e)
    ensures FirstWhere(es, p1) == FirstWhere(es, p2)
    decreases |es|
  {
    if es != [] {
      FirstWhereSame(es[1..], p1, p2);
    }
  }

  /** The index only points into the element list, under each element's own id
      (true of every snapshot the normalizer builds). */
  predicate Indexed(s: Snapshot) {
    forall k :: k in s.byId ==> s.byId[k] in s.elements && s.byId[k].elementId == k
  }

  /** A selector `{by, value}`, `by` held in `selector`. It is free text because
      configs and model output may name any discriminant; only the action schema
      restricts it. */
  datatype Target = Target(selector: string, value: string)

  /** A JSON scalar in an `args` object. A non-integer number keeps its Python repr. */
  datatype ArgValue = Str(s: string) | Int(i: int) | Num(repr: string) | Bool(b: bool) | Null

  type Args = map<string, ArgValue>

  /** `{action, target?, args?}`; an absent `args` and an empty one are the same here. */
  datatype Action = Action(kind: string, target: Option<Target>, args: Args)

  /** `(args.get(key) or "")` for a string-valued argument. */
  function StrArg(args: Args, key: string): string {
    if key in args && args[key].Str? then args[key].s else ""
  }

  /** What one observation contributes to decisions: the focused
      `package/activity` string, "" when none was found. */
  datatype Observation = Observation(packageActivity: string)

  /** A fresh observation together with its normalized snapshot. */
  datatype Frame = Frame(obs: Observation, snap: Snapshot)

  /** One history entry; the plan is the only part any decision reads. */
  datatype Record = Record(plan: Action)

  type History = seq<Record>

  /** `list(history)[-3:]` */
  function Recent(h: History): (r: History)
    ensures |r| == if |h| < 3 then |h| else 3
    ensures forall i :: 0 <= i < |r| ==> r[i] == h[|h| - |r| + i]
  {
    if |h| <= 3 then h else h[|h| - 3..]
  }

  /** `not_package_in` accepts one package name or a list of them. */
  datatype PackageList = One(name: string) | Many(names: seq<string>)

  /** A termination or expectation dictionary: each field is `None` when its key
      is absent. `otherKeys` records that the dictionary also holds some key no
      evaluator reads (a misspelt `"text"`, say): such a dictionary is not empty,
      although no check looks at that key. */
  datatype Spec = Spec(
    package: Option<string>,
    activity: Option<string>,
    mustContainText: Option<string>,
    mustEqualText: Option<string>,
    anyOfTexts: Option<seq<string>>,
    allOfTexts: Option<seq<string>>,
    notPackageIn: Option<PackageList>,
    otherKeys: bool)

  const EmptySpec := Spec(None, None, None, None, None, None, None, false)

  /** `target_from_regex_group` of a plan hint. */
  datatype GroupTarget = GroupTarget(selector: string, group: int, prefix: string, suffix: string)

  /** One entry of `plan_hints`, keys absent as `None` / empty. */
  datatype Hint = Hint(
    containsAny: Option<seq<string>>,
    regex: Option<string>,
    kind: string,
    target: Option<Target>,
    prefer: seq<Target>,
    targetPrefer: seq<Target>,
    argsFromGroup: seq<(string, int)>,
    staticArgs: Option<Args>,
    targetFromGroup: Option<GroupTarget>)

  /** A per-app target configuration; "" stands for an absent or null string. */
  datatype Config = Config(
    appComponent: string,
    package: string,
    allowedPackages: seq<string>,
    hints: seq<Hint>,
    fallbackScroll: bool,
    fallbackScrollArgs: Option<Args>,
    termination: Spec,
    verifyAfterActionText: string)
}

=== FILE: verifier.dfy ===
/** Post-action verification: does the screen show what the last action was
    expected to produce, retried with back-off. Observing the device and sleeping
    are outside the model: `observe(i)` is the frame seen on attempt `i`, and the
    method returns the delays it would sleep instead of sleeping. */
module Verifier {
  import opened Base
  import opened Strings
  import opened Ui

  /** The element is an input field (its class mentions `edittext`, any case). */
  predicate IsEditField(e: Element) {
    Contains(Lower(e.className), "edittext")
  }

  /** `fuzzy_text_present`: some element that is not an input field has a text
      containing the needle, both stripped and lower-cased. Input fields are
      skipped so that a typed query does not count as its own result. */
  function FuzzyTextPresent(es: seq<Element>, needle: string): (r: bool)
    ensures r <==> exists i :: 0 <= i < |es| && ShowsResult(es[i], needle)
  {
    FirstWhere(es, e => ShowsResult(e, needle)).Some?
  }

  /** A result element: not an input field, and its text contains the needle. */
  predicate ShowsResult(e: Element, needle: string) {
    !IsEditField(e) && Contains(Lower(Strip(e.text)), Lower(Strip(needle)))
  }

  /** The `must_equal_text` scan: some element's stripped text equals the
      stripped needle exactly. */
  predicate ExactTextPresent(es: seq<Element>, needle: string) {
    exists i :: 0 <= i < |es| && Strip(es[i].text) == Strip(needle)
  }

  /** A string field counts only when it is set and nonempty. */
  predicate Given(s: Option<string>) {
    s.Some? && s.value != ""
  }

  /** One attempt's test: the text checks (contained, then exact) and the
      activity check, which is case-sensitive and fails with no focus string. */
  function Passes(want: Spec, f: Frame): (r: bool)
    ensures r <==> (Given(want.mustContainText) ==>
                      exists i :: 0 <= i < |f.snap.elements| && ShowsResult(f.snap.elements[i], want.mustContainText.value))
                   && (Given(want.mustEqualText) ==> ExactTextPresent(f.snap.elements, want.mustEqualText.value))
                   && (Given(want.activity) ==> f.obs.packageActivity != "" && Contains(f.obs.packageActivity, want.activity.value))
    ensures !Given(want.mustContainText) && !Given(want.mustEqualText) && !Given(want.activity) ==> r
    ensures Given(want.activity) && f.obs.packageActivity == "" ==> !r
  {
    var es := f.snap.elements;
    var pa := f.obs.packageActivity;
    var okText := !Given(want.mustContainText) || FuzzyTextPresent(es, want.mustContainText.value);
    var okEq := !Given(want.mustEqualText) || FirstWhere(es, (e: Element) => Strip(e.text) == Strip(want.mustEqualText.value)).Some?;
    var okAct := !Given(want.activity) || (pa != "" && Contains(pa, want.activity.value));
    okText && okEq && okAct
  }

  /** The back-off table `[0.5, 1.0, 2.0]`. */
  const Backoffs: seq<real> := [0.5, 1.0, 2.0]

  /** The sleep after failed attempt `i + 1`: 0.5 s, 1 s, then 2 s from then on. */
  function Backoff(i: nat): (r: real)
    ensures r == Backoffs[if i < |Backoffs| - 1 then i else |Backoffs| - 1]
    ensures r > 0.0
  {
    if i == 0 then 0.5 else if i == 1 then 1.0 else 2.0
  }

  /** `max(0, n)`: how many attempts `range`-style retrying makes. */
  function Budget(n: int): nat {
    if n > 0 then n else 0
  }

  /** The retry loop of `verify_and_retry` for any per-attempt test: it stops
      at the first attempt that passes; otherwise it makes every attempt the
      budget allows, each one failing. Between consecutive attempts it sleeps by
      the back-off table. */
  method RetryUntil(test: Frame -> bool, maxRetries: int, observe: nat -> Frame)
    returns (ok: bool, attempts: nat, delays: seq<real>, last: Option<Frame>)
    ensures attempts <= Budget(maxRetries)
    ensures ok ==> attempts >= 1 && test(observe(attempts))
    ensures forall i :: 1 <= i < attempts ==> !test(observe(i))
    ensures !ok ==> attempts == Budget(maxRetries)
    ensures !ok && attempts > 0 ==> !test(observe(attempts))
    ensures |delays| == (if attempts > 0 then attempts - 1 else 0)
    ensures forall i :: 0 <= i < |delays| ==> delays[i] == Backoff(i)
    ensures last == (if attempts == 0 then None else Some(observe(attempts)))
  {
    ok, attempts, delays, last := false, 0, [], None;
    while attempts < maxRetries
      invariant attempts <= Budget(maxRetries)
      invariant forall i :: 1 <= i <= attempts ==> !test(observe(i))
      invariant attempts == 0 ==> delays == []
      invariant attempts > 0 ==> |delays| == (if attempts < maxRetries then attempts else attempts - 1)
      invariant forall i :: 0 <= i < |delays| ==> delays[i] == Backoff(i)
      invariant last == (if attempts == 0 then None else Some(observe(attempts)))
      decreases maxRetries - attempts
    {
      attempts := attempts + 1;
      var frame := observe(attempts);
      last := Some(frame);
      if test(frame) {
        ok := true;
        return;
      }
      if attempts < maxRetries {
        delays := delays + [Backoff(attempts - 1)];
      }
    }
  }

  /** Whether attempt frame `f` settles the verification: always with no
      expectation, otherwise when the expectation passes. */
  predicate Settles(want: Option<Spec>, f: Frame) {
    want.None? || Passes(want.value, f)
  }

  /** `verify_and_retry`: the first attempt whose frame passes succeeds (the first
      attempt outright when there is no expectation), and a failure means every
      attempt in the budget failed. A budget of zero or less makes no attempt and
      fails even with no expectation. */
  method VerifyAndRetry(want: Option<Spec>, maxRetries: int, observe: nat -> Frame)
    returns (ok: bool, attempts: nat, delays: seq<real>, last: Option<Frame>)
    ensures attempts <= Budget(maxRetries)
    ensures ok ==> attempts >= 1 && Settles(want, observe(attempts))
    ensures ok && want.None? ==> attempts == 1
    ensures want.None? && maxRetries >= 1 ==> ok && attempts == 1
    ensures maxRetries <= 0 ==> !ok && attempts == 0
    ensures forall i :: 1 <= i < attempts ==> !Settles(want, observe(i))
    ensures !ok ==> attempts == Budget(maxRetries) && (attempts > 0 ==> !Settles(want, observe(attempts)))
    ensures |delays| == (if attempts > 0 then attempts - 1 else 0)
    ensures forall i :: 0 <= i < |delays| ==> delays[i] == Backoff(i)
    ensures last == (if attempts == 0 then None else Some(observe(attempts)))
  {
    ok, attempts, delays, last := RetryUntil(f => Settles(want, f), maxRetries, observe);
    assert want.None? ==> Settles(want, observe(1));
  }

  /** The total of the first `n` back-off sleeps. */
  function TotalBackoff(n: nat): real {
    if n == 0 then 0.0 else TotalBackoff(n - 1) + Backoff(n - 1)
  }

  /** Sleeping between `n + 1` attempts never exceeds 1.5 s plus 2 s for every
      sleep after the second. */
  lemma {:induction false} TotalBackoffBound(n: nat)
    ensures n >= 2 ==> TotalBackoff(n) == 1.5 + 2.0 * (n - 2) as real
    ensures TotalBackoff(n) <= 2.0 * n as real
  {
    if n > 0 {
      TotalBackoffBound(n - 1);
    }
  }
}
